=== FILE: README.md ===
# Ride-sharing back end: a Dafny model of its resolvers and services

This project models the GraphQL back end of a ride-sharing application. It covers:

- the user, driver, vehicle, ride, booking and payment resolvers;
- the registration, login and logout resolvers and the validators they call;
- the services those resolvers use to reach the document store;
- the schemas that shape every stored document;
- the key-value cache in front of the store.

Each resolver is a pure function. It takes:

- the database `Db`: one map per collection, plus a counter from which fresh ids are issued;
- the cache;
- the authenticated caller;
- the request.

It returns an `Outcome`: the database and cache afterwards, and the response envelope `{statusCode, msg, data}`.

Several things the server takes from outside become parameters:

- **Time** comes in as a `now` argument.
- **The bcrypt hash** comes in as the already hashed string.
- **bcrypt's comparison** is a function parameter.
- **Signing a JSON web token** is modelled by its claims (`Token`).

Store semantics are modelled as follows:

- **`findByIdAndUpdate`.** It merges a patch without running the schema's validators or its save hook. `updatedAt` is therefore kept.
- **`save`.** It runs the schema setters (trim, lower-case), applies the defaults, and enforces the unique indexes. A violated unique index is the 500 the resolver's catch block returns.
- **`findOne`.** It returns the first match in natural order. Ids are issued in increasing order, so natural order is ascending id.

Cache keys are the literal strings the resolvers build, for example `"user:" + id` and `"users:all"`. Their distinctness is proved.

Behaviour of the code worth noting:

- **Ride status.** The ride service admits every status change (`RideService.AnyTransitionAdmitted`).
- **Accepted rides.** Accepting a booking leaves the ride `in-progress`, and an `in-progress` ride can be booked again (`BookingResolver.AcceptedRideStaysBookable`).
- **Status codes.** Refusals use 400 for a second admin or an existing e-mail, and 403/404 where the resolver says so.
- **Booking cache.** Creating a booking leaves every cache entry in place.
- **One payment per booking.** Only the payment resolver's lookup enforces this; there is no unique index (`PaymentResolver.CreateKeepsOnePaymentPerBooking`).
- **Phone numbers.** The pattern accepts 10 to 12 digits, while its error message speaks of 10 to 15 (`AuthValidation.ThirteenDigitPhoneRefused`).

## Model

| member | source | states |
|---|---|---|
| Common.IdText | src/resolvers/user.resolver.ts:59-60 | the decimal text of an id, as interpolated into a cache key: non-empty, all digits, one digit exactly below ten |
| Common.IdTextInjective | src/resolvers/user.resolver.ts:59-60 | two ids have the same decimal text exactly when they are equal, so per-document keys never alias |
| Text.TrimStart | src/validations/auth.validation.ts:1 | leading white space removed: never longer, and the result does not start with white space |
| Text.TrimStartSplits | src/validations/auth.validation.ts:1 | what TrimStart drops is a blank prefix and the result is exactly the remaining suffix |
| Text.TrimEnd | src/validations/auth.validation.ts:1 | trailing white space removed: never longer, and the result does not end with white space |
| Text.TrimEndSplits | src/validations/auth.validation.ts:1 | what TrimEnd drops is a blank suffix and the result is exactly the remaining prefix |
| Text.Trim | src/validations/auth.validation.ts:1 | JavaScript `trim`: never longer, and neither end of a non-empty result is white space |
| Text.TrimEmptyIffBlank | src/validations/auth.validation.ts:1 | trimming gives the empty string if and only if the string is all white space |
| Text.TrimIdempotent | src/models/user.model.ts:18 | the schema setter's trim applied to a trimmed value changes nothing |
| Text.CodeUnits | src/validations/auth.validation.ts:7 | a character occupies one or two UTF-16 code units |
| Text.JsLength | src/validations/auth.validation.ts:7 | JavaScript `length` lies between the character count and twice it |
| Text.JsLengthOfBmp | src/validations/auth.validation.ts:7 | for characters of the Basic Multilingual Plane, JavaScript `length` is the character count |
| Text.LowerChar | src/models/user.model.ts:23 | an upper-case ASCII letter becomes its lower-case letter; any other character is kept |
| Text.Lower | src/models/user.model.ts:23 | `toLowerCase` keeps the length, maps each character by LowerChar, and leaves no upper-case letter |
| Store.Lookup | src/services/user.service.ts:13-20 | `findById` finds a document exactly when the id is stored, and returns that document |
| Store.Insert | src/services/user.service.ts:22-30 | `save` of a new document adds exactly one document under the fresh id and keeps every other |
| Store.Modify | src/services/user.service.ts:32-44 | an update of an absent id is null and changes nothing; otherwise only that document changes |
| Store.Remove | src/services/user.service.ts:46-54 | a delete reports true exactly when the id existed; afterwards only that id is gone |
| Store.RemoveWhere | src/services/ride.service.ts:81-92 | `deleteMany` removes exactly the matching documents, keeps the others unchanged, and reports whether any matched |
| Store.FindFirst | src/services/driver.service.ts:59-69 | `findOne` gives the least matching id, and none exactly when nothing matches |
| Store.FindFrom | src/services/driver.service.ts:59-69 | the ascending search from a given id gives the first match at or after it |
| Caching.Get | src/resolvers/user.resolver.ts:27-35 | a cached value is found exactly when its key is present, and it is the stored value |
| Caching.Set | src/resolvers/user.resolver.ts:38-40 | after `set`, the key holds the value with the 3600-second expiry and every other key is unchanged |
| Caching.Del | src/resolvers/user.resolver.ts:169-170 | after `del` only that key is gone, and deleting a missing key changes nothing |
| Caching.UserKeyInjective | src/resolvers/user.resolver.ts:59-60 | `user:<id>` keys name one user each |
| Caching.RideKeyInjective | src/resolvers/ride.resolver.ts:156-157 | `ride:<id>` keys name one ride each |
| Caching.KeysDistinct | src/resolvers/user.resolver.ts:135-136 | per-user keys, per-ride keys and the fixed list keys never collide |
| UserModel.StoredEmail | src/models/user.model.ts:19-25 | a stored e-mail is never longer than the input and holds no upper-case letter |
| UserModel.NewUser | src/models/user.model.ts:17-35 | a saved user has its name and phone trimmed, its e-mail in stored form, the password as given, the flags' schema defaults, the driver link as given (none when omitted), and both timestamps at save time |
| UserModel.NewUserDefaults | src/models/user.model.ts:28-31 | with no flags given, a user is a rider, not a driver, not an admin, and not phone-verified |
| UserModel.ApplyPatch | src/services/user.service.ts:32-44 | a profile patch keeps the password, role flags and timestamps; a carried name or phone is stored trimmed, a carried e-mail in stored form (trimmed, lower-cased), a carried driver link as given; every field the patch omits is kept |
| UserModel.EmptyPatchKeeps | src/services/user.service.ts:32-44 | the empty profile patch leaves the user unchanged |
| UserService.GetUserById | src/services/user.service.ts:13-20 | a user is found exactly when the id is stored, and it is that user |
| UserService.CreateUser | src/services/user.service.ts:22-30 | exactly one user is added, under the fresh id, and every other user is kept |
| UserService.UpdateUser | src/services/user.service.ts:32-44 | an absent id gives null and no change; otherwise only that user is patched, and the patched user is returned |
| UserService.DeleteUser | src/services/user.service.ts:46-54 | the result is true exactly when the user existed; afterwards only that user is gone |
| UserResolver.GetAllUsers | src/resolvers/user.resolver.ts:15-55 | non-admins get a 403. An admin gets the cached list when `users:all` is present; otherwise the stored users, which are then cached |
| UserResolver.GetUser | src/resolvers/user.resolver.ts:57-97 | the caller's own document comes from `user:<id>` when cached. Otherwise the stored user is returned and cached, or a 404 is given with nothing cached |
| UserResolver.FieldsOf | src/schema/user.schema.ts:25-32 | what `new User(input)` receives from a createUser input: its four profile fields, driver flag and driver link as given, and no admin, rider or phone-verified flag |
| UserResolver.CreateUser | src/resolvers/user.resolver.ts:101-117 | a 201 exactly when the unique e-mail/phone indexes and required fields admit the user, which is then saved under a fresh id with the input's driver link and driver flag, as a rider, not an admin and not phone-verified. Otherwise a 500 with nothing written |
| UserResolver.UpdateWith | src/resolvers/user.resolver.ts:119-151 | the profile update: a 404 for a missing caller and a 500 on a unique-index clash, both writing nothing. Otherwise only the caller's user is patched and the given keys are evicted |
| UserResolver.UpdateUser | src/resolvers/user.resolver.ts:119-151 | as written, a successful update evicts `user:<id>` and `usersupdate:all`, so a cached `users:all` survives it |
| UserResolver.UpdateUserCorrected | src/resolvers/user.resolver.ts:135-136 | with the evident key, a successful update leaves neither `users:all` nor `user:<id>` cached |
| UserResolver.CreateUserKeepsIndexes | src/resolvers/user.resolver.ts:101-117 | creating a user keeps the unique indexes |
| UserResolver.UpdateKeepsIndexes | src/resolvers/user.resolver.ts:119-151 | a profile update, as written or corrected, keeps the unique indexes |
| UserResolver.Purge | src/resolvers/user.resolver.ts:165-167 | an account deletion removes the user, the cascade's vehicle and driver, every ride of the user and every remaining driver of the user. Bookings and payments are kept |
| UserResolver.DeleteUser | src/resolvers/user.resolver.ts:153-185 | a 404 for a missing caller. Otherwise the cascade runs and `user:<id>` and `users:all` are evicted |
| UserResolver.DeletedUserLeavesNothing | src/resolvers/user.resolver.ts:165-167 | after an account deletion the user owns no ride and no driver record |
| CacheCoherence.ListingAnswersStore | src/resolvers/user.resolver.ts:25-40 | under a coherent cache the admin listing answers the stored users and keeps the cache coherent |
| CacheCoherence.GetUserKeepsListCoherent | src/resolvers/user.resolver.ts:80-82 | caching one profile never disturbs the list entry |
| CacheCoherence.CorrectedUpdateKeepsListCoherent | src/resolvers/user.resolver.ts:135-136 | the corrected profile update keeps the list coherent whatever it wrote |
| CacheCoherence.DeleteKeepsListCoherent | src/resolvers/user.resolver.ts:169-170 | an account deletion keeps the list coherent |
| CacheCoherence.StaleListAfterUpdate | src/resolvers/user.resolver.ts:135-136 | as written: listing, then a real profile change, then listing answers the old users, which differ from the stored ones |
| CacheCoherence.FreshListAfterCorrectedUpdate | src/resolvers/user.resolver.ts:135-136 | corrected: a listing after the profile change answers the stored users as updated |
| CacheCoherence.UserReadsCacheNoRides | src/resolvers/ride.resolver.ts:50-83 | the only resolvers that fill the cache never create a ride entry |
| CacheCoherence.RideReadServesUser | src/resolvers/ride.resolver.ts:52 | as written: after a profile read, asking for the ride with the caller's id answers the user's document as a ride from the cache |
| CacheCoherence.CorrectedRideReadAnswersStore | src/resolvers/ride.resolver.ts:50-83 | corrected: the ride read answers the stored ride, or a 404 exactly when there is none |
| CacheCoherence.RideListingAnswersStore | src/resolvers/ride.resolver.ts:13-48 | with no ride data cached, an admin's ride listing answers exactly the stored rides and caches nothing |
| CacheCoherence.RideWritesKeepNoRideEntries | src/resolvers/ride.resolver.ts:87-197 | creating, updating and deleting rides never put ride data into the cache |
| AuthValidation.IsEmptyIffBlank | src/validations/auth.validation.ts:1 | a value is empty exactly when it is missing or all white space |
| AuthValidation.ValidateName | src/validations/auth.validation.ts:3-11 | name required; accepted exactly when its UTF-16 length is 2 to 50 |
| AuthValidation.PatternGivesShape | src/validations/auth.validation.ts:13-22 | a string the e-mail pattern accepts has one `@`, no white space and a dot-separated domain |
| AuthValidation.ShapeGivesPattern | src/validations/auth.validation.ts:13-22 | every string of that shape matches the e-mail pattern |
| AuthValidation.EmailPatternIffShape | src/validations/auth.validation.ts:13-22 | the pattern and the shape description accept the same strings |
| AuthValidation.ValidateEmail | src/validations/auth.validation.ts:13-22 | e-mail required; accepted exactly when it has the e-mail shape, with the required message before the format message |
| AuthValidation.ValidatePassword | src/validations/auth.validation.ts:24-41 | the first failing check in the order required, length 6, upper case, lower case, digit; accepted exactly when all pass |
| AuthValidation.ValidatePhone | src/validations/auth.validation.ts:43-52 | phone required; accepted exactly when it is 10 to 12 ASCII digits |
| AuthValidation.ThirteenDigitPhoneRefused | src/validations/auth.validation.ts:44-49 | a 13-digit phone is refused although the message promises up to 15 digits |
| AuthValidation.ValidateIsDriver | src/validations/auth.validation.ts:54-59 | an error exactly when the driver flag is not a boolean |
| AuthValidation.FieldAt | src/validations/auth.validation.ts:61-80 | each position of the reporting order names the field of that rank |
| AuthValidation.FieldAtRank | src/validations/auth.validation.ts:61-80 | a field's rank leads back to that field |
| AuthValidation.Report | src/validations/auth.validation.ts:61-80 | a failed check gives exactly one error naming its field and message; a passed one gives none |
| AuthValidation.Collect | src/validations/auth.validation.ts:61-80 | the collected errors are correct, in reporting order, and empty exactly when every remaining check passes |
| AuthValidation.CollectComplete | src/validations/auth.validation.ts:61-80 | every failing check from a position on is reported |
| AuthValidation.RegisterResults | src/validations/auth.validation.ts:61-80 | the validator results sit at their fields' ranks |
| AuthValidation.ValidateRegisterInput | src/validations/auth.validation.ts:61-80 | no errors exactly when every field passes; each error is its field's own message; errors come in field order |
| AuthValidation.RegisterErrorsComplete | src/validations/auth.validation.ts:61-80 | every failing field of a registration is reported |
| AuthValidation.AcceptedRegisterComplete | src/validations/auth.validation.ts:61-80 | a registration with no errors carries every required field, a boolean driver flag, and a valid e-mail and password |
| AuthValidation.ValidateLoginInput | src/validations/auth.validation.ts:82-95 | one error for each failing field (e-mail, then password) and none otherwise; each error carries its field's message |
| AuthResolver.FindByEmail | src/resolvers/auth.resolver.ts:149-151 | the first stored user with exactly that e-mail, and none exactly when nobody has it |
| AuthResolver.Refusal | src/resolvers/auth.resolver.ts:34-71 | register's gates in order: a second admin, then validation errors, then an existing e-mail, each a 400; none exactly when all pass |
| AuthResolver.Account | src/resolvers/auth.resolver.ts:47-86 | the saved account has the hash as password and a verified phone. It is a rider exactly when not registering as a driver, a driver or an admin exactly when asked, and has no driver link yet |
| AuthResolver.SaveUser | src/resolvers/auth.resolver.ts:88 | the account is stored under the fresh id |
| AuthResolver.SaveVehicle | src/resolvers/auth.resolver.ts:93-96 | the driver's vehicle is stored under the fresh id |
| AuthResolver.SaveDriver | src/resolvers/auth.resolver.ts:98-111 | the driver is stored under the fresh id and the user is linked to it |
| AuthResolver.DriverVehicle | src/resolvers/auth.resolver.ts:91-96 | the registration's vehicle carries the trimmed licence number and the type, and nothing else |
| AuthResolver.RegisterDriver | src/resolvers/auth.resolver.ts:90-118 | a vehicle or driver refused by its indexes is a 500. Otherwise the vehicle, then the driver on it, are saved and the user is linked; no other answer is possible |
| AuthResolver.DriverLinksUser | src/resolvers/auth.resolver.ts:106-111 | a successful driver registration changes no user but the new one, whose link and update time are set |
| AuthResolver.CreateAccount | src/resolvers/auth.resolver.ts:88-124 | a user refused by its indexes is a 500 with nothing written. Otherwise the user, then any driver part, are saved; the answer is a 201 or a 500 and the cache never changes |
| AuthResolver.DetailsOf | src/resolvers/auth.resolver.ts:90 | driver details are acted on exactly when the registration asks to be a driver and carries them |
| AuthResolver.Register | src/resolvers/auth.resolver.ts:21-133 | a 400 exactly when one of the checks refuses, and then nothing is written; otherwise the account and any driver part are created, and a 201 leaves the fresh id holding the stored e-mail and the hash; the cache never changes |
| AuthResolver.RegisterAddsAccount | src/resolvers/auth.resolver.ts:88-124 | a registration answered 201 adds exactly one user, under the fresh id, with the e-mail, password and flags built from the input, and keeps every other user |
| AuthResolver.RegisteredAccount | src/resolvers/auth.resolver.ts:21-133 | a 201 means every gate passed, every field is present, and e-mail and password are valid |
| AuthResolver.AccountStored | src/resolvers/auth.resolver.ts:88-124 | after a 201 the user sits under the fresh id with the account's fields |
| AuthResolver.DriverRegistrationLeavesUser | src/resolvers/auth.resolver.ts:88-118 | registration is not atomic: a vehicle clash gives a 500 after the user has been saved |
| AuthResolver.SecondAdminRefused | src/resolvers/auth.resolver.ts:34-45 | once an admin has registered, any further admin registration is a 400 that leaves the store and the cache as they were |
| AuthResolver.RegisterKeepsIndexes | src/resolvers/auth.resolver.ts:88-124 | registration keeps the unique indexes of users, vehicles and drivers |
| AuthResolver.CreateAccountKeepsIndexes | src/resolvers/auth.resolver.ts:88-124 | saving the account, with any driver part, keeps the unique indexes |
| AuthResolver.RegisterDriverKeepsIndexes | src/resolvers/auth.resolver.ts:90-118 | the driver part of registration keeps the unique indexes |
| AuthResolver.SaveDriverKeepsIndexes | src/resolvers/auth.resolver.ts:98-111 | saving an admitted driver and linking the user to it keeps the unique indexes |
| AuthResolver.MixedCaseDuplicateIsServerError | src/resolvers/auth.resolver.ts:62-71 | an e-mail differing from a stored one only in case or padding passes the existence check, then hits the unique index (a 500) |
| AuthResolver.TokenOf | src/resolvers/auth.resolver.ts:169-180 | the token carries the user's id and the three role flags |
| AuthResolver.LoginWith | src/resolvers/auth.resolver.ts:135-185 | login in order: validation errors a 400, an unknown e-mail a 400, a wrong password a 400, otherwise a 200 with the user's token. Nothing is ever written |
| AuthResolver.Login | src/resolvers/auth.resolver.ts:149-151 | as written, the e-mail is looked up as given, and a 200 names a user with exactly that e-mail |
| AuthResolver.LoginCorrected | src/resolvers/auth.resolver.ts:149-151 | corrected, the e-mail is looked up in stored form, and a 200 names the user with that stored e-mail |
| AuthResolver.MixedCaseLoginRefused | src/resolvers/auth.resolver.ts:149-158 | as written, someone who registered with an upper-case letter in the e-mail can never log in with that e-mail |
| AuthResolver.NewAccountFound | src/resolvers/auth.resolver.ts:149-151 | a freshly saved user with a new e-mail is the one the e-mail lookup finds |
| AuthResolver.CorrectedLoginFinds | src/resolvers/auth.resolver.ts:160-180 | corrected login of a valid request whose stored-form e-mail finds a user with a matching password answers that user's token |
| AuthResolver.RegisteredFindable | src/resolvers/auth.resolver.ts:75-124 | after a 201 the stored-form e-mail finds the new user, who holds the hash and whose token has the account's roles |
| AuthResolver.CorrectedLoginAfterRegister | src/resolvers/auth.resolver.ts:135-185 | corrected: right after a successful registration, logging in with the same e-mail and password answers a 200 with the new user's token |
| AuthResolver.Logout | src/resolvers/auth.resolver.ts:187-202 | logout answers 200 and changes neither store nor cache |
| AuthResolver.LoginUnaffectedByLogout | src/resolvers/auth.resolver.ts:187-202 | a login answers the same after a logout as before it |
| DriverModel.NewDriver | src/models/driver.model.ts:16-39 | a saved driver has the trimmed licence, a rating in range, no rides, an unverified licence, and both timestamps at save time |
| DriverModel.ApplyPatch | src/services/driver.service.ts:32-47 | a driver patch keeps the user, the verification flag and the timestamps; a carried licence is stored trimmed, a carried vehicle, rating or ride count as given; every field the patch omits is kept |
| DriverModel.PatchIdempotent | src/services/driver.service.ts:32-47 | applying the same driver patch twice equals applying it once |
| DriverModel.EmptyPatchKeeps | src/services/driver.service.ts:32-47 | the empty driver patch leaves the driver unchanged |
| DriverModel.PatchCanLeaveRatingRange | src/models/driver.model.ts:29 | an update bypasses the rating bounds the schema checks on save |
| DriverService.GetDriverById | src/services/driver.service.ts:13-20 | a driver is found exactly when the id is stored, and it is that driver |
| DriverService.CreateDriver | src/services/driver.service.ts:22-30 | exactly one driver is added under the fresh id and every other is kept |
| DriverService.UpdateDriver | src/services/driver.service.ts:32-47 | an absent id gives null and no change; otherwise only that driver is patched |
| DriverService.MarkLicenseVerified | src/resolvers/driver.resolver.ts:205-221 | only that driver changes, and only its verification flag, which becomes true |
| DriverService.DeleteDriver | src/services/driver.service.ts:49-57 | the result is true exactly when the driver existed; afterwards only it is gone |
| DriverService.GetDriverByVehicleId | src/services/driver.service.ts:59-69 | a driver on that vehicle, the first in natural order, and none exactly when no driver references it |
| DriverService.DeleteDriverByUserId | src/services/driver.service.ts:71-79 | exactly the user's drivers are removed; true exactly when one existed |
| DriverResolver.GetAllDrivers | src/resolvers/driver.resolver.ts:9-32 | admins get every driver; others a 403 |
| DriverResolver.GetDriver | src/resolvers/driver.resolver.ts:34-57 | the stored driver, or a 404 exactly when the id is unknown |
| DriverResolver.Candidate | src/resolvers/driver.resolver.ts:61-77 | a created driver has the trimmed licence, the default rating, no rides and an unverified licence |
| DriverResolver.CreateDriver | src/resolvers/driver.resolver.ts:61-77 | a 201 exactly when the unique indexes admit the driver, which is then saved under a fresh id; otherwise a 500 with nothing written |
| DriverResolver.View | src/resolvers/driver.resolver.ts:116-130 | the update's answer gives the id, the licence (null when empty), the vehicle reference, the rating, the ride count and the update time |
| DriverResolver.UpdateDriver | src/resolvers/driver.resolver.ts:79-139 | a 404 for an unknown id; a 500 on a licence clash. Otherwise the patch is written, then a 400 if the referenced vehicle is missing, or else a 200 with the view |
| DriverResolver.MissingVehicleAnswerAfterWrite | src/resolvers/driver.resolver.ts:108-114 | the "vehicle information is missing" 400 is answered after the patch has been written |
| DriverResolver.DeletedVehicleBreaksDriverUpdate | src/resolvers/driver.resolver.ts:108-114 | once a driver's vehicle is deleted, every later update of that driver answers the missing-vehicle 400 |
| DriverResolver.DeleteDriver | src/resolvers/driver.resolver.ts:141-164 | a 404 for an unknown id; otherwise only that driver is removed |
| DriverResolver.DeletedDriverNotFound | src/resolvers/driver.resolver.ts:141-164 | once a driver is deleted, reading it is a 404 |
| DriverResolver.CreateDriverKeepsIndexes | src/resolvers/driver.resolver.ts:61-77 | creating a driver keeps the unique indexes |
| DriverResolver.UpdateDriverKeepsIndexes | src/resolvers/driver.resolver.ts:79-139 | updating a driver keeps the unique indexes, whatever the answer |
| DriverResolver.VerifyLicenseNumber | src/resolvers/driver.resolver.ts:166-233 | in order: 403 for non-admins, 500 with the error as data when the input is omitted (reading its licence number throws), 400 for an empty licence number, 404 for an unknown driver, 400 on a mismatch; no refusal writes. A 200 exactly when all pass, and then only the verification flag is set |
| DriverResolver.VerifyIdempotent | src/resolvers/driver.resolver.ts:166-233 | verifying twice answers the same as once and writes nothing more |
| DriverResolver.VerificationAdmitsRides | src/resolvers/ride.resolver.ts:110-124 | after a successful verification, a rider's ride request naming that driver is created |
| VehicleModel.NewVehicle | src/models/vehical.model.ts:16-36 | a saved vehicle has the trimmed licence number, the given type and capacity (at least 1), and both timestamps at save time |
| VehicleModel.ApplyPatch | src/services/vehicle.service.ts:34-49 | a vehicle patch keeps the type and timestamps; a carried licence is stored trimmed, each other carried field as given; every field the patch omits is kept |
| VehicleModel.PatchIdempotent | src/services/vehicle.service.ts:34-49 | applying the same vehicle patch twice equals applying it once |
| VehicleModel.EmptyPatchKeeps | src/services/vehicle.service.ts:34-49 | the empty vehicle patch leaves the vehicle unchanged |
| VehicleModel.PatchCanLeaveCapacityRange | src/services/vehicle.service.ts:44 | an update stores a capacity below the schema's minimum of 1 |
| VehicleService.GetVehicleById | src/services/vehicle.service.ts:15-22 | a vehicle is found exactly when the id is stored, and it is that vehicle |
| VehicleService.CreateVehicle | src/services/vehicle.service.ts:24-32 | exactly one vehicle is added under the fresh id and every other is kept |
| VehicleService.UpdateVehicle | src/services/vehicle.service.ts:34-49 | an absent id gives null and no change; otherwise only that vehicle is patched |
| VehicleService.DeleteVehicle | src/services/vehicle.service.ts:51-59 | the result is true exactly when the vehicle existed; afterwards only it is gone |
| VehicleService.DriverOfUser | src/services/vehicle.service.ts:63-66 | the user's driver with the least id, and none exactly when the user has no driver |
| VehicleService.VehicleWithLicense | src/services/vehicle.service.ts:68-74 | the vehicle with the least id carrying that licence number, and none exactly when no vehicle does |
| VehicleService.DeleteVehicleByUserId | src/services/vehicle.service.ts:61-87 | with no driver, or no vehicle with the driver's licence number, nothing changes and the answer is false. Otherwise the vehicle with the least id carrying that licence number and then that driver are deleted, with true. Only deletions happen |
| VehicleService.CascadeNotRepeated | src/services/vehicle.service.ts:61-87 | for a user with one driver, a successful cascade leaves no driver of the user, so repeating it answers false and deletes nothing |
| VehicleService.DeletesByLicenseNotByReference | src/services/vehicle.service.ts:68-74 | the cascade can keep the vehicle the driver references while deleting another vehicle with the same licence number |
| VehicleResolver.GetAllVehicles | src/resolvers/vehicle.resolver.ts:10-34 | admins get every vehicle; others a 403 |
| VehicleResolver.GetVehicle | src/resolvers/vehicle.resolver.ts:36-59 | the stored vehicle, or a 404 exactly when the id is unknown |
| VehicleResolver.CreateVehicle | src/resolvers/vehicle.resolver.ts:63-79 | a 201 exactly when the licence index admits the vehicle, which is then saved under a fresh id; otherwise a 500 with nothing written |
| VehicleResolver.UpdateVehicle | src/resolvers/vehicle.resolver.ts:81-129 | in order: 404 for an unknown id, 400 for a licence differing from the linked driver's, 500 on an index clash, each writing nothing. Otherwise only that vehicle is patched |
| VehicleResolver.PaddedLicenseRefused | src/resolvers/vehicle.resolver.ts:96-106 | the driver's own licence padded with a space is refused, although it would be stored as the driver's |
| VehicleResolver.DeleteVehicle | src/resolvers/vehicle.resolver.ts:131-154 | a 404 for an unknown id; otherwise only that vehicle is removed and drivers keep their reference |
| VehicleResolver.DeletedVehicleNotFound | src/resolvers/vehicle.resolver.ts:131-154 | once a vehicle is deleted, reading it is a 404 |
| VehicleResolver.CreateVehicleKeepsIndexes | src/resolvers/vehicle.resolver.ts:63-79 | creating a vehicle keeps the unique indexes |
| VehicleResolver.UpdateVehicleKeepsIndexes | src/resolvers/vehicle.resolver.ts:81-129 | updating a vehicle keeps the unique indexes |
| RideModel.StatusText | src/models/ride.model.ts:53-57 | every status is stored as one of the enum's names |
| RideModel.ParseStatus | src/models/ride.model.ts:53-57 | a text reads back as a status exactly when it is an enum name, and to the status with that name |
| RideModel.ParseStatusText | src/models/ride.model.ts:53-57 | reading back a stored status gives that status |
| RideModel.NewRide | src/models/ride.model.ts:26-68 | a saved ride keeps every given field, the given status, and both timestamps at save time |
| RideModel.NewRideIsPending | src/models/ride.model.ts:53-57 | a ride created without a status is pending |
| RideModel.ApplyPatch | src/services/ride.service.ts:32-44 | a ride patch keeps the rider, the status and the timestamps; each carried field (driver, vehicle, origin, destination, distance, time, price) is stored as given; every field the patch omits is kept |
| RideModel.PatchIdempotent | src/services/ride.service.ts:32-44 | applying the same ride patch twice equals applying it once |
| RideModel.EmptyPatchKeeps | src/services/ride.service.ts:32-44 | the empty ride patch leaves the ride unchanged |
| RideService.GetRideById | src/services/ride.service.ts:13-20 | a ride is found exactly when the id is stored, and it is that ride |
| RideService.CreateRide | src/services/ride.service.ts:22-30 | exactly one ride is added under the fresh id and every other is kept |
| RideService.UpdateRide | src/services/ride.service.ts:32-44 | an absent id gives null and no change; otherwise only that ride is patched |
| RideService.DeleteRide | src/services/ride.service.ts:46-54 | the result is true exactly when the ride existed; afterwards only it is gone |
| RideService.UpdateRideStatus | src/services/ride.service.ts:56-79 | only that ride changes, and only its status; null for an absent id |
| RideService.AnyTransitionAdmitted | src/services/ride.service.ts:56-79 | every status can be written over every status |
| RideService.DeleteRidesByUserId | src/services/ride.service.ts:81-92 | exactly the user's rides are removed; true exactly when one existed |
| RideResolver.GetAllRides | src/resolvers/ride.resolver.ts:13-48 | admins get the cached ride list when `rides:all` is present, else the stored rides; the listing never writes the cache; others a 403 |
| RideResolver.GetRide | src/resolvers/ride.resolver.ts:50-83 | as written, a cached `user:<id>` entry answers the ride read; otherwise the stored ride, or a 404 exactly when the id is unknown; nothing is written to the cache |
| RideResolver.GetRideCorrected | src/resolvers/ride.resolver.ts:50-83 | corrected: consults `ride:<id>`, the key `updateRide` evicts (src/resolvers/ride.resolver.ts:156); otherwise the stored ride or a 404; nothing is written to the cache |
| RideResolver.CreateRide | src/resolvers/ride.resolver.ts:87-140 | in order: 403 for non-riders, 404 for an unknown driver, 400 for an unverified licence. A 201 exactly when all pass, saving a ride for the caller on the driver's vehicle |
| RideResolver.CreatedRideConsistent | src/resolvers/ride.resolver.ts:87-140 | a created ride belongs to a rider and runs on its verified driver's vehicle |
| RideResolver.UpdateRide | src/resolvers/ride.resolver.ts:142-172 | a 404 for an unknown id; otherwise only that ride is patched and `ride:<id>` and `ridersupdate:all` are evicted |
| RideResolver.DeleteRide | src/resolvers/ride.resolver.ts:174-197 | a 404 for an unknown id; otherwise only that ride is removed and the cache is untouched |
| RideResolver.DeletedRideNotFound | src/resolvers/ride.resolver.ts:174-197 | once a ride is deleted, reading it is a 404 unless a `user:<id>` entry answers the read as written (or `ride:<id>` the corrected one) |
| BookingModel.StatusText | src/models/booking.model.ts:18-22 | every booking status has one of the enum's names as its text |
| BookingModel.ParseStatus | src/models/booking.model.ts:18-22 | a text reads back as a booking status exactly when it is an enum name |
| BookingModel.ParseStatusText | src/models/booking.model.ts:18-22 | reading back a booking status's name gives that status |
| BookingModel.PaymentStateText | src/models/booking.model.ts:24-28 | every booking payment state has one of the enum's names as its text |
| BookingModel.ParsePaymentState | src/models/booking.model.ts:24-28 | a text reads back as a payment state exactly when it is an enum name |
| BookingModel.ParsePaymentStateText | src/models/booking.model.ts:24-28 | reading back a payment state's name gives that state |
| BookingModel.NewBooking | src/models/booking.model.ts:15-36 | a saved booking keeps rider, ride and fare; its status and payment state are enum names that read back as the given ones; both timestamps are the save time |
| BookingModel.NewBookingDefaults | src/models/booking.model.ts:18-28 | omitted enums default to `accepted` and `unpaid` |
| BookingModel.ApplyPatch | src/services/booking.service.ts:32-47 | a booking patch keeps the timestamps; each carried field (user, ride, status, fare, payment status) is stored as given; every field the patch omits is kept |
| BookingModel.PatchIdempotent | src/services/booking.service.ts:32-47 | applying the same booking patch twice equals applying it once |
| BookingModel.EmptyPatchKeeps | src/services/booking.service.ts:32-47 | the empty booking patch leaves the booking unchanged |
| BookingModel.PatchCanStoreUnknownStatus | src/services/booking.service.ts:42 | an update stores any status or payment-status text as given, names outside the enums included |
| BookingService.GetBookingById | src/services/booking.service.ts:13-20 | a booking is found exactly when the id is stored, and it is that booking |
| BookingService.CreateBooking | src/services/booking.service.ts:22-30 | exactly one booking is added under the fresh id and every other is kept |
| BookingService.UpdateBooking | src/services/booking.service.ts:32-47 | an absent id gives null and no change; otherwise only that booking is patched |
| BookingService.DeleteBooking | src/services/booking.service.ts:49-57 | the result is true exactly when the booking existed; afterwards only it is gone |
| BookingService.UpdateBookingPaymentStatus | src/services/booking.service.ts:59-78 | only that booking changes, and only its payment state; null for an absent id |
| BookingResolver.GetAllBookings | src/resolvers/booking.resolver.ts:12-35 | admins get every booking; others a 403 |
| BookingResolver.GetBooking | src/resolvers/booking.resolver.ts:37-60 | the stored booking, or a 404 exactly when the id is unknown |
| BookingResolver.Refusal | src/resolvers/booking.resolver.ts:70-143 | createBooking's checks in order: driver, fare, status, payment state, ride, user, ride status. None exactly when all pass; each failure a 400 or 404 with no data |
| BookingResolver.CancelRide | src/resolvers/booking.resolver.ts:145-154 | a cancelling request cancels the ride and answers 201 with the ride before cancellation, saving no booking |
| BookingResolver.MarkRide | src/resolvers/booking.resolver.ts:145-154 | an accepting request puts the ride in progress; any other status leaves it alone |
| BookingResolver.AddBooking | src/resolvers/booking.resolver.ts:156-161 | the booking is saved under the fresh id |
| BookingResolver.SaveBooking | src/resolvers/booking.resolver.ts:145-161 | the ride is marked, then the booking with rider, ride, status, fare and payment state is saved, and a 201 is answered |
| BookingResolver.CreateBooking | src/resolvers/booking.resolver.ts:64-170 | a refused request answers the refusal with nothing written. A 201 exactly when admitted, then the ride is cancelled or the booking saved |
| BookingResolver.AcceptedRideStaysBookable | src/resolvers/booking.resolver.ts:134-154 | after an accepted booking the ride is in progress, which the status gate still admits |
| BookingResolver.ClosedRideRefused | src/resolvers/booking.resolver.ts:134-143 | a completed or cancelled ride is never booked and nothing is written |
| BookingResolver.UpdateBooking | src/resolvers/booking.resolver.ts:172-198 | a 404 for an unknown id; otherwise only that booking is patched |
| BookingResolver.DeleteBooking | src/resolvers/booking.resolver.ts:200-223 | a 404 for an unknown id; otherwise only that booking is removed |
| BookingResolver.DeletedBookingNotFound | src/resolvers/booking.resolver.ts:200-223 | once a booking is deleted, reading it is a 404 |
| PaymentModel.StatusText | src/models/payment.model.ts:31-35 | every payment status has one of the enum's names as its text |
| PaymentModel.ParseStatus | src/models/payment.model.ts:31-35 | a text reads back as a payment status exactly when it is an enum name |
| PaymentModel.ParseStatusText | src/models/payment.model.ts:31-35 | reading back a payment status's name gives that status |
| PaymentModel.NewPayment | src/models/payment.model.ts:17-43 | a saved payment keeps payer, booking, amount, method and any given currency; its status is an enum name that reads back as the given one; both timestamps are the save time |
| PaymentModel.NewPaymentDefaults | src/models/payment.model.ts:25-35 | an omitted currency is "USD" and an omitted status is pending |
| PaymentModel.ApplyPatch | src/services/payment.service.ts:36-52 | a payment patch keeps the timestamps; each carried field (user, booking, amount, currency, method, status) is stored as given; every field the patch omits is kept |
| PaymentModel.PatchIdempotent | src/services/payment.service.ts:36-52 | applying the same payment patch twice equals applying it once |
| PaymentModel.EmptyPatchKeeps | src/services/payment.service.ts:36-52 | the empty payment patch leaves the payment unchanged |
| PaymentModel.PatchCanStoreUnknownStatus | src/services/payment.service.ts:46 | an update stores any status text as given, names outside the enum included |
| PaymentService.GetPaymentById | src/services/payment.service.ts:15-23 | a payment is found exactly when the id is stored, and it is that payment |
| PaymentService.CreatePayment | src/services/payment.service.ts:25-34 | exactly one payment is added under the fresh id and every other is kept |
| PaymentService.UpdatePayment | src/services/payment.service.ts:36-52 | an absent id gives null and no change; otherwise only that payment is patched |
| PaymentService.DeletePayment | src/services/payment.service.ts:54-62 | the result is true exactly when the payment existed; afterwards only it is gone |
| PaymentService.GetPaymentByBookingId | src/services/payment.service.ts:64-74 | a payment for that booking, and none exactly when the booking has no payment |
| PaymentResolver.GetAllPayments | src/resolvers/payment.resolver.ts:10-33 | admins get every payment; others a 403 |
| PaymentResolver.GetPayment | src/resolvers/payment.resolver.ts:35-58 | the stored payment, or a 404 exactly when the id is unknown |
| PaymentResolver.CreatePayment | src/resolvers/payment.resolver.ts:62-132 | a 400 for a missing booking, or for one already paid. Otherwise the payment is saved for the caller and a given status is copied into the booking |
| PaymentResolver.StatusMirrored | src/resolvers/payment.resolver.ts:94-117 | a payment created with a status leaves its booking's payment state holding the same name, one of the booking enum's names |
| PaymentResolver.DefaultStatusNotMirrored | src/resolvers/payment.resolver.ts:94-117 | a payment created without a status is pending, while its booking's payment state is left as it was |
| PaymentResolver.CreateKeepsOnePaymentPerBooking | src/resolvers/payment.resolver.ts:82-91 | paying never gives a booking a second payment |
| PaymentResolver.UpdatePayment | src/resolvers/payment.resolver.ts:134-160 | a 404 for an unknown id; otherwise only that payment is patched |
| PaymentResolver.DeletePayment | src/resolvers/payment.resolver.ts:162-185 | a 404 for an unknown id; otherwise only that payment is removed |
| PaymentResolver.DeletedPaymentNotFound | src/resolvers/payment.resolver.ts:162-185 | once a payment is deleted, reading it is a 404 |

## Left out

- The authentication layer is not modelled. Every resolver receives an authenticated `Caller`, so the branches for a missing `context.user` cannot arise.
- Creation inputs the schemas would reject on save are excluded by their types, so the 500 answers for those saves are not modelled. This covers an out-of-enum status in createPayment and in createRide, an out-of-enum `vehicleType` in createVehicle and in the driver details of register, a vehicle capacity below 1 in createVehicle, and a missing required field of a ride, booking or payment. In register the vehicle is saved after the user, so that 500 would leave the user stored, as `AuthResolver.DriverRegistrationLeavesUser` shows for a duplicate vehicle licence number. (createBooking checks its status strings itself, and that check is modelled.)
- `findByIdAndUpdate` runs no schema validators, and the model follows that. Stored booking and payment statuses are therefore text, and a vehicle's capacity is a plain integer. An update may store an out-of-range rating (`DriverModel.PatchCanLeaveRatingRange`), an out-of-enum status (`BookingModel.PatchCanStoreUnknownStatus`, `PaymentModel.PatchCanStoreUnknownStatus`) or a capacity below 1 (`VehicleModel.PatchCanLeaveCapacityRange`).
- Text.Lower: lower-cases ASCII letters only, because Unicode case mapping is not modelled.
- The cache's 3600-second expiry is recorded on every entry but never simulated, because the model has no clock between calls.
- Some resolvers never touch the cache: createUser, register, createRide, createBooking and the vehicle, driver, booking and payment resolvers. Their writes leave `users:all` and `rides:all` stale until expiry. This is stated by the `o.cache == cache` clauses and is not otherwise repaired.
- Messages, notifications and the payment-method collection are not part of this model. No resolver of the modelled core reads them.
- Concurrency and interleaving of requests are not modelled. Each resolver runs atomically on the state it receives, so races between the check and the write (for example two concurrent payments for one booking) are not represented.
- bcrypt hashing is a parameter (`hashed`) and bcrypt comparison is a function parameter (`compare`). JSON web token signing, expiry and the secret are reduced to the token's claims.
- The answers for documents that vanish between a successful check and the next read cannot be reached without concurrent writers, so they are omitted:
  - the driver re-read after an update at driver.resolver.ts:100-106;
  - the 500 for a null update result in verifyLicenseNumber at driver.resolver.ts:209-215;
  - the null update result after the existence check at vehicle.resolver.ts:109-115.
- Explicit `null` values inside an update patch are not distinguished from absent fields.
- GeoJSON coordinates are not validated. Distances, prices, fares and ratings are `real`, so floating-point rounding and `NaN` are not modelled.
- The generic `catch` answers (500 with the error object) are modelled only for the failures the model can produce: unique-index violations and required-field violations. Errors raised by the database driver, the network or the cache server are out of scope. Ids are issued by the store, so a malformed id string (a cast error that each catch answers with 500) is not modelled. The login resolver's catch rethrows rather than answering; the model has no such errors to rethrow.
- The `instanceof` test on the driver id at auth.resolver.ts:106-111 always succeeds for an id the store issued, so only the linking branch is modelled.
- The second save of the user in register (linking the driver) re-runs no uniqueness check. Only the driver link and `updatedAt` change, so nothing it checks can newly fail.
- AuthResolver.Refusal: reads a missing e-mail as the empty string. This only happens once validation has failed, and validation failure is refused first.
- AuthResolver.Account: a missing name, e-mail, password or phone defaults to the empty string. This is unreachable after validation (`AuthValidation.AcceptedRegisterComplete`).

## Findings

| source | as written | input that shows it | evidently intended | confidence | as-written member | corrected member |
|---|---|---|---|---|---|---|
| src/resolvers/user.resolver.ts:135-136 | a successful profile update deletes `user:<id>` and `usersupdate:all`, a key nothing reads | an admin lists the users (filling `users:all`), changes their own name, and lists again: the old name is answered | delete `users:all`, the list key that `getAllUsers` fills | not executed | CacheCoherence.StaleListAfterUpdate | CacheCoherence.FreshListAfterCorrectedUpdate |
| src/resolvers/ride.resolver.ts:52 | `getRide` consults the cache under `user:${id}` | a user reads their own profile, so `user:<id>` is cached; then `getRide` with that same id answers the user document as "Ride fetched from cache" | consult `ride:${id}`, the per-ride key that `updateRide` evicts at src/resolvers/ride.resolver.ts:156 | not executed | CacheCoherence.RideReadServesUser | CacheCoherence.CorrectedRideReadAnswersStore |
| src/resolvers/auth.resolver.ts:149-151 | `login` compares the e-mail as typed with stored e-mails, which the schema setter at src/models/user.model.ts:23 lower-cases | register with `Ann@x.io`, then log in with `Ann@x.io` and the right password: "Invalid email or password" | look the e-mail up in the form the schema stores it (trimmed, lower-cased) | not executed | AuthResolver.MixedCaseLoginRefused | AuthResolver.CorrectedLoginAfterRegister |

=== FILE: auth_resolver.dfy ===
/** The authentication resolvers: registration (which for a driver also saves
    a vehicle and a driver record) and login. The password hash is an input
    of registration, the hash comparison a parameter of login, and the signed
    token is represented by its claims. */
module AuthResolver {
  import opened Common
  import opened UserModel
  import VehicleModel
  import DriverModel
  import opened Database
  import opened Caching
  import opened Response
  import opened Outcomes
  import opened AuthValidation
  import UserService
  import VehicleService
  import DriverService
  import Store

  /** `users.some(user => user.isAdmin)` over every stored user. */
  predicate HasAdmin(users: map<Id, User>) {
    exists k :: k in users && users[k].isAdmin
  }

  /** `users.find(user => user.email === email)` over the stored users in
      natural order: the first user whose stored e-mail is exactly `email`. */
  function FindByEmail(db: Db, email: string): (r: Option<Id>)
    ensures r.None? <==> forall k :: k in db.users ==> db.users[k].email != email
    ensures r.Some? ==> r.value in db.users && db.users[r.value].email == email
    ensures r.Some? ==> forall k :: k in db.users && k < r.value ==> db.users[k].email != email
  {
    Store.FindFirst(db.users, (u: User) => u.email == email, db.next)
  }

  /** The checks of `register`, in the order they run, given the validation
      `errors` of the input: a second admin is refused before anything else,
      then the validation errors, then an e-mail that a stored user has
      exactly as given. The answer of the first that fails, or none. */
  function Refusal(db: Db, input: RegisterInput, errors: seq<FieldError>): (r: Option<Envelope>)
    ensures r.None? <==>
              && !(input.isAdmin == Some(true) && HasAdmin(db.users))
              && errors == []
              && FindByEmail(db, input.email.GetOr([])).None?
    ensures r.Some? ==> r.value.statusCode == 400
    ensures input.isAdmin == Some(true) && HasAdmin(db.users) ==> r == Some(Envelope(400, OneAdminOnly, Null))
    ensures !(input.isAdmin == Some(true) && HasAdmin(db.users)) && errors != [] ==>
              r == Some(Envelope(400, ValidationErrors, Invalid(errors)))
    ensures !(input.isAdmin == Some(true) && HasAdmin(db.users)) && errors == []
              && FindByEmail(db, input.email.GetOr([])).Some? ==>
              r == Some(Envelope(400, UserExists, Null))
  {
    if input.isAdmin == Some(true) && HasAdmin(db.users) then Some(Envelope(400, OneAdminOnly, Null))
    else if errors != [] then Some(Envelope(400, ValidationErrors, Invalid(errors)))
    else if FindByEmail(db, input.email.GetOr([])).Some? then Some(Envelope(400, UserExists, Null))
    else None
  }

  /** The user `register` saves: the hash in place of the password, the phone
      marked verified, not a rider when registering as a driver (the input's
      own rider flag is ignored), and the other flags as given or defaulted. */
  function Account(input: RegisterInput, hashed: string, now: Time): (u: User)
    ensures u.password == hashed && u.isPhoneVerified
    ensures u.email == StoredEmail(input.email.GetOr([]))
    ensures u.isRider <==> input.isDriver != Some(true)
    ensures u.isDriver <==> input.isDriver == Some(true)
    ensures u.isAdmin <==> input.isAdmin == Some(true)
    ensures u.driverDetails.None? && u.createdAt == now && u.updatedAt == now
  {
    NewUser(UserFields(input.name.GetOr([]), input.email.GetOr([]), hashed, input.phone.GetOr([]), input.isDriver,
                       input.isAdmin, if input.isDriver == Some(true) then Some(false) else None, Some(true), None),
            now)
  }

  /** The user saved under the fresh id. */
  function SaveUser(db: Db, u: User): (d: Db)
    ensures d == db.(users := db.users[db.next := u], next := db.next + 1)
  {
    NextIsFresh(db);
    AddUsers(db, UserService.CreateUser(db.users, db.next, u))
  }

  /** The vehicle saved under the fresh id. */
  function SaveVehicle(db: Db, v: VehicleModel.Vehicle): (d: Db)
    ensures d == db.(vehicles := db.vehicles[db.next := v], next := db.next + 1)
  {
    NextIsFresh(db);
    AddVehicles(db, VehicleService.CreateVehicle(db.vehicles, db.next, v))
  }

  /** The driver saved under the fresh id, and the user `uid` linked to it. */
  function SaveDriver(db: Db, uid: Id, d: DriverModel.Driver, now: Time): (r: Db)
    requires uid in db.users
    ensures r == db.(drivers := db.drivers[db.next := d],
                     users := db.users[uid := db.users[uid].(driverDetails := Some(db.next), updatedAt := now)],
                     next := db.next + 1)
  {
    NextIsFresh(db);
    var saved := AddDrivers(db, DriverService.CreateDriver(db.drivers, db.next, d));
    WithUsers(saved, saved.users[uid := saved.users[uid].(driverDetails := Some(db.next), updatedAt := now)])
  }

  /** The vehicle a driver registration saves: licence number and type from
      the details, nothing else. */
  function DriverVehicle(details: DriverDetails, now: Time): (v: VehicleModel.Vehicle)
    ensures v.licenseNumber == Text.Trim(details.licenseNumber) && v.vehicleType == details.vehicleType
    ensures v.make.None? && v.capacity.None? && v.isAvailable.None?
  {
    VehicleModel.NewVehicle(VehicleModel.VehicleFields(details.licenseNumber, details.vehicleType,
                                                       None, None, None, None, None, None), now)
  }

  /** The driver part of `register`, after the user has been saved under
      `uid`. The vehicle is saved first and then the driver; a save the
      schema refuses is a 500 that keeps what was saved before it. On success
      the user is linked to the new driver and saved again. */
  function RegisterDriver(db: Db, cache: Cache, uid: Id, details: DriverDetails, now: Time): (o: Outcome)
    requires uid in db.users
    ensures o.cache == cache
    ensures o.resp.statusCode == 201 || o.resp.statusCode == 500
    ensures var v := DriverVehicle(details, now);
            !VehicleSaveable(db.vehicles, db.next, v) ==> o == Reply(db, cache, 500, InternalError, Fault)
    ensures var v := DriverVehicle(details, now);
            var withVehicle := SaveVehicle(db, v);
            var d := DriverModel.NewDriver(uid, details.licenseNumber, db.next, now);
            VehicleSaveable(db.vehicles, db.next, v) ==>
              && (!DriverSaveable(withVehicle.drivers, withVehicle.next, d) ==>
                    o == Reply(withVehicle, cache, 500, InternalError, Fault))
              && (DriverSaveable(withVehicle.drivers, withVehicle.next, d) ==>
                    var r := SaveDriver(withVehicle, uid, d, now);
                    && o.db == r
                    && o.resp == Envelope(201, DrriverRegistered,
                                          DriverAccount(uid, r.users[uid], db.next + 1, d, db.next, v)))
  {
    var v := DriverVehicle(details, now);
    if !VehicleSaveable(db.vehicles, db.next, v) then Reply(db, cache, 500, InternalError, Fault)
    else
      var withVehicle := SaveVehicle(db, v);
      var d := DriverModel.NewDriver(uid, details.licenseNumber, db.next, now);
      if !DriverSaveable(withVehicle.drivers, withVehicle.next, d) then
        Reply(withVehicle, cache, 500, InternalError, Fault)
      else
        var r := SaveDriver(withVehicle, uid, d, now);
        Outcome(r, cache, Envelope(201, DrriverRegistered, DriverAccount(uid, r.users[uid], db.next + 1, d, db.next, v)))
  }

  /** A driver registration answered 201 changes no user but `uid`, and that
      one only in its link to the new driver and its update time. */
  lemma DriverLinksUser(db: Db, cache: Cache, uid: Id, details: DriverDetails, now: Time)
    requires uid in db.users
    requires RegisterDriver(db, cache, uid, details, now).resp.statusCode == 201
    ensures var o := RegisterDriver(db, cache, uid, details, now);
            && o.db.users.Keys == db.users.Keys
            && (forall k :: k in db.users && k != uid ==> o.db.users[k] == db.users[k])
            && o.db.users[uid] == db.users[uid].(driverDetails := Some(db.next + 1), updatedAt := now)
  {
    var v := DriverVehicle(details, now);
    DriverWrites(db, cache, uid, details, now);
    SavesLinkUser(db, uid, v, DriverModel.NewDriver(uid, details.licenseNumber, db.next, now), now);
  }

  /** A driver registration answered 201 has saved the vehicle and then the
      driver on it. */
  lemma DriverWrites(db: Db, cache: Cache, uid: Id, details: DriverDetails, now: Time)
    requires uid in db.users
    requires RegisterDriver(db, cache, uid, details, now).resp.statusCode == 201
    ensures var v := DriverVehicle(details, now);
            RegisterDriver(db, cache, uid, details, now).db
              == SaveDriver(SaveVehicle(db, v), uid, DriverModel.NewDriver(uid, details.licenseNumber, db.next, now), now)
  {
  }

  /** Saving a vehicle and then a driver for `uid` touches no user but `uid`. */
  lemma SavesLinkUser(db: Db, uid: Id, v: VehicleModel.Vehicle, d: DriverModel.Driver, now: Time)
    requires uid in db.users
    ensures var r := SaveDriver(SaveVehicle(db, v), uid, d, now);
            && r.users.Keys == db.users.Keys
            && (forall k :: k in db.users && k != uid ==> r.users[k] == db.users[k])
            && r.users[uid] == db.users[uid].(driverDetails := Some(db.next + 1), updatedAt := now)
  {
    assert SaveVehicle(db, v).users == db.users;
  }

  /** The saves of an admitted registration of user `u`: the user's save
      refused by the schema is a 500 with nothing written; otherwise the user
      is saved under a fresh id and, for a driver with details, registration
      continues in `RegisterDriver`; anyone else gets a 201 with the saved
      user. */
  function CreateAccount(db: Db, cache: Cache, u: User, details: Option<DriverDetails>, now: Time): (o: Outcome)
    ensures o.cache == cache
    ensures o.resp.statusCode == 201 || o.resp.statusCode == 500
    ensures !UserSaveable(db.users, db.next, u) ==> o == Reply(db, cache, 500, InternalError, Fault)
    ensures UserSaveable(db.users, db.next, u) && details.Some? ==>
              o == RegisterDriver(SaveUser(db, u), cache, db.next, details.value, now)
    ensures UserSaveable(db.users, db.next, u) && details.None? ==>
              && o.db == db.(users := db.users[db.next := u], next := db.next + 1) && o.cache == cache
              && o.resp == Envelope(201, UserRegistered, Registered(db.next, u))
  {
    if !UserSaveable(db.users, db.next, u) then Reply(db, cache, 500, InternalError, Fault)
    else if details.Some? then RegisterDriver(SaveUser(db, u), cache, db.next, details.value, now)
    else Outcome(SaveUser(db, u), cache, Envelope(201, UserRegistered, Registered(db.next, u)))
  }

  /** The driver details `register` acts on: only those of a registration
      as a driver. */
  function DetailsOf(input: RegisterInput): (d: Option<DriverDetails>)
    ensures d.Some? <==> input.isDriver == Some(true) && input.driverDetails.Some?
    ensures d.Some? ==> d == input.driverDetails
  {
    if input.isDriver == Some(true) then input.driverDetails else None
  }

  /** `register`. A failed check is the only source of a 400, and answers
      with nothing written; otherwise the account built from the input is
      created, which answers a 201 or a 500. The cache is untouched. */
  function Register(db: Db, cache: Cache, input: RegisterInput, hashed: string, now: Time): (o: Outcome)
    ensures o.cache == cache
    ensures o.resp.statusCode == 400 <==> Refusal(db, input, ValidateRegisterInput(input)).Some?
    ensures Refusal(db, input, ValidateRegisterInput(input)).Some? ==>
              o.db == db && o.resp == Refusal(db, input, ValidateRegisterInput(input)).value
    ensures Refusal(db, input, ValidateRegisterInput(input)).None? ==>
              o == CreateAccount(db, cache, Account(input, hashed, now), DetailsOf(input), now)
    ensures o.resp.statusCode == 201 ==>
              && db.next in o.db.users && o.db.users[db.next].email == Account(input, hashed, now).email
              && o.db.users[db.next].password == hashed
  {
    var refusal := Refusal(db, input, ValidateRegisterInput(input));
    if refusal.Some? then Outcome(db, cache, refusal.value)
    else
      var created := CreateAccount(db, cache, Account(input, hashed, now), DetailsOf(input), now);
      assert created.resp.statusCode in {201, 500};
      if created.resp.statusCode == 201 then
        AccountStored(db, cache, Account(input, hashed, now), DetailsOf(input), now);
        created
      else created
  }

  /** A registration answered 201 passed every check and created the account
      built from its input. */
  lemma RegisteredAccount(db: Db, cache: Cache, input: RegisterInput, hashed: string, now: Time)
    requires Register(db, cache, input, hashed, now).resp.statusCode == 201
    ensures Refusal(db, input, ValidateRegisterInput(input)).None?
    ensures input.name.Some? && input.email.Some? && input.password.Some? && input.phone.Some?
    ensures ValidateEmail(input.email).None? && ValidatePassword(input.password).None?
    ensures Register(db, cache, input, hashed, now)
            == CreateAccount(db, cache, Account(input, hashed, now), DetailsOf(input), now)
  {
    AcceptedRegisterComplete(input);
  }

  /** A registration answered 201 has added exactly one user, under the
      fresh id, carrying the e-mail, password and flags built from the input,
      and has kept every other user. */
  lemma RegisterAddsAccount(db: Db, cache: Cache, input: RegisterInput, hashed: string, now: Time)
    requires Register(db, cache, input, hashed, now).resp.statusCode == 201
    ensures var o := Register(db, cache, input, hashed, now);
            var u := Account(input, hashed, now);
            && o.db.users.Keys == db.users.Keys + {db.next}
            && (forall k :: k in db.users ==> o.db.users[k] == db.users[k])
            && o.db.users[db.next].email == u.email && o.db.users[db.next].password == u.password
            && o.db.users[db.next].isAdmin == u.isAdmin && o.db.users[db.next].isDriver == u.isDriver
            && o.db.users[db.next].isRider == u.isRider
  {
    RegisteredAccount(db, cache, input, hashed, now);
    AccountStored(db, cache, Account(input, hashed, now), DetailsOf(input), now);
  }

  /** An account creation answered 201 has saved the user's save check
      passing, added exactly one user, under the fresh id, with the account's
      e-mail, password and flags, and kept every other user. */
  lemma AccountStored(db: Db, cache: Cache, u: User, details: Option<DriverDetails>, now: Time)
    requires CreateAccount(db, cache, u, details, now).resp.statusCode == 201
    ensures var o := CreateAccount(db, cache, u, details, now);
            && UserSaveable(db.users, db.next, u)
            && o.db.users.Keys == db.users.Keys + {db.next}
            && (forall k :: k in db.users ==> o.db.users[k] == db.users[k])
            && o.db.users[db.next].email == u.email && o.db.users[db.next].password == u.password
            && o.db.users[db.next].isAdmin == u.isAdmin && o.db.users[db.next].isDriver == u.isDriver
            && o.db.users[db.next].isRider == u.isRider
  {
    NextIsFresh(db);
    var saved := SaveUser(db, u);
    assert saved.users == db.users[db.next := u];
    if details.Some? {
      DriverLinksUser(saved, cache, db.next, details.value, now);
    }
  }

  /** Registration is not atomic: when the driver's vehicle is refused (its
      licence number is already some vehicle's), the answer is a 500 but the
      user stays saved, without a driver record. */
  lemma DriverRegistrationLeavesUser(db: Db, cache: Cache, input: RegisterInput, hashed: string, now: Time)
    requires Refusal(db, input, ValidateRegisterInput(input)).None?
    requires UserSaveable(db.users, db.next, Account(input, hashed, now))
    requires input.isDriver == Some(true) && input.driverDetails.Some?
    requires exists k :: k in db.vehicles &&
                         db.vehicles[k].licenseNumber == Text.Trim(input.driverDetails.value.licenseNumber)
    ensures var o := Register(db, cache, input, hashed, now);
            && o.resp == Envelope(500, InternalError, Fault)
            && db.next in o.db.users && o.db.users[db.next] == Account(input, hashed, now)
            && o.db.drivers == db.drivers
  {
    var u := Account(input, hashed, now);
    var saved := SaveUser(db, u);
    var v := DriverVehicle(input.driverDetails.value, now);
    var k :| k in db.vehicles && db.vehicles[k].licenseNumber == Text.Trim(input.driverDetails.value.licenseNumber);
    assert k in saved.vehicles && k != saved.next;
    assert !VehicleSaveable(saved.vehicles, saved.next, v);
  }

  /** Once an admin has registered, every further registration asking for
      admin rights is refused. */
  lemma SecondAdminRefused(db: Db, cache: Cache, input: RegisterInput, hashed: string, now: Time,
                           other: RegisterInput, hashed2: string, later: Time)
    requires input.isAdmin == Some(true) && Register(db, cache, input, hashed, now).resp.statusCode == 201
    requires other.isAdmin == Some(true)
    ensures var o := Register(db, cache, input, hashed, now);
            Register(o.db, o.cache, other, hashed2, later).resp == Envelope(400, OneAdminOnly, Null)
    ensures var o := Register(db, cache, input, hashed, now);
            Register(o.db, o.cache, other, hashed2, later).db == o.db
    ensures var o := Register(db, cache, input, hashed, now);
            Register(o.db, o.cache, other, hashed2, later).cache == o.cache
  {
    var o := Register(db, cache, input, hashed, now);
    RegisteredAccount(db, cache, input, hashed, now);
    var u := Account(input, hashed, now);
    AccountStored(db, cache, u, DetailsOf(input), now);
    assert o.db.users[db.next].isAdmin;
    assert HasAdmin(o.db.users);
  }

  /** The check for an existing account compares the e-mail as given with the
      stored, lower-cased ones: re-registering a stored address in other
      letter case passes the check and is refused by the unique index, a 500
      instead of "User already exists". */
  lemma MixedCaseDuplicateIsServerError(db: Db, cache: Cache, input: RegisterInput, hashed: string, now: Time)
    requires Refusal(db, input, ValidateRegisterInput(input)).None?
    requires exists k :: k in db.users && db.users[k].email == StoredEmail(input.email.GetOr([]))
    ensures Register(db, cache, input, hashed, now).resp == Envelope(500, InternalError, Fault)
  {
    AcceptedRegisterComplete(input);
    var u := Account(input, hashed, now);
    var k :| k in db.users && db.users[k].email == StoredEmail(input.email.GetOr([]));
    NextIsFresh(db);
    assert !UserUnique(db.users, db.next, u);
  }

  /** The claims of the token issued to user `id`. */
  function TokenOf(id: Id, u: User): (t: Token)
    ensures t.id == id && t.isDriver == u.isDriver && t.isAdmin == u.isAdmin && t.isRider == u.isRider
  {
    Token(id, u.isDriver, u.isAdmin, u.isRider)
  }

  /** The login shared by the resolver as written and the corrected one, with
      the user looked up under `key`: validation errors are a 400 listing
      them; no user with that e-mail, or a password that does not match the
      stored hash, is the same 400; otherwise a 200 with the user's token.
      Nothing is written. */
  function LoginWith(db: Db, cache: Cache, input: LoginInput, compare: (string, string) -> bool,
                     key: string -> string): (o: Outcome)
    ensures o.db == db && o.cache == cache
    ensures ValidateLoginInput(input) != [] ==>
              o.resp == Envelope(400, ValidationErrors, Invalid(ValidateLoginInput(input)))
    ensures ValidateLoginInput(input) == [] ==>
              && input.email.Some? && input.password.Some?
              && var found := FindByEmail(db, key(input.email.value));
                 && (found.None? ==> o.resp == Envelope(400, InvalidCredentials, Null))
                 && (found.Some? && !compare(input.password.value, db.users[found.value].password) ==>
                       o.resp == Envelope(400, InvalidCredentials, Null))
                 && (found.Some? && compare(input.password.value, db.users[found.value].password) ==>
                       o.resp == Envelope(200, LoginSuccessful, Issued(TokenOf(found.value, db.users[found.value]))))
  {
    var errors := ValidateLoginInput(input);
    if errors != [] then Reply(db, cache, 400, ValidationErrors, Invalid(errors))
    else
      match FindByEmail(db, key(input.email.value))
      case None => Reply(db, cache, 400, InvalidCredentials, Null)
      case Some(id) =>
        if !compare(input.password.value, db.users[id].password) then Reply(db, cache, 400, InvalidCredentials, Null)
        else Reply(db, cache, 200, LoginSuccessful, Issued(TokenOf(id, db.users[id])))
  }

  /** `login` as written: the e-mail is looked up exactly as given. */
  function Login(db: Db, cache: Cache, input: LoginInput, compare: (string, string) -> bool): (o: Outcome)
    ensures o == LoginWith(db, cache, input, compare, (e: string) => e)
    ensures o.resp.statusCode == 200 ==>
              exists k :: k in db.users && db.users[k].email == input.email.value
                          && compare(input.password.value, db.users[k].password)
  {
    LoginWith(db, cache, input, compare, (e: string) => e)
  }

  /** `login` looking the e-mail up in the form the schema stores it. */
  function LoginCorrected(db: Db, cache: Cache, input: LoginInput, compare: (string, string) -> bool): (o: Outcome)
    ensures o == LoginWith(db, cache, input, compare, StoredEmail)
    ensures o.resp.statusCode == 200 ==>
              exists k :: k in db.users && db.users[k].email == StoredEmail(input.email.GetOr([]))
                          && compare(input.password.value, db.users[k].password)
  {
    LoginWith(db, cache, input, compare, StoredEmail)
  }

  /** Every stored e-mail is in lower case, as the schema's setter leaves it. */
  predicate LowerCaseEmails(db: Db) {
    forall k :: k in db.users ==> !HasUpper(db.users[k].email)
  }

  /** `login` as written cannot let in anyone who registered with an upper-case
      letter in the address: right after a successful registration, logging in
      with the same e-mail and password is refused as invalid credentials,
      even when the password matches its hash. */
  lemma MixedCaseLoginRefused(db: Db, cache: Cache, input: RegisterInput, hashed: string, now: Time,
                              compare: (string, string) -> bool)
    requires LowerCaseEmails(db)
    requires Register(db, cache, input, hashed, now).resp.statusCode == 201
    requires HasUpper(input.email.GetOr([]))
    ensures var o := Register(db, cache, input, hashed, now);
            Login(o.db, o.cache, LoginInput(input.email, input.password), compare).resp
              == Envelope(400, InvalidCredentials, Null)
  {
    var o := Register(db, cache, input, hashed, now);
    RegisteredAccount(db, cache, input, hashed, now);
    var u := Account(input, hashed, now);
    AccountStored(db, cache, u, DetailsOf(input), now);
    var e := input.email.GetOr([]);
    assert !HasUpper(u.email);
    forall k | k in o.db.users
      ensures o.db.users[k].email != e
    {
      if k in db.users {
        assert !HasUpper(db.users[k].email);
      }
    }
    assert FindByEmail(o.db, e).None?;
  }

  /** A user saved under the fresh id with an e-mail no earlier user has is
      the one a look-up of that e-mail finds. */
  lemma NewAccountFound(db: Db, after: Db, u: User)
    requires UserSaveable(db.users, db.next, u)
    requires after.users.Keys == db.users.Keys + {db.next}
    requires forall k :: k in db.users ==> after.users[k] == db.users[k]
    requires after.users[db.next].email == u.email
    ensures FindByEmail(after, u.email) == Some(db.next)
  {
    NextIsFresh(db);
    forall k | k in after.users && k != db.next
      ensures after.users[k].email != u.email
    {
      assert k in db.users;
    }
  }

  /** The corrected login of a well-formed request whose e-mail finds user
      `id` and whose password matches that user's hash answers `id`'s token. */
  lemma CorrectedLoginFinds(db: Db, cache: Cache, login: LoginInput, compare: (string, string) -> bool, id: Id)
    requires ValidateEmail(login.email).None? && ValidatePassword(login.password).None?
    requires login.email.Some? && login.password.Some?
    requires FindByEmail(db, StoredEmail(login.email.value)) == Some(id)
    requires compare(login.password.value, db.users[id].password)
    ensures LoginCorrected(db, cache, login, compare).resp == Envelope(200, LoginSuccessful, Issued(TokenOf(id, db.users[id])))
  {
  }

  /** After a registration answered 201 the input passes the login
      validators, and a look-up of its e-mail in stored form finds the new
      user, which holds the hash and the account's flags. */
  lemma RegisteredFindable(db: Db, cache: Cache, input: RegisterInput, hashed: string, now: Time)
    requires Register(db, cache, input, hashed, now).resp.statusCode == 201
    ensures input.email.Some? && input.password.Some?
    ensures ValidateEmail(input.email).None? && ValidatePassword(input.password).None?
    ensures var o := Register(db, cache, input, hashed, now);
            var u := Account(input, hashed, now);
            && FindByEmail(o.db, StoredEmail(input.email.value)) == Some(db.next)
            && o.db.users[db.next].password == hashed
            && TokenOf(db.next, o.db.users[db.next]) == Token(db.next, u.isDriver, u.isAdmin, u.isRider)
  {
    var o := Register(db, cache, input, hashed, now);
    RegisteredAccount(db, cache, input, hashed, now);
    var u := Account(input, hashed, now);
    AccountStored(db, cache, u, DetailsOf(input), now);
    NewAccountFound(db, o.db, u);
  }

  /** The corrected login lets a new account in: right after a successful
      registration, logging in with the same e-mail and a password that
      matches the stored hash answers the token of the new user. */
  lemma CorrectedLoginAfterRegister(db: Db, cache: Cache, input: RegisterInput, hashed: string, now: Time,
                                    compare: (string, string) -> bool)
    requires Register(db, cache, input, hashed, now).resp.statusCode == 201
    requires compare(input.password.GetOr([]), hashed)
    ensures var o := Register(db, cache, input, hashed, now);
            var u := Account(input, hashed, now);
            LoginCorrected(o.db, o.cache, LoginInput(input.email, input.password), compare).resp
              == Envelope(200, LoginSuccessful, Issued(Token(db.next, u.isDriver, u.isAdmin, u.isRider)))
  {
    var o := Register(db, cache, input, hashed, now);
    RegisteredFindable(db, cache, input, hashed, now);
    CorrectedLoginFinds(o.db, o.cache, LoginInput(input.email, input.password), compare, db.next);
  }

  /** `logout`: a 200 and nothing else; the server keeps no session, so a
      token issued before stays as good as it was. */
  function Logout(db: Db, cache: Cache): (o: Outcome)
    ensures o.db == db && o.cache == cache
    ensures o.resp.statusCode == 200 && o.resp.data == Null
  {
    Reply(db, cache, 200, LogoutSuccessful, Null)
  }

  /** Logging out changes nothing a later login depends on: the same request
      is answered as before. */
  lemma LoginUnaffectedByLogout(db: Db, cache: Cache, input: LoginInput, compare: (string, string) -> bool)
    ensures var o := Logout(db, cache);
            Login(o.db, o.cache, input, compare) == Login(db, cache, input, compare)
  {
  }

  /** Registration keeps the unique indexes: each of its saves (the user, the
      vehicle, the driver) is made only when the indexes admit it, and the
      re-save of the user that links the driver keeps its e-mail and phone. */
  lemma RegisterKeepsIndexes(db: Db, cache: Cache, input: RegisterInput, hashed: string, now: Time)
    requires IndexesHold(db)
    ensures IndexesHold(Register(db, cache, input, hashed, now).db)
  {
    if Refusal(db, input, ValidateRegisterInput(input)).None? {
      CreateAccountKeepsIndexes(db, cache, Account(input, hashed, now), DetailsOf(input), now);
    }
  }

  /** The account creation part of `RegisterKeepsIndexes`. */
  lemma CreateAccountKeepsIndexes(db: Db, cache: Cache, u: User, details: Option<DriverDetails>, now: Time)
    requires IndexesHold(db)
    ensures IndexesHold(CreateAccount(db, cache, u, details, now).db)
  {
    if UserSaveable(db.users, db.next, u) {
      UserWriteKeepsIndexes(db, db.next, u);
      if details.Some? {
        RegisterDriverKeepsIndexes(SaveUser(db, u), cache, db.next, details.value, now);
      }
    }
  }

  /** The driver part of `RegisterKeepsIndexes`: the vehicle and then the
      driver are saved only when their indexes admit them. */
  lemma RegisterDriverKeepsIndexes(db: Db, cache: Cache, uid: Id, details: DriverDetails, now: Time)
    requires IndexesHold(db) && uid in db.users
    ensures IndexesHold(RegisterDriver(db, cache, uid, details, now).db)
  {
    var v := DriverVehicle(details, now);
    if VehicleSaveable(db.vehicles, db.next, v) {
      VehicleWriteKeepsIndexes(db, db.next, v);
      var withVehicle := SaveVehicle(db, v);
      var d := DriverModel.NewDriver(uid, details.licenseNumber, db.next, now);
      if DriverSaveable(withVehicle.drivers, withVehicle.next, d) {
        SaveDriverKeepsIndexes(withVehicle, uid, d, now);
      }
    }
  }

  /** Saving a driver the driver indexes admit and linking user `uid` to it
      keeps every unique index. */
  lemma SaveDriverKeepsIndexes(db: Db, uid: Id, d: DriverModel.Driver, now: Time)
    requires IndexesHold(db) && uid in db.users && DriverUnique(db.drivers, db.next, d)
    ensures IndexesHold(SaveDriver(db, uid, d, now))
  {
    DriverWriteKeepsIndexes(db, db.next, d);
    var w := db.(drivers := db.drivers[db.next := d]);
    var linked := db.users[uid].(driverDetails := Some(db.next), updatedAt := now);
    assert UserUnique(w.users, uid, linked);
    UserWriteKeepsIndexes(w, uid, linked);
  }
}

=== FILE: auth_validation.dfy ===
/** The registration and login validators: one pure check per field returning
    an error message or null, and the two collectors that gather the field
    errors in a fixed order. */
module AuthValidation {
  import opened Common
  import opened Text
  import VehicleModel

  /** The input fields a validation error can name. */
  datatype Field = NameField | EmailField | PasswordField | PhoneField | IsDriverField {

    /** The key under which an error reports the field. */
    function Key(): string {
      match this
      case NameField => "name"
      case EmailField => "email"
      case PasswordField => "password"
      case PhoneField => "phone"
      case IsDriverField => "isDriver"
    }

    /** The position of the field in the registration reporting order. */
    function Rank(): nat {
      match this
      case NameField => 0
      case EmailField => 1
      case PasswordField => 2
      case PhoneField => 3
      case IsDriverField => 4
    }
  }

  datatype FieldError = FieldError(field: Field, message: string)

  /** The driver part of a registration. */
  datatype DriverDetails = DriverDetails(licenseNumber: string, vehicleType: VehicleModel.VehicleType)

  /** A registration request; every field may be missing. */
  datatype RegisterInput = RegisterInput(
    name: Option<string>,
    email: Option<string>,
    password: Option<string>,
    phone: Option<string>,
    isDriver: Option<bool>,
    isAdmin: Option<bool>,
    isRider: Option<bool>,
    driverDetails: Option<DriverDetails>)

  /** A login request. */
  datatype LoginInput = LoginInput(email: Option<string>, password: Option<string>)

  const NameRequired: string := "Name is required and cannot be empty"
  const NameLength: string := "Name must be between 2 and 50 characters"
  const EmailRequired: string := "Email is required"
  const EmailFormat: string := "Invalid email format"
  const PasswordRequired: string := "Password is required"
  const PasswordShort: string := "Password must be at least 6 characters long"
  const PasswordNoUpper: string := "Password must contain at least one uppercase letter"
  const PasswordNoLower: string := "Password must contain at least one lowercase letter"
  const PasswordNoDigit: string := "Password must contain at least one number"
  const PhoneRequired: string := "Phone number is required"
  const PhoneFormat: string := "Phone number must be between 10 and 15 digits"
  const IsDriverNotBoolean: string := "isDriver must be a boolean value"

  /** `isEmpty`: the value is missing or trims to the empty string. */
  predicate IsEmpty(v: Option<string>) {
    v.None? || |Trim(v.value)| == 0
  }

  /** A value is empty exactly when it is missing or all white space. */
  lemma IsEmptyIffBlank(v: Option<string>)
    ensures IsEmpty(v) <==> v.None? || IsBlank(v.value)
  {
    if v.Some? {
      TrimEmptyIffBlank(v.value);
    }
  }

  /** `validateName`: required, then 2 to 50 UTF-16 units counted on the
      untrimmed text. */
  function ValidateName(name: Option<string>): (r: Option<string>)
    ensures IsEmpty(name) ==> r == Some(NameRequired)
    ensures !IsEmpty(name) ==> (r.None? <==> 2 <= JsLength(name.value) <= 50)
    ensures !IsEmpty(name) && r.Some? ==> r == Some(NameLength)
  {
    if IsEmpty(name) then Some(NameRequired)
    else if JsLength(name.value) < 2 || JsLength(name.value) > 50 then Some(NameLength)
    else None
  }

  /** A character of the class `[^\s@]`. */
  predicate Plain(c: char) {
    !IsSpace(c) && c != '@'
  }

  predicate AllPlain(s: string) {
    forall i :: 0 <= i < |s| ==> Plain(s[i])
  }

  /** The regular expression `^[^\s@]+@[^\s@]+\.[^\s@]+$`: a non-empty plain
      run, '@', a non-empty plain run, '.', and a non-empty plain run. */
  predicate MatchesEmailPattern(s: string) {
    exists a | 0 < a < |s| ::
      exists b | a + 1 < b < |s| - 1 ::
        && s[a] == '@' && s[b] == '.'
        && AllPlain(s[..a]) && AllPlain(s[a + 1..b]) && AllPlain(s[b + 1..])
  }

  /** The same language described by its properties: no white space, exactly
      one '@' with something before it, and after it a '.' that is neither the
      first nor the last character of the domain. */
  ghost predicate EmailShape(s: string) {
    && (forall i :: 0 <= i < |s| ==> !IsSpace(s[i]))
    && exists a :: 0 < a < |s| && s[a] == '@'
                   && (forall i :: 0 <= i < |s| && i != a ==> s[i] != '@')
                   && (exists b :: a + 1 < b < |s| - 1 && s[b] == '.')
  }

  lemma PatternGivesShape(s: string)
    requires MatchesEmailPattern(s)
    ensures EmailShape(s)
  {
    var a, b :| 0 < a < |s| && a + 1 < b < |s| - 1 && s[a] == '@' && s[b] == '.'
                && AllPlain(s[..a]) && AllPlain(s[a + 1..b]) && AllPlain(s[b + 1..]);
    forall i | 0 <= i < |s| && i != a
      ensures Plain(s[i])
    {
      if i < a {
        assert s[..a][i] == s[i];
      } else if i < b {
        assert s[a + 1..b][i - a - 1] == s[i];
      } else if i > b {
        assert s[b + 1..][i - b - 1] == s[i];
      }
    }
    assert 0 < a < |s| && s[a] == '@' && (forall i :: 0 <= i < |s| && i != a ==> s[i] != '@')
           && (a + 1 < b < |s| - 1 && s[b] == '.');
  }

  lemma ShapeGivesPattern(s: string)
    requires EmailShape(s)
    ensures MatchesEmailPattern(s)
  {
    var a :| 0 < a < |s| && s[a] == '@'
             && (forall i :: 0 <= i < |s| && i != a ==> s[i] != '@')
             && (exists b :: a + 1 < b < |s| - 1 && s[b] == '.');
    var b :| a + 1 < b < |s| - 1 && s[b] == '.';
    assert AllPlain(s[..a]);
    assert AllPlain(s[a + 1..b]);
    assert AllPlain(s[b + 1..]);
  }

  /** The pattern and the property description accept the same strings. */
  lemma EmailPatternIffShape(s: string)
    ensures MatchesEmailPattern(s) <==> EmailShape(s)
  {
    if MatchesEmailPattern(s) {
      PatternGivesShape(s);
    }
    if EmailShape(s) {
      ShapeGivesPattern(s);
    }
  }

  /** `validateEmail`: required, then the pattern. */
  function ValidateEmail(email: Option<string>): (r: Option<string>)
    ensures IsEmpty(email) ==> r == Some(EmailRequired)
    ensures r.None? <==> email.Some? && EmailShape(email.value)
    ensures !IsEmpty(email) && r.Some? ==> r == Some(EmailFormat)
  {
    EmailPatternIffShape(email.GetOr(""));
    IsEmptyIffBlank(email);
    if IsEmpty(email) then Some(EmailRequired)
    else if !MatchesEmailPattern(email.value) then Some(EmailFormat)
    else None
  }

  predicate HasUpper(s: string) {
    exists i | 0 <= i < |s| :: IsUpper(s[i])
  }

  predicate HasLower(s: string) {
    exists i | 0 <= i < |s| :: IsLower(s[i])
  }

  /** `/\d/` matches: `\d` is the ASCII digits only. */
  predicate HasDigit(s: string) {
    exists i | 0 <= i < |s| :: IsDigit(s[i])
  }

  /** `validatePassword`: the first failing check in the order required,
      at least 6 UTF-16 units, an upper-case, a lower-case letter, a digit. */
  function ValidatePassword(password: Option<string>): (r: Option<string>)
    ensures IsEmpty(password) ==> r == Some(PasswordRequired)
    ensures !IsEmpty(password) && JsLength(password.value) < 6 ==> r == Some(PasswordShort)
    ensures (!IsEmpty(password) && 6 <= JsLength(password.value) && !HasUpper(password.value))
            ==> r == Some(PasswordNoUpper)
    ensures (!IsEmpty(password) && 6 <= JsLength(password.value) && HasUpper(password.value)
             && !HasLower(password.value)) ==> r == Some(PasswordNoLower)
    ensures (!IsEmpty(password) && 6 <= JsLength(password.value) && HasUpper(password.value)
             && HasLower(password.value) && !HasDigit(password.value)) ==> r == Some(PasswordNoDigit)
    ensures r.None? <==> password.Some? && 6 <= JsLength(password.value) && HasUpper(password.value)
                         && HasLower(password.value) && HasDigit(password.value)
  {
    IsEmptyIffBlank(password);
    if IsEmpty(password) then Some(PasswordRequired)
    else if JsLength(password.value) < 6 then Some(PasswordShort)
    else if !HasUpper(password.value) then Some(PasswordNoUpper)
    else if !HasLower(password.value) then Some(PasswordNoLower)
    else if !HasDigit(password.value) then Some(PasswordNoDigit)
    else None
  }

  predicate AllDigits(s: string) {
    forall i :: 0 <= i < |s| ==> IsDigit(s[i])
  }

  /** `validatePhone`: required, then `^\d{10,12}$`. */
  function ValidatePhone(phone: Option<string>): (r: Option<string>)
    ensures IsEmpty(phone) ==> r == Some(PhoneRequired)
    ensures r.None? <==> phone.Some? && AllDigits(phone.value) && 10 <= |phone.value| <= 12
    ensures !IsEmpty(phone) && r.Some? ==> r == Some(PhoneFormat)
  {
    IsEmptyIffBlank(phone);
    if IsEmpty(phone) then Some(PhoneRequired)
    else if !(AllDigits(phone.value) && 10 <= |phone.value| <= 12) then Some(PhoneFormat)
    else None
  }

  /** The message promises up to 15 digits, but the pattern stops at 12: a
      13-digit number is refused with that very message. */
  lemma ThirteenDigitPhoneRefused()
    ensures ValidatePhone(Some("1234567890123")) == Some(PhoneFormat)
  {
    assert !IsBlank("1234567890123") by {
      assert !IsSpace("1234567890123"[0]);
    }
    IsEmptyIffBlank(Some("1234567890123"));
  }

  /** `validateIsDriver`: an error exactly when the value is not a boolean
      (here: missing). */
  function ValidateIsDriver(isDriver: Option<bool>): (r: Option<string>)
    ensures r.None? <==> isDriver.Some?
    ensures r.Some? ==> r.value == IsDriverNotBoolean
  {
    if isDriver.None? then Some(IsDriverNotBoolean) else None
  }

  /** The field at a position of the registration reporting order. */
  function FieldAt(k: nat): (f: Field)
    requires k < 5
    ensures f.Rank() == k
  {
    [NameField, EmailField, PasswordField, PhoneField, IsDriverField][k]
  }

  /** Each field sits at its own rank. */
  lemma FieldAtRank(f: Field)
    ensures FieldAt(f.Rank()) == f
  {
  }

  /** The result of the validator that owns field `f`. */
  function Check(input: RegisterInput, f: Field): Option<string> {
    match f
    case NameField => ValidateName(input.name)
    case EmailField => ValidateEmail(input.email)
    case PasswordField => ValidatePassword(input.password)
    case PhoneField => ValidatePhone(input.phone)
    case IsDriverField => ValidateIsDriver(input.isDriver)
  }

  /** A one-error list for a failed check, empty for a passed one. */
  function Report(f: Field, e: Option<string>): (r: seq<FieldError>)
    ensures |r| <= 1
    ensures r == [] <==> e.None?
    ensures forall i :: 0 <= i < |r| ==> r[i] == FieldError(f, e.value)
  {
    if e.Some? then [FieldError(f, e.value)] else []
  }

  /** The errors of the fields at positions `from` onwards, whose validators
      returned `results` (indexed by rank): each error names a field whose
      validator failed and carries that message, the fields appear in strictly
      increasing rank, and there is none exactly when every validator passed. */
  function Collect(results: seq<Option<string>>, from: nat): (errors: seq<FieldError>)
    requires |results| == 5 && from <= 5
    ensures forall i :: 0 <= i < |errors| ==>
              from <= errors[i].field.Rank() < 5 && results[errors[i].field.Rank()] == Some(errors[i].message)
    ensures forall i, j :: 0 <= i < j < |errors| ==> errors[i].field.Rank() < errors[j].field.Rank()
    ensures errors == [] <==> forall k :: from <= k < 5 ==> results[k].None?
    decreases 5 - from
  {
    if from == 5 then []
    else Report(FieldAt(from), results[from]) + Collect(results, from + 1)
  }

  /** Every failing validator from `from` onwards is reported. */
  lemma {:induction false} CollectComplete(results: seq<Option<string>>, from: nat, k: nat)
    requires |results| == 5 && from <= k < 5 && results[k].Some?
    ensures exists i :: 0 <= i < |Collect(results, from)| && Collect(results, from)[i].field == FieldAt(k)
    decreases 5 - from
  {
    var head := Report(FieldAt(from), results[from]);
    if k == from {
      assert Collect(results, from)[0].field == FieldAt(k);
    } else {
      CollectComplete(results, from + 1, k);
      var i :| 0 <= i < |Collect(results, from + 1)| && Collect(results, from + 1)[i].field == FieldAt(k);
      assert Collect(results, from)[|head| + i] == Collect(results, from + 1)[i];
    }
  }

  /** The validator results of a registration, indexed by field rank. */
  function RegisterResults(input: RegisterInput): (results: seq<Option<string>>)
    ensures |results| == 5
    ensures forall f: Field :: results[f.Rank()] == Check(input, f)
  {
    [Check(input, NameField), Check(input, EmailField), Check(input, PasswordField),
     Check(input, PhoneField), Check(input, IsDriverField)]
  }

  /** `validateRegisterInput`: the errors of name, email, password, phone and
      isDriver, in that order and at most one per field; empty exactly when
      every validator passes, and each error carries its field's validator
      message. */
  function ValidateRegisterInput(input: RegisterInput): (errors: seq<FieldError>)
    ensures errors == [] <==> forall f: Field :: Check(input, f).None?
    ensures forall i :: 0 <= i < |errors| ==> Check(input, errors[i].field) == Some(errors[i].message)
    ensures forall i, j :: 0 <= i < j < |errors| ==> errors[i].field.Rank() < errors[j].field.Rank()
  {
    var results := RegisterResults(input);
    assert forall k :: 0 <= k < 5 ==> results[k] == Check(input, FieldAt(k));
    Collect(results, 0)
  }

  /** Every failing field of a registration is reported. */
  lemma RegisterErrorsComplete(input: RegisterInput, f: Field)
    requires Check(input, f).Some?
    ensures exists i :: 0 <= i < |ValidateRegisterInput(input)| && ValidateRegisterInput(input)[i].field == f
  {
    var results := RegisterResults(input);
    assert ValidateRegisterInput(input) == Collect(results, 0);
    CollectComplete(results, 0, f.Rank());
    FieldAtRank(f);
  }

  /** A registration without errors carries every field the validators
      require. */
  lemma AcceptedRegisterComplete(input: RegisterInput)
    ensures ValidateRegisterInput(input) == [] ==>
              && input.name.Some? && input.email.Some? && input.password.Some? && input.phone.Some?
              && input.isDriver.Some?
              && ValidateEmail(input.email).None? && ValidatePassword(input.password).None?
  {
    if ValidateRegisterInput(input) == [] {
      assert Check(input, NameField).None? && Check(input, EmailField).None?;
      assert Check(input, PasswordField).None? && Check(input, PhoneField).None?;
      assert Check(input, IsDriverField).None?;
    }
  }

  /** `validateLoginInput`: only e-mail then password, with the same per-field
      checks as registration. */
  function ValidateLoginInput(input: LoginInput): (errors: seq<FieldError>)
    ensures errors == [] <==> ValidateEmail(input.email).None? && ValidatePassword(input.password).None?
    ensures |errors| == (if ValidateEmail(input.email).Some? then 1 else 0)
                        + (if ValidatePassword(input.password).Some? then 1 else 0)
    ensures forall i :: 0 <= i < |errors| ==>
              || errors[i] == FieldError(EmailField, ValidateEmail(input.email).GetOr(""))
              || errors[i] == FieldError(PasswordField, ValidatePassword(input.password).GetOr(""))
    ensures ValidateEmail(input.email).Some? ==> errors[0] == FieldError(EmailField, ValidateEmail(input.email).value)
    ensures ValidatePassword(input.password).Some? ==>
              errors[|errors| - 1] == FieldError(PasswordField, ValidatePassword(input.password).value)
  {
    Report(EmailField, ValidateEmail(input.email)) + Report(PasswordField, ValidatePassword(input.password))
  }
}

=== FILE: booking_model.dfy ===
/** The booking document: the rider, the ride, the booking status, the fare and
    the payment state. */
module BookingModel {
  import opened Common

  /** The values the schema's `status` enum admits. */
  datatype BookingStatus = Accepted | Rejected | Cancelled | Completed

  /** The values the schema's `paymentStatus` enum admits. */
  datatype PaymentState = Unpaid | Paid | Refunded | Pending

  const StatusNames: seq<string> := ["accepted", "rejected", "cancelled", "completed"]
  const PaymentStateNames: seq<string> := ["unpaid", "paid", "refunded", "pending"]

  function StatusText(s: BookingStatus): (t: string)
    ensures t in StatusNames
  {
    match s
    case Accepted => "accepted"
    case Rejected => "rejected"
    case Cancelled => "cancelled"
    case Completed => "completed"
  }

  /** Reading a booking status back from its text: defined exactly on the enum's names. */
  function ParseStatus(t: string): (r: Option<BookingStatus>)
    ensures r.Some? <==> t in StatusNames
    ensures r.Some? ==> StatusText(r.value) == t
  {
    if t == "accepted" then Some(Accepted)
    else if t == "rejected" then Some(Rejected)
    else if t == "cancelled" then Some(Cancelled)
    else if t == "completed" then Some(Completed)
    else None
  }

  lemma ParseStatusText(s: BookingStatus)
    ensures ParseStatus(StatusText(s)) == Some(s)
  {
  }

  function PaymentStateText(s: PaymentState): (t: string)
    ensures t in PaymentStateNames
  {
    match s
    case Unpaid => "unpaid"
    case Paid => "paid"
    case Refunded => "refunded"
    case Pending => "pending"
  }

  /** Reading a payment state back from its text: defined exactly on the enum's names. */
  function ParsePaymentState(t: string): (r: Option<PaymentState>)
    ensures r.Some? <==> t in PaymentStateNames
    ensures r.Some? ==> PaymentStateText(r.value) == t
  {
    if t == "unpaid" then Some(Unpaid)
    else if t == "paid" then Some(Paid)
    else if t == "refunded" then Some(Refunded)
    else if t == "pending" then Some(Pending)
    else None
  }

  lemma ParsePaymentStateText(s: PaymentState)
    ensures ParsePaymentState(PaymentStateText(s)) == Some(s)
  {
  }

  /** A stored booking. Its two enum fields hold text: the schema checks them
      against the enums when a booking is created, but an update writes
      whatever string it is given. */
  datatype Booking = Booking(
    user: Id,
    ride: Id,
    status: string,
    fare: real,
    paymentStatus: string,
    createdAt: Time,
    updatedAt: Time)

  /** A saved booking: the enum fields are stored by name, omitted ones take
      the schema defaults (`accepted`, `unpaid`), and the save hook stamps both
      times with `now`. */
  function NewBooking(user: Id, ride: Id, status: Option<BookingStatus>, fare: real,
                      paymentStatus: Option<PaymentState>, now: Time): (b: Booking)
    ensures b.user == user && b.ride == ride && b.fare == fare
    ensures b.status in StatusNames && b.paymentStatus in PaymentStateNames
    ensures status.Some? ==> ParseStatus(b.status) == status
    ensures paymentStatus.Some? ==> ParsePaymentState(b.paymentStatus) == paymentStatus
    ensures b.createdAt == now && b.updatedAt == now
  {
    ParseStatusText(status.GetOr(Accepted));
    ParsePaymentStateText(paymentStatus.GetOr(Unpaid));
    Booking(user, ride, StatusText(status.GetOr(Accepted)), fare,
            PaymentStateText(paymentStatus.GetOr(Unpaid)), now, now)
  }

  /** The schema defaults of a booking's two enums. */
  lemma NewBookingDefaults(user: Id, ride: Id, fare: real, now: Time)
    ensures NewBooking(user, ride, None, fare, None, now).status == "accepted"
    ensures NewBooking(user, ride, None, fare, None, now).paymentStatus == "unpaid"
  {
  }

  /** The fields an update may carry; the enum fields arrive as free text. */
  datatype BookingPatch = BookingPatch(
    user: Option<Id>,
    ride: Option<Id>,
    status: Option<string>,
    fare: Option<real>,
    paymentStatus: Option<string>)

  /** `findByIdAndUpdate` semantics: every field the patch carries overwrites,
      every other field, the timestamps included, is kept. */
  function ApplyPatch(b: Booking, p: BookingPatch): (q: Booking)
    ensures q.createdAt == b.createdAt && q.updatedAt == b.updatedAt
    ensures p.user.Some? ==> q.user == p.user.value
    ensures p.user.None? ==> q.user == b.user
    ensures p.ride.Some? ==> q.ride == p.ride.value
    ensures p.ride.None? ==> q.ride == b.ride
    ensures p.status.Some? ==> q.status == p.status.value
    ensures p.status.None? ==> q.status == b.status
    ensures p.fare.Some? ==> q.fare == p.fare.value
    ensures p.fare.None? ==> q.fare == b.fare
    ensures p.paymentStatus.Some? ==> q.paymentStatus == p.paymentStatus.value
    ensures p.paymentStatus.None? ==> q.paymentStatus == b.paymentStatus
  {
    b.(user := p.user.GetOr(b.user),
       ride := p.ride.GetOr(b.ride),
       status := p.status.GetOr(b.status),
       fare := p.fare.GetOr(b.fare),
       paymentStatus := p.paymentStatus.GetOr(b.paymentStatus))
  }

  /** Applying the same patch twice is the same as applying it once. */
  lemma PatchIdempotent(b: Booking, p: BookingPatch)
    ensures ApplyPatch(ApplyPatch(b, p), p) == ApplyPatch(b, p)
  {
  }

  /** The empty patch changes nothing. */
  lemma EmptyPatchKeeps(b: Booking)
    ensures ApplyPatch(b, BookingPatch(None, None, None, None, None)) == b
  {
  }

  /** A patch stores any status text as given, names outside both enums
      included: the enum check holds for new bookings only. */
  lemma PatchCanStoreUnknownStatus(b: Booking, t: string)
    ensures ApplyPatch(b, BookingPatch(None, None, Some(t), None, Some(t))).status == t
    ensures ApplyPatch(b, BookingPatch(None, None, Some(t), None, Some(t))).paymentStatus == t
    ensures ApplyPatch(b, BookingPatch(None, None, Some("archived"), None, None)).status !in StatusNames
  {
  }
}

=== FILE: booking_resolver.dfy ===
/** The booking resolvers: the admin listing, read by id, the driver's
    acceptance of a ride (which also moves the ride's status), update and
    delete. None of them touches the cache. */
module BookingResolver {
  import opened Common
  import opened BookingModel
  import RideModel
  import opened Database
  import opened Caching
  import opened Response
  import opened Outcomes
  import BookingService
  import RideService
  import UserService


  /** The payment states a new booking may start in: the schema's `pending`
      is not among them. */
  const BookablePaymentNames: seq<string> := ["unpaid", "paid", "refunded"]

  /** A booking request as the driver sends it; every field may be missing. */
  datatype BookingInput = BookingInput(
    ride: Option<Id>,
    status: Option<string>,
    fare: Option<real>,
    paymentStatus: Option<string>)

  /** `getAllBookings`: admins get every booking, others a 403. */
  function GetAllBookings(db: Db, cache: Cache, caller: Caller): (o: Outcome)
    ensures o.db == db && o.cache == cache
    ensures o.resp.statusCode == 200 <==> caller.isAdmin
    ensures !caller.isAdmin ==> o.resp == Envelope(403, AccessDenied, Null)
    ensures caller.isAdmin ==> o.resp.data == BookingList(db.bookings)
  {
    if !caller.isAdmin then Reply(db, cache, 403, AccessDenied, Null)
    else Reply(db, cache, 200, BookingsFetched, BookingList(db.bookings))
  }

  /** `getBooking`: the stored booking, or a 404. */
  function GetBooking(db: Db, cache: Cache, id: Id): (o: Outcome)
    ensures o.db == db && o.cache == cache
    ensures id !in db.bookings <==> o.resp == Envelope(404, BookingNotFound, Null)
    ensures id in db.bookings ==> o.resp == Envelope(200, BookingFetched, BookingDoc(id, db.bookings[id]))
  {
    match BookingService.GetBookingById(db.bookings, id)
    case None => Reply(db, cache, 404, BookingNotFound, Null)
    case Some(b) => Reply(db, cache, 200, BookingFetched, BookingDoc(id, b))
  }

  /** Every check `createBooking` makes before writing passes. */
  predicate Admitted(db: Db, caller: Caller, input: BookingInput) {
    && caller.isDriver
    && input.fare.Some? && input.fare.value > 0.0
    && input.status.Some? && input.status.value in StatusNames
    && input.paymentStatus.Some? && input.paymentStatus.value in BookablePaymentNames
    && input.ride.Some? && input.ride.value in db.rides
    && db.rides[input.ride.value].user in db.users
    && db.rides[input.ride.value].status in {RideModel.Pending, RideModel.InProgress}
  }

  /** The checks of `createBooking`, in the order they run: the answer of the
      first that fails, or none when all pass. The caller must be a driver,
      the fare a positive number, the status one of the four booking statuses,
      the payment status unpaid, paid or refunded; the ride must exist, its
      rider must exist and it must be pending or in progress. */
  function Refusal(db: Db, caller: Caller, input: BookingInput): (r: Option<Envelope>)
    ensures r.None? <==> Admitted(db, caller, input)
    ensures r.Some? ==> r.value.data == Null && r.value.statusCode in {400, 404}
    ensures !caller.isDriver ==> r == Some(Envelope(400, NotDriver, Null))
    ensures caller.isDriver && (input.fare.None? || input.fare.value <= 0.0) ==>
              r == Some(Envelope(400, BadFare, Null))
    ensures caller.isDriver && input.fare.Some? && input.fare.value > 0.0 ==>
              && ((input.status.None? || input.status.value !in StatusNames) ==>
                    r == Some(Envelope(400, BadStatus, Null)))
              && (input.status.Some? && input.status.value in StatusNames &&
                  (input.paymentStatus.None? || input.paymentStatus.value !in BookablePaymentNames) ==>
                    r == Some(Envelope(400, BadPaymentStatus, Null)))
    ensures (&& caller.isDriver && input.fare.Some? && input.fare.value > 0.0
             && input.status.Some? && input.status.value in StatusNames
             && input.paymentStatus.Some? && input.paymentStatus.value in BookablePaymentNames) ==>
              && ((input.ride.None? || input.ride.value !in db.rides) ==>
                    r == Some(Envelope(404, BookingRideNotFound, Null)))
              && (input.ride.Some? && input.ride.value in db.rides ==>
                    var ride := db.rides[input.ride.value];
                    && (ride.user !in db.users ==> r == Some(Envelope(404, BookingRiderNotFound, Null)))
                    && (ride.user in db.users && ride.status !in {RideModel.Pending, RideModel.InProgress} ==>
                          r == Some(Envelope(400, RideUnavailable, Null))))
  {
    if !caller.isDriver then Some(Envelope(400, NotDriver, Null))
    else if input.fare.None? || input.fare.value <= 0.0 then Some(Envelope(400, BadFare, Null))
    else if input.status.None? || ParseStatus(input.status.value).None? then Some(Envelope(400, BadStatus, Null))
    else if input.paymentStatus.None? || input.paymentStatus.value !in BookablePaymentNames then
      Some(Envelope(400, BadPaymentStatus, Null))
    else if input.ride.None? || RideService.GetRideById(db.rides, input.ride.value).None? then
      Some(Envelope(404, BookingRideNotFound, Null))
    else
      var ride := db.rides[input.ride.value];
      if UserService.GetUserById(db.users, ride.user).None? then Some(Envelope(404, BookingRiderNotFound, Null))
      else if ride.status != RideModel.Pending && ride.status != RideModel.InProgress then
        Some(Envelope(400, RideUnavailable, Null))
      else None
  }

  /** The writes of an admitted request with status `cancelled` on ride `r`:
      the ride becomes cancelled and no booking is made; the answer carries the
      ride as it was before. Nothing else changes. */
  function CancelRide(db: Db, cache: Cache, r: Id): (o: Outcome)
    requires r in db.rides
    ensures o.cache == cache
    ensures o.db == db.(rides := db.rides[r := db.rides[r].(status := RideModel.Cancelled)])
    ensures o.resp == Envelope(201, RideCancellation, RideCancelled(db.rides[r]))
  {
    var w := RideService.UpdateRideStatus(db.rides, r, RideModel.Cancelled);
    Outcome(WithRides(db, w.table), cache, Envelope(201, RideCancellation, RideCancelled(db.rides[r])))
  }

  /** The ride write of an admitted request: for `Accepted` ride `r` becomes
      in-progress; for the other statuses nothing changes. */
  function MarkRide(db: Db, r: Id, status: BookingStatus): (d: Db)
    requires r in db.rides
    ensures d == db.(rides := if status == Accepted
                              then db.rides[r := db.rides[r].(status := RideModel.InProgress)]
                              else db.rides)
  {
    if status == Accepted then WithRides(db, RideService.UpdateRideStatus(db.rides, r, RideModel.InProgress).table)
    else db
  }

  /** The booking write of an admitted request: `b` is saved under a fresh
      id. */
  function AddBooking(db: Db, b: Booking): (d: Db)
    ensures d == db.(bookings := db.bookings[db.next := b], next := db.next + 1)
  {
    NextIsFresh(db);
    AddBookings(db, BookingService.CreateBooking(db.bookings, db.next, b))
  }

  /** The writes of an admitted request with any other status on ride `r`: a
      booking for the ride's rider (not the caller) is saved under a fresh id
      and, for `Accepted`, the ride becomes in-progress. Nothing else changes. */
  function SaveBooking(db: Db, cache: Cache, r: Id, status: BookingStatus, fare: real, payment: PaymentState, now: Time): (o: Outcome)
    requires r in db.rides
    ensures o.cache == cache
    ensures var ride := db.rides[r];
            var b := Booking(ride.user, r, StatusText(status), fare, PaymentStateText(payment), now, now);
            && o.db == db.(rides := if status == Accepted
                                    then db.rides[r := ride.(status := RideModel.InProgress)]
                                    else db.rides,
                           bookings := db.bookings[db.next := b],
                           next := db.next + 1)
            && o.resp == Envelope(201, BookedSuccessfully, Booked(db.next, b, ride))
  {
    var ride := db.rides[r];
    var b := NewBooking(ride.user, r, Some(status), fare, Some(payment), now);
    Outcome(AddBooking(MarkRide(db, r, status), b), cache, Envelope(201, BookedSuccessfully, Booked(db.next, b, ride)))
  }

  /** `createBooking`. When a check fails its answer is given and nothing is
      written. Otherwise the status and payment status are parsed and the
      request is carried out by `CancelRide` or `SaveBooking`; no other
      collection and nothing in the cache changes. */
  function CreateBooking(db: Db, cache: Cache, caller: Caller, input: BookingInput, now: Time): (o: Outcome)
    ensures o.cache == cache
    ensures o.resp.statusCode == 201 <==> Admitted(db, caller, input)
    ensures !Admitted(db, caller, input) ==> o.db == db && o.resp == Refusal(db, caller, input).value
    ensures Admitted(db, caller, input) && input.status.value == "cancelled" ==>
              var r := input.ride.value;
              && o.db == db.(rides := db.rides[r := db.rides[r].(status := RideModel.Cancelled)])
              && o.resp == Envelope(201, RideCancellation, RideCancelled(db.rides[r]))
    ensures Admitted(db, caller, input) && input.status.value != "cancelled" ==>
              var r := input.ride.value;
              var ride := db.rides[r];
              var b := Booking(ride.user, r, input.status.value, input.fare.value,
                               input.paymentStatus.value, now, now);
              && o.db == db.(rides := if input.status.value == "accepted"
                                      then db.rides[r := ride.(status := RideModel.InProgress)]
                                      else db.rides,
                             bookings := db.bookings[db.next := b],
                             next := db.next + 1)
              && o.resp == Envelope(201, BookedSuccessfully, Booked(db.next, b, ride))
  {
    match Refusal(db, caller, input)
    case Some(e) => Outcome(db, cache, e)
    case None =>
      var status := ParseStatus(input.status.value).value;
      if status == Cancelled then CancelRide(db, cache, input.ride.value)
      else SaveBooking(db, cache, input.ride.value, status, input.fare.value,
                       ParsePaymentState(input.paymentStatus.value).value, now)
  }

  /** Accepting a booking leaves the ride in progress, which is still a
      bookable state: nothing stops a second driver's acceptance of the same
      ride, and each acceptance saves its own booking. */
  lemma AcceptedRideStaysBookable(db: Db, cache: Cache, caller: Caller, input: BookingInput, now: Time)
    requires Admitted(db, caller, input) && input.status == Some("accepted")
    ensures var o := CreateBooking(db, cache, caller, input, now);
            && Admitted(o.db, caller, input)
            && CreateBooking(o.db, o.cache, caller, input, now).resp.statusCode == 201
            && |CreateBooking(o.db, o.cache, caller, input, now).db.bookings| == |db.bookings| + 2
  {
    var o := CreateBooking(db, cache, caller, input, now);
    assert db.next !in db.bookings && o.db.next !in o.db.bookings;
    assert o.db.rides[input.ride.value].user == db.rides[input.ride.value].user;
  }

  /** A completed or cancelled ride can never be booked, whatever is asked. */
  lemma ClosedRideRefused(db: Db, cache: Cache, caller: Caller, input: BookingInput, now: Time)
    requires input.ride.Some? && input.ride.value in db.rides
    requires db.rides[input.ride.value].status in {RideModel.Completed, RideModel.Cancelled}
    ensures CreateBooking(db, cache, caller, input, now).db == db
    ensures CreateBooking(db, cache, caller, input, now).resp.statusCode != 201
  {
  }

  /** `updateBooking`: a 404 for an unknown id; otherwise the patch is merged
      into that booking alone and the merged booking answered. */
  function UpdateBooking(db: Db, cache: Cache, id: Id, patch: BookingPatch): (o: Outcome)
    ensures o.cache == cache
    ensures id !in db.bookings ==> o == Reply(db, cache, 404, BookingNotFound, Null)
    ensures id in db.bookings ==>
              var b := ApplyPatch(db.bookings[id], patch);
              && o.db == db.(bookings := db.bookings[id := b])
              && o.resp == Envelope(200, BookingUpdated, BookingDoc(id, b))
  {
    var w := BookingService.UpdateBooking(db.bookings, id, patch);
    match w.result
    case None => Reply(db, cache, 404, BookingNotFound, Null)
    case Some(b) => Outcome(WithBookings(db, w.table), cache, Envelope(200, BookingUpdated, BookingDoc(id, b)))
  }

  /** `deleteBooking`: a 404 for an unknown id; otherwise that booking alone is
      removed. */
  function DeleteBooking(db: Db, cache: Cache, id: Id): (o: Outcome)
    ensures o.cache == cache
    ensures id !in db.bookings ==> o == Reply(db, cache, 404, BookingNotFoundOrDeleted, Null)
    ensures id in db.bookings ==>
              && o.db == db.(bookings := db.bookings - {id})
              && o.resp == Envelope(200, BookingDeleted, Success(true))
  {
    var d := BookingService.DeleteBooking(db.bookings, id);
    if !d.removed then Reply(db, cache, 404, BookingNotFoundOrDeleted, Null)
    else Outcome(WithBookings(db, d.table), cache, Envelope(200, BookingDeleted, Success(true)))
  }

  /** Once a booking is deleted, reading it is a 404. */
  lemma DeletedBookingNotFound(db: Db, cache: Cache, id: Id)
    ensures var o := DeleteBooking(db, cache, id);
            GetBooking(o.db, o.cache, id).resp == Envelope(404, BookingNotFound, Null)
  {
  }
}

=== FILE: booking_service.dfy ===
/** Booking persistence: read, create, patch-update, delete, and the
    single-field payment-state update used by payment settlement. */
module BookingService {
  import opened Common
  import opened BookingModel
  import Store

  /** `getBookingById`: the stored booking, or null. */
  function GetBookingById(bookings: map<Id, Booking>, id: Id): (r: Option<Booking>)
    ensures r.Some? <==> id in bookings
    ensures r.Some? ==> r.value == bookings[id]
  {
    Store.Lookup(bookings, id)
  }

  /** `createBooking`: exactly one booking is added, under the fresh id. */
  function CreateBooking(bookings: map<Id, Booking>, id: Id, b: Booking): (r: map<Id, Booking>)
    requires id !in bookings
    ensures r.Keys == bookings.Keys + {id} && r[id] == b
    ensures forall k :: k in bookings ==> r[k] == bookings[k]
  {
    Store.Insert(bookings, id, b)
  }

  /** `updateBooking`: null and no change for an absent id; otherwise the patch
      is merged into that booking alone and the merged booking returned. */
  function UpdateBooking(bookings: map<Id, Booking>, id: Id, patch: BookingPatch): (w: Store.Write<Booking>)
    ensures id !in bookings ==> w.result.None? && w.table == bookings
    ensures id in bookings ==> w.result == Some(ApplyPatch(bookings[id], patch))
    ensures id in bookings ==> w.table == bookings[id := ApplyPatch(bookings[id], patch)]
  {
    Store.Modify(bookings, id, (b: Booking) => ApplyPatch(b, patch))
  }

  /** `deleteBooking`: true exactly when the id existed; afterwards it is absent
      and every other booking is kept. */
  function DeleteBooking(bookings: map<Id, Booking>, id: Id): (d: Store.Removal<Booking>)
    ensures d.removed <==> id in bookings
    ensures id !in d.table && d.table.Keys == bookings.Keys - {id}
    ensures forall k :: k in d.table ==> d.table[k] == bookings[k]
  {
    Store.Remove(bookings, id)
  }

  /** `updateBookingPaymentStatus`: null and no change for an absent id;
      otherwise that booking's `paymentStatus` alone changes. */
  function UpdateBookingPaymentStatus(bookings: map<Id, Booking>, id: Id, s: string)
    : (w: Store.Write<Booking>)
    ensures id !in bookings ==> w.result.None? && w.table == bookings
    ensures w.table.Keys == bookings.Keys
    ensures id in bookings ==> w.result == Some(w.table[id])
    ensures id in bookings ==> w.table[id] == bookings[id].(paymentStatus := s)
    ensures forall k :: k in bookings && k != id ==> w.table[k] == bookings[k]
  {
    Store.Modify(bookings, id, (b: Booking) => b.(paymentStatus := s))
  }
}

=== FILE: cache.dfy ===
/** The key-value cache in front of the database: values are the JSON text of
    a payload (modelled as the payload itself, since parsing the stringified
    value gives it back) with the expiry they were set with. */
module Caching {
  import opened Common
  import opened Response

  /** The expiry, in seconds, of every value the resolvers cache. */
  const Ttl: nat := 3600

  /** A cached value and its expiry. Expiry is recorded, not simulated: an
      entry stays until it is deleted. */
  datatype Entry = Entry(value: Data, ttl: nat)

  type Cache = map<string, Entry>

  /** `get`: the cached payload, or null. */
  function Get(c: Cache, key: string): (r: Option<Data>)
    ensures r.Some? <==> key in c
    ensures r.Some? ==> r.value == c[key].value
  {
    if key in c then Some(c[key].value) else None
  }

  /** `set(key, value, {EX: 3600})`: this key alone now holds the value. */
  function Set(c: Cache, key: string, v: Data): (r: Cache)
    ensures r.Keys == c.Keys + {key}
    ensures Get(r, key) == Some(v) && r[key].ttl == Ttl
    ensures forall k :: k in c && k != key ==> r[k] == c[k]
  {
    c[key := Entry(v, Ttl)]
  }

  /** `del`: this key alone is gone (deleting a missing key changes nothing). */
  function Del(c: Cache, key: string): (r: Cache)
    ensures Get(r, key).None?
    ensures r.Keys == c.Keys - {key}
    ensures forall k :: k in r ==> r[k] == c[k]
    ensures key !in c ==> r == c
  {
    c - {key}
  }

  /** The key of one user's cached document. */
  function UserKey(id: Id): string {
    "user:" + IdText(id)
  }

  /** The key of one ride's cached document. */
  function RideKey(id: Id): string {
    "ride:" + IdText(id)
  }

  const AllUsersKey: string := "users:all"
  const AllRidesKey: string := "rides:all"

  /** The keys the two update resolvers delete besides the per-document key;
      no operation reads or writes either of them. */
  const UsersUpdateKey: string := "usersupdate:all"
  const RidersUpdateKey: string := "ridersupdate:all"

  /** Per-user keys name exactly one user. */
  lemma UserKeyInjective(a: Id, b: Id)
    ensures UserKey(a) == UserKey(b) <==> a == b
  {
    if UserKey(a) == UserKey(b) {
      assert UserKey(a)[5..] == IdText(a);
      assert UserKey(b)[5..] == IdText(b);
      IdTextInjective(a, b);
    }
  }

  /** Per-ride keys name exactly one ride. */
  lemma RideKeyInjective(a: Id, b: Id)
    ensures RideKey(a) == RideKey(b) <==> a == b
  {
    if RideKey(a) == RideKey(b) {
      assert RideKey(a)[5..] == IdText(a);
      assert RideKey(b)[5..] == IdText(b);
      IdTextInjective(a, b);
    }
  }

  /** No per-document key collides with another family or a fixed key. */
  lemma KeysDistinct(a: Id, b: Id)
    ensures UserKey(a) != RideKey(b)
    ensures UserKey(a) != AllUsersKey && UserKey(a) != AllRidesKey
    ensures UserKey(a) != UsersUpdateKey && UserKey(a) != RidersUpdateKey
    ensures RideKey(a) != AllUsersKey && RideKey(a) != AllRidesKey
    ensures RideKey(a) != UsersUpdateKey && RideKey(a) != RidersUpdateKey
  {
    assert UserKey(a)[0] == 'u' && UserKey(a)[4] == ':';
    assert RideKey(b)[0] == 'r' && RideKey(a)[4] == ':';
  }
}

=== FILE: cache_coherence.dfy ===
/** What the cache answers compared with the database, across resolvers: the
    user list kept by `getAllUsers`, and the per-id key `getRide` consults. */
module CacheCoherence {
  import opened Common
  import opened Database
  import opened Caching
  import opened Response
  import opened Outcomes
  import UserModel
  import UserResolver
  import RideModel
  import RideResolver

  /** The cached user list, when there is one, is the stored users. */
  predicate ListCoherent(db: Db, cache: Cache) {
    AllUsersKey in cache ==> cache[AllUsersKey].value == UserList(db.users)
  }

  /** Under a coherent cache the admin listing answers the stored users,
      whether from the cache or not, and leaves the cache coherent. */
  lemma ListingAnswersStore(db: Db, cache: Cache, caller: Caller)
    requires caller.isAdmin && ListCoherent(db, cache)
    ensures var o := UserResolver.GetAllUsers(db, cache, caller);
            o.resp.data == UserList(db.users) && ListCoherent(o.db, o.cache)
  {
  }

  /** Reading one's own profile caches it under `user:<id>`, which leaves the
      list entry alone. */
  lemma GetUserKeepsListCoherent(db: Db, cache: Cache, caller: Caller)
    requires ListCoherent(db, cache)
    ensures var o := UserResolver.GetUser(db, cache, caller);
            ListCoherent(o.db, o.cache)
  {
    KeysDistinct(caller.id, caller.id);
  }

  /** The corrected profile update drops the list entry, so the cache stays
      coherent whatever the update wrote. */
  lemma CorrectedUpdateKeepsListCoherent(db: Db, cache: Cache, caller: Caller, patch: UserModel.UserPatch)
    requires ListCoherent(db, cache)
    ensures var o := UserResolver.UpdateUserCorrected(db, cache, caller, patch);
            ListCoherent(o.db, o.cache)
  {
  }

  /** An account deletion drops the list entry. */
  lemma DeleteKeepsListCoherent(db: Db, cache: Cache, caller: Caller)
    requires ListCoherent(db, cache)
    ensures var o := UserResolver.DeleteUser(db, cache, caller);
            ListCoherent(o.db, o.cache)
  {
  }

  /** The profile update as written: once an admin's listing has filled the
      cache, a successful update that changes the caller's user leaves the
      old list in `users:all`, and the next listing answers it instead of the
      stored users. */
  lemma StaleListAfterUpdate(db: Db, cache: Cache, caller: Caller, patch: UserModel.UserPatch)
    requires caller.isAdmin && ListCoherent(db, cache)
    requires caller.id in db.users
    requires var u := UserModel.ApplyPatch(db.users[caller.id], patch);
             UserUnique(db.users, caller.id, u) && u != db.users[caller.id]
    ensures var o1 := UserResolver.GetAllUsers(db, cache, caller);
            var o2 := UserResolver.UpdateUser(o1.db, o1.cache, caller, patch);
            var o3 := UserResolver.GetAllUsers(o2.db, o2.cache, caller);
            && o2.resp.statusCode == 200
            && o3.resp.data == UserList(db.users)
            && o3.resp.data != UserList(o2.db.users)
  {
    var o1 := UserResolver.GetAllUsers(db, cache, caller);
    var o2 := UserResolver.UpdateUser(o1.db, o1.cache, caller, patch);
    KeysDistinct(caller.id, caller.id);
    assert o2.db.users[caller.id] != db.users[caller.id];
  }

  /** The corrected profile update followed by a listing answers the stored
      users as they are after the update. */
  lemma FreshListAfterCorrectedUpdate(db: Db, cache: Cache, caller: Caller, patch: UserModel.UserPatch)
    requires caller.isAdmin && ListCoherent(db, cache)
    ensures var o1 := UserResolver.GetAllUsers(db, cache, caller);
            var o2 := UserResolver.UpdateUserCorrected(o1.db, o1.cache, caller, patch);
            var o3 := UserResolver.GetAllUsers(o2.db, o2.cache, caller);
            o3.resp.data == UserList(o2.db.users)
  {
    var o1 := UserResolver.GetAllUsers(db, cache, caller);
    ListingAnswersStore(db, cache, caller);
    var o2 := UserResolver.UpdateUserCorrected(o1.db, o1.cache, caller, patch);
    CorrectedUpdateKeepsListCoherent(o1.db, o1.cache, caller, patch);
    ListingAnswersStore(o2.db, o2.cache, caller);
  }

  /** No ride data is cached: neither the ride list nor any `ride:<id>`.
      Nothing in the resolvers ever sets such a key. */
  ghost predicate NoRideEntries(cache: Cache) {
    AllRidesKey !in cache && forall id :: RideKey(id) !in cache
  }

  /** The two resolvers that fill the cache set only user keys, so a cache
      without ride entries keeps having none. */
  lemma UserReadsCacheNoRides(db: Db, cache: Cache, caller: Caller)
    requires NoRideEntries(cache)
    ensures NoRideEntries(UserResolver.GetAllUsers(db, cache, caller).cache)
    ensures NoRideEntries(UserResolver.GetUser(db, cache, caller).cache)
  {
    forall id | true
      ensures RideKey(id) != UserKey(caller.id) && RideKey(id) != AllUsersKey
    {
      KeysDistinct(caller.id, id);
      KeysDistinct(id, id);
    }
    KeysDistinct(caller.id, caller.id);
  }

  /** `getRide` as written: right after the caller's own profile is read and
      cached, asking for the ride whose id equals the caller's user id answers
      the user's document as the ride "from cache". */
  lemma RideReadServesUser(db: Db, cache: Cache, caller: Caller)
    requires UserKey(caller.id) !in cache && caller.id in db.users
    ensures var o1 := UserResolver.GetUser(db, cache, caller);
            var o2 := RideResolver.GetRide(o1.db, o1.cache, caller.id);
            o2.resp == Envelope(200, RideFetchedFromCache, UserDoc(caller.id, db.users[caller.id]))
  {
  }

  /** The corrected `getRide` answers the stored ride, or a 404 exactly when
      there is none, whenever no ride data is cached, which the resolvers
      preserve. */
  lemma CorrectedRideReadAnswersStore(db: Db, cache: Cache, id: Id)
    requires NoRideEntries(cache)
    ensures var o := RideResolver.GetRideCorrected(db, cache, id);
            && (id in db.rides ==> o.resp == Envelope(200, RideFetched, RideDoc(id, db.rides[id])))
            && (id !in db.rides ==> o.resp.statusCode == 404)
  {
  }

  /** With no ride data cached, an admin's ride listing answers exactly the
      stored rides and leaves the cache still without ride data. */
  lemma RideListingAnswersStore(db: Db, cache: Cache, caller: Caller)
    requires caller.isAdmin && NoRideEntries(cache)
    ensures var o := RideResolver.GetAllRides(db, cache, caller);
            o.resp == Envelope(200, RidesFetched, RideList(db.rides)) && NoRideEntries(o.cache)
  {
  }

  /** The ride writes never create ride data in the cache: a cache without
      ride entries keeps having none, so the listing goes on answering the
      stored rides after any of them. */
  lemma RideWritesKeepNoRideEntries(db: Db, cache: Cache, caller: Caller, input: RideResolver.RideInput,
                                    now: Time, id: Id, patch: RideModel.RidePatch)
    requires NoRideEntries(cache)
    ensures NoRideEntries(RideResolver.CreateRide(db, cache, caller, input, now).cache)
    ensures NoRideEntries(RideResolver.UpdateRide(db, cache, id, patch).cache)
    ensures NoRideEntries(RideResolver.DeleteRide(db, cache, id).cache)
  {
  }
}

=== FILE: common.dfy ===
/** Identifiers, optional values, timestamps and the authenticated caller,
    shared by every other module of the model. */
module Common {

  /** A document id. The database issues ids from one increasing counter, so an
      id names at most one document across all collections (as a Mongo ObjectId
      does) and ascending ids follow insertion order. */
  type Id = nat

  /** A point in time, as supplied by the caller of a creating operation. */
  type Time = int

  /** An optional value: `None` stands for JavaScript's `null`/`undefined`. */
  datatype Option<+T> = None | Some(value: T) {

    /** The carried value, or `default` when there is none. */
    function GetOr(default: T): (r: T)
      ensures Some? ==> r == value
      ensures None? ==> r == default
    {
      match this
      case Some(v) => v
      case None => default
    }

    /** This option when it carries a value, `other` otherwise. */
    function Or(other: Option<T>): (r: Option<T>)
      ensures Some? ==> r == this
      ensures None? ==> r == other
    {
      if Some? then this else other
    }
  }

  /** The identity the authentication layer attaches to a request: the user id
      and the three role flags carried by the token. */
  datatype Caller = Caller(id: Id, isAdmin: bool, isDriver: bool, isRider: bool)

  predicate IsDigit(c: char) {
    '0' <= c <= '9'
  }

  function DigitChar(d: nat): (c: char)
    requires d < 10
    ensures IsDigit(c)
    ensures c as int - '0' as int == d
  {
    ('0' as int + d) as char
  }

  /** The decimal text of an id, as interpolated into cache keys. */
  function IdText(id: Id): (t: string)
    ensures 0 < |t|
    ensures |t| == 1 <==> id < 10
    ensures forall i :: 0 <= i < |t| ==> IsDigit(t[i])
    decreases id
  {
    if id < 10 then [DigitChar(id)] else IdText(id / 10) + [DigitChar(id % 10)]
  }

  /** Distinct ids have distinct decimal texts. */
  lemma {:induction false} IdTextInjective(a: Id, b: Id)
    ensures IdText(a) == IdText(b) <==> a == b
  {
    if IdText(a) == IdText(b) && a != b {
      var t := IdText(a);
      if 10 <= a {
        assert t[..|t| - 1] == IdText(a / 10) == IdText(b / 10);
        assert DigitChar(a % 10) == t[|t| - 1] == DigitChar(b % 10);
        IdTextInjective(a / 10, b / 10);
      }
    }
  }
}

=== FILE: database.dfy ===
/** The whole database: one map per collection and the id counter. */
module Database {
  import opened Common
  import Text
  import UserModel
  import DriverModel
  import VehicleModel
  import RideModel
  import BookingModel
  import PaymentModel

  datatype World = World(
    users: map<Id, UserModel.User>,
    drivers: map<Id, DriverModel.Driver>,
    vehicles: map<Id, VehicleModel.Vehicle>,
    rides: map<Id, RideModel.Ride>,
    bookings: map<Id, BookingModel.Booking>,
    payments: map<Id, PaymentModel.Payment>,
    next: Id)
  {
    /** Every id in use was issued before the counter's current value. */
    ghost predicate Valid() {
      forall id :: id in users || id in drivers || id in vehicles || id in rides || id in bookings || id in payments ==> id < next
    }
  }

  /** A database whose counter is ahead of every id in use, so `next` is always
      a fresh id and a search over ids below `next` sees every document. */
  type Db = w: World | w.Valid() witness World(map[], map[], map[], map[], map[], map[], 0)

  /** The counter names no document in any collection. */
  lemma NextIsFresh(db: Db)
    ensures db.next !in db.users && db.next !in db.drivers && db.next !in db.vehicles
    ensures db.next !in db.rides && db.next !in db.bookings && db.next !in db.payments
  {
  }

  /** The database with its users replaced by a table of ids it already holds. */
  function WithUsers(db: Db, users: map<Id, UserModel.User>): (r: Db)
    requires users.Keys <= db.users.Keys
    ensures r == db.(users := users)
  {
    db.(users := users)
  }

  /** The database after a save into users under the fresh id `db.next`, which
      the counter has then issued. */
  function AddUsers(db: Db, users: map<Id, UserModel.User>): (r: Db)
    requires users.Keys <= db.users.Keys + {db.next}
    ensures r == db.(users := users, next := db.next + 1)
  {
    db.(users := users, next := db.next + 1)
  }

  /** The database with its drivers replaced by a table of ids it already holds. */
  function WithDrivers(db: Db, drivers: map<Id, DriverModel.Driver>): (r: Db)
    requires drivers.Keys <= db.drivers.Keys
    ensures r == db.(drivers := drivers)
  {
    db.(drivers := drivers)
  }

  /** The database after a save into drivers under the fresh id `db.next`, which
      the counter has then issued. */
  function AddDrivers(db: Db, drivers: map<Id, DriverModel.Driver>): (r: Db)
    requires drivers.Keys <= db.drivers.Keys + {db.next}
    ensures r == db.(drivers := drivers, next := db.next + 1)
  {
    db.(drivers := drivers, next := db.next + 1)
  }

  /** The database with its vehicles replaced by a table of ids it already holds. */
  function WithVehicles(db: Db, vehicles: map<Id, VehicleModel.Vehicle>): (r: Db)
    requires vehicles.Keys <= db.vehicles.Keys
    ensures r == db.(vehicles := vehicles)
  {
    db.(vehicles := vehicles)
  }

  /** The database after a save into vehicles under the fresh id `db.next`, which
      the counter has then issued. */
  function AddVehicles(db: Db, vehicles: map<Id, VehicleModel.Vehicle>): (r: Db)
    requires vehicles.Keys <= db.vehicles.Keys + {db.next}
    ensures r == db.(vehicles := vehicles, next := db.next + 1)
  {
    db.(vehicles := vehicles, next := db.next + 1)
  }

  /** The database with its rides replaced by a table of ids it already holds. */
  function WithRides(db: Db, rides: map<Id, RideModel.Ride>): (r: Db)
    requires rides.Keys <= db.rides.Keys
    ensures r == db.(rides := rides)
  {
    db.(rides := rides)
  }

  /** The database after a save into rides under the fresh id `db.next`, which
      the counter has then issued. */
  function AddRides(db: Db, rides: map<Id, RideModel.Ride>): (r: Db)
    requires rides.Keys <= db.rides.Keys + {db.next}
    ensures r == db.(rides := rides, next := db.next + 1)
  {
    db.(rides := rides, next := db.next + 1)
  }

  /** The database with its bookings replaced by a table of ids it already holds. */
  function WithBookings(db: Db, bookings: map<Id, BookingModel.Booking>): (r: Db)
    requires bookings.Keys <= db.bookings.Keys
    ensures r == db.(bookings := bookings)
  {
    db.(bookings := bookings)
  }

  /** The database after a save into bookings under the fresh id `db.next`, which
      the counter has then issued. */
  function AddBookings(db: Db, bookings: map<Id, BookingModel.Booking>): (r: Db)
    requires bookings.Keys <= db.bookings.Keys + {db.next}
    ensures r == db.(bookings := bookings, next := db.next + 1)
  {
    db.(bookings := bookings, next := db.next + 1)
  }

  /** The database with its payments replaced by a table of ids it already holds. */
  function WithPayments(db: Db, payments: map<Id, PaymentModel.Payment>): (r: Db)
    requires payments.Keys <= db.payments.Keys
    ensures r == db.(payments := payments)
  {
    db.(payments := payments)
  }

  /** The database after a save into payments under the fresh id `db.next`, which
      the counter has then issued. */
  function AddPayments(db: Db, payments: map<Id, PaymentModel.Payment>): (r: Db)
    requires payments.Keys <= db.payments.Keys + {db.next}
    ensures r == db.(payments := payments, next := db.next + 1)
  {
    db.(payments := payments, next := db.next + 1)
  }

  /** The unique indexes of the user collection (e-mail, phone) admit `u`
      under id `id`: no other user holds the same value. */
  predicate UserUnique(users: map<Id, UserModel.User>, id: Id, u: UserModel.User) {
    forall k :: k in users && k != id ==> users[k].email != u.email && users[k].phone != u.phone
  }

  /** What `save` of a new user checks: the required strings are non-empty, the
      stored password has at least 8 UTF-16 units, and the unique indexes
      admit it. */
  predicate UserSaveable(users: map<Id, UserModel.User>, id: Id, u: UserModel.User) {
    && u.name != [] && u.email != [] && u.phone != [] && Text.JsLength(u.password) >= 8
    && UserUnique(users, id, u)
  }

  /** The unique indexes of the driver collection (user, licence number). */
  predicate DriverUnique(drivers: map<Id, DriverModel.Driver>, id: Id, d: DriverModel.Driver) {
    forall k :: k in drivers && k != id ==> drivers[k].user != d.user && drivers[k].licenseNumber != d.licenseNumber
  }

  /** What `save` of a new driver checks: a non-empty licence number and the
      unique indexes. */
  predicate DriverSaveable(drivers: map<Id, DriverModel.Driver>, id: Id, d: DriverModel.Driver) {
    d.licenseNumber != [] && DriverUnique(drivers, id, d)
  }

  /** The unique index of the vehicle collection (licence number). */
  predicate VehicleUnique(vehicles: map<Id, VehicleModel.Vehicle>, id: Id, v: VehicleModel.Vehicle) {
    forall k :: k in vehicles && k != id ==> vehicles[k].licenseNumber != v.licenseNumber
  }

  /** What `save` of a new vehicle checks: a non-empty licence number and the
      unique index. */
  predicate VehicleSaveable(vehicles: map<Id, VehicleModel.Vehicle>, id: Id, v: VehicleModel.Vehicle) {
    v.licenseNumber != [] && VehicleUnique(vehicles, id, v)
  }

  /** The unique indexes hold across every collection that declares one. */
  predicate IndexesHold(w: World) {
    && (forall a, b :: a in w.users && b in w.users && a != b ==>
          w.users[a].email != w.users[b].email && w.users[a].phone != w.users[b].phone)
    && (forall a, b :: a in w.drivers && b in w.drivers && a != b ==>
          w.drivers[a].user != w.drivers[b].user && w.drivers[a].licenseNumber != w.drivers[b].licenseNumber)
    && (forall a, b :: a in w.vehicles && b in w.vehicles && a != b ==>
          w.vehicles[a].licenseNumber != w.vehicles[b].licenseNumber)
  }

  /** Writing user `u` under `id` keeps every unique index when the user
      indexes admit `u` there; this covers a save under a fresh id and an
      update in place alike. */
  lemma UserWriteKeepsIndexes(w: World, id: Id, u: UserModel.User)
    requires IndexesHold(w) && UserUnique(w.users, id, u)
    ensures IndexesHold(w.(users := w.users[id := u]))
  {
  }

  /** Writing driver `d` under `id` keeps every unique index when the driver
      indexes admit it there. */
  lemma DriverWriteKeepsIndexes(w: World, id: Id, d: DriverModel.Driver)
    requires IndexesHold(w) && DriverUnique(w.drivers, id, d)
    ensures IndexesHold(w.(drivers := w.drivers[id := d]))
  {
  }

  /** Writing vehicle `v` under `id` keeps every unique index when the vehicle
      index admits it there. */
  lemma VehicleWriteKeepsIndexes(w: World, id: Id, v: VehicleModel.Vehicle)
    requires IndexesHold(w) && VehicleUnique(w.vehicles, id, v)
    ensures IndexesHold(w.(vehicles := w.vehicles[id := v]))
  {
  }
}

=== FILE: driver_model.dfy ===
/** The driver document: the user it belongs to, the licence number, the
    vehicle, rating, completed-ride counter and the licence-verified flag. */
module DriverModel {
  import opened Common
  import Text

  const DefaultRating: real := 5.0
  const MinRating: real := 1.0
  const MaxRating: real := 5.0

  datatype Driver = Driver(
    user: Id,
    licenseNumber: string,
    vehicle: Id,
    rating: real,
    ridesCompleted: int,
    isLicenseNumberVerified: bool,
    createdAt: Time,
    updatedAt: Time)

  /** The schema's `min`/`max` bounds on the rating, checked when a driver is saved. */
  predicate RatingInRange(d: Driver) {
    MinRating <= d.rating <= MaxRating
  }

  /** A saved driver: the licence number is trimmed by its schema setter, the
      rating starts at 5, the counter at 0 and the licence is not yet verified. */
  function NewDriver(user: Id, licenseNumber: string, vehicle: Id, now: Time): (d: Driver)
    ensures d.user == user && d.vehicle == vehicle
    ensures d.licenseNumber == Text.Trim(licenseNumber)
    ensures RatingInRange(d)
    ensures d.ridesCompleted == 0 && !d.isLicenseNumberVerified
    ensures d.createdAt == now && d.updatedAt == now
  {
    Driver(user, Text.Trim(licenseNumber), vehicle, DefaultRating, 0, false, now, now)
  }

  /** The fields an update may carry; `vehicleType` in the update input is not a
      driver field and the schema's strict mode drops it. */
  datatype DriverPatch = DriverPatch(
    licenseNumber: Option<string>,
    vehicle: Option<Id>,
    rating: Option<real>,
    ridesCompleted: Option<int>)

  /** `findByIdAndUpdate` semantics: every field the patch carries overwrites
      (a licence number through its trimming setter), every other field is
      kept. No validator runs, so the rating bounds are not re-checked. */
  function ApplyPatch(d: Driver, p: DriverPatch): (q: Driver)
    ensures q.user == d.user && q.isLicenseNumberVerified == d.isLicenseNumberVerified
    ensures q.createdAt == d.createdAt && q.updatedAt == d.updatedAt
    ensures p.licenseNumber.Some? ==> q.licenseNumber == Text.Trim(p.licenseNumber.value)
    ensures p.licenseNumber.None? ==> q.licenseNumber == d.licenseNumber
    ensures p.vehicle.Some? ==> q.vehicle == p.vehicle.value
    ensures p.vehicle.None? ==> q.vehicle == d.vehicle
    ensures p.rating.Some? ==> q.rating == p.rating.value
    ensures p.rating.None? ==> q.rating == d.rating
    ensures p.ridesCompleted.Some? ==> q.ridesCompleted == p.ridesCompleted.value
    ensures p.ridesCompleted.None? ==> q.ridesCompleted == d.ridesCompleted
  {
    d.(licenseNumber := if p.licenseNumber.Some? then Text.Trim(p.licenseNumber.value) else d.licenseNumber,
       vehicle := p.vehicle.GetOr(d.vehicle),
       rating := p.rating.GetOr(d.rating),
       ridesCompleted := p.ridesCompleted.GetOr(d.ridesCompleted))
  }

  /** Applying the same patch twice is the same as applying it once; this
      relies on trimming being idempotent. */
  lemma {:induction false} PatchIdempotent(d: Driver, p: DriverPatch)
    ensures ApplyPatch(ApplyPatch(d, p), p) == ApplyPatch(d, p)
  {
    if p.licenseNumber.Some? {
      Text.TrimIdempotent(p.licenseNumber.value);
    }
  }

  lemma EmptyPatchKeeps(d: Driver)
    ensures ApplyPatch(d, DriverPatch(None, None, None, None)) == d
  {
  }

  /** A patch that sets an out-of-range rating is stored as given: the bounds
      hold for new drivers only. */
  lemma PatchCanLeaveRatingRange(d: Driver)
    ensures !RatingInRange(ApplyPatch(d, DriverPatch(None, None, Some(0.0), None)))
  {
  }
}

=== FILE: driver_resolver.dfy ===
/** The driver resolvers: the admin listing, read by id, create, update (which
    answers a flattened view with the vehicle's licence number), delete, and
    the admin's licence verification. None of them touches the cache. */
module DriverResolver {
  import opened Common
  import opened DriverModel
  import VehicleModel
  import Text
  import opened Database
  import opened Caching
  import opened Response
  import opened Outcomes
  import DriverService
  import RideResolver
  import VehicleResolver


  /** What a driver creation carries. */
  datatype DriverInput = DriverInput(user: Id, licenseNumber: string, vehicle: Id)

  /** `getAllDrivers`: admins get every driver, others a 403. */
  function GetAllDrivers(db: Db, cache: Cache, caller: Caller): (o: Outcome)
    ensures o.db == db && o.cache == cache
    ensures o.resp.statusCode == 200 <==> caller.isAdmin
    ensures !caller.isAdmin ==> o.resp == Envelope(403, AccessDenied, Null)
    ensures caller.isAdmin ==> o.resp.data == DriverList(db.drivers)
  {
    if !caller.isAdmin then Reply(db, cache, 403, AccessDenied, Null)
    else Reply(db, cache, 200, DriversFetched, DriverList(db.drivers))
  }

  /** `getDriver`: the stored driver, or a 404. */
  function GetDriver(db: Db, cache: Cache, id: Id): (o: Outcome)
    ensures o.db == db && o.cache == cache
    ensures id !in db.drivers <==> o.resp == Envelope(404, DriverNotFound, Null)
    ensures id in db.drivers ==> o.resp == Envelope(200, DriverFetched, DriverDoc(id, db.drivers[id]))
  {
    match DriverService.GetDriverById(db.drivers, id)
    case None => Reply(db, cache, 404, DriverNotFound, Null)
    case Some(d) => Reply(db, cache, 200, DriverFetched, DriverDoc(id, d))
  }

  /** `createDriver`: no role check and no check that the user or vehicle
      exists. The save refuses (a 500, nothing written) an empty licence number
      or a user or licence number another driver already has; otherwise the
      driver is saved under a fresh id. */
  function CreateDriver(db: Db, cache: Cache, input: DriverInput, now: Time): (o: Outcome)
    ensures o.cache == cache
    ensures o.resp.statusCode == 201 <==> DriverSaveable(db.drivers, db.next, Candidate(input, now))
    ensures o.resp.statusCode != 201 ==> o.db == db && o.resp == Envelope(500, DriverCreateFailed, Fault)
    ensures o.resp.statusCode == 201 ==>
              && o.db == db.(drivers := db.drivers[db.next := Candidate(input, now)], next := db.next + 1)
              && o.resp == Envelope(201, DriverCreated, DriverDoc(db.next, Candidate(input, now)))
  {
    var d := Candidate(input, now);
    if !DriverSaveable(db.drivers, db.next, d) then Reply(db, cache, 500, DriverCreateFailed, Fault)
    else
      NextIsFresh(db);
      var drivers := DriverService.CreateDriver(db.drivers, db.next, d);
      Outcome(AddDrivers(db, drivers), cache,
              Envelope(201, DriverCreated, DriverDoc(db.next, d)))
  }

  /** The driver a creation would save: licence trimmed, rating 5, no rides,
      licence unverified. */
  function Candidate(input: DriverInput, now: Time): (d: Driver)
    ensures d.user == input.user && d.vehicle == input.vehicle
    ensures d.licenseNumber == Text.Trim(input.licenseNumber)
    ensures d.rating == DefaultRating && d.ridesCompleted == 0 && !d.isLicenseNumberVerified
    ensures d.createdAt == now && d.updatedAt == now
  {
    NewDriver(input.user, input.licenseNumber, input.vehicle, now)
  }

  /** The answer of a successful update: the driver flattened, its licence
      number as null when empty, and the vehicle populated with its licence
      number. */
  function View(id: Id, d: Driver, v: VehicleModel.Vehicle): (view: DriverView)
    ensures view.viewLicense.None? <==> d.licenseNumber == []
    ensures view.viewLicense.Some? ==> view.viewLicense.value == d.licenseNumber
    ensures view.viewVehicle == VehicleRef(d.vehicle, v.licenseNumber)
    ensures view.viewId == id && view.viewRating == d.rating && view.viewRides == d.ridesCompleted
    ensures view.viewUpdatedAt == d.updatedAt
  {
    DriverView(id, if d.licenseNumber == [] then None else Some(d.licenseNumber),
               VehicleRef(d.vehicle, v.licenseNumber), d.rating, d.ridesCompleted, d.updatedAt)
  }

  /** `updateDriver`. An unknown id is a 404, and a licence number another
      driver holds is refused by the unique index (a 500); nothing is written
      on either. Otherwise the patch is written, and only then is the vehicle
      looked up: when the driver's vehicle does not exist the answer is a 400
      although the update has been stored; else a 200 with the view. */
  function UpdateDriver(db: Db, cache: Cache, id: Id, patch: DriverPatch): (o: Outcome)
    ensures o.cache == cache
    ensures id !in db.drivers ==> o == Reply(db, cache, 404, DriverNotFound, Null)
    ensures id in db.drivers ==>
              var d := ApplyPatch(db.drivers[id], patch);
              && (!DriverUnique(db.drivers, id, d) ==>
                    o.db == db && o.resp == Envelope(500, DriverUpdateFailed, Fault))
              && (DriverUnique(db.drivers, id, d) ==>
                    && o.db == db.(drivers := db.drivers[id := d])
                    && (d.vehicle !in db.vehicles ==> o.resp == Envelope(400, VehicleMissing, Null))
                    && (d.vehicle in db.vehicles ==>
                          o.resp == Envelope(200, DriverUpdated,
                                             DriverFlat(View(id, d, db.vehicles[d.vehicle])))))
  {
    if id !in db.drivers then Reply(db, cache, 404, DriverNotFound, Null)
    else if !DriverUnique(db.drivers, id, ApplyPatch(db.drivers[id], patch)) then
      Reply(db, cache, 500, DriverUpdateFailed, Fault)
    else
      var w := DriverService.UpdateDriver(db.drivers, id, patch);
      var db' := WithDrivers(db, w.table);
      var d := w.table[id];
      if d.vehicle !in db'.vehicles then Outcome(db', cache, Envelope(400, VehicleMissing, Null))
      else Outcome(db', cache, Envelope(200, DriverUpdated,
                                        DriverFlat(View(id, d, db'.vehicles[d.vehicle]))))
  }

  /** An update answered with "vehicle information is missing" has nonetheless
      been stored: the error answer does not mean nothing changed. */
  lemma MissingVehicleAnswerAfterWrite(db: Db, cache: Cache, id: Id, patch: DriverPatch)
    requires IndexesHold(db) && id in db.drivers
    requires patch.vehicle.Some? && patch.vehicle.value !in db.vehicles
    requires patch.licenseNumber.None?
    ensures var o := UpdateDriver(db, cache, id, patch);
            && o.resp == Envelope(400, VehicleMissing, Null)
            && o.db.drivers[id].vehicle == patch.vehicle.value
  {
    var d := ApplyPatch(db.drivers[id], patch);
    assert d.licenseNumber == db.drivers[id].licenseNumber && d.user == db.drivers[id].user;
    assert DriverUnique(db.drivers, id, d);
  }

  /** Deleting a vehicle leaves the drivers that reference it pointing at
      nothing: a later update of such a driver, even one that changes nothing,
      is answered "vehicle information is missing". */
  lemma DeletedVehicleBreaksDriverUpdate(db: Db, cache: Cache, vid: Id, id: Id)
    requires IndexesHold(db) && vid in db.vehicles
    requires id in db.drivers && db.drivers[id].vehicle == vid
    ensures var o := VehicleResolver.DeleteVehicle(db, cache, vid);
            UpdateDriver(o.db, o.cache, id, DriverPatch(None, None, None, None)).resp
              == Envelope(400, VehicleMissing, Null)
  {
    var o := VehicleResolver.DeleteVehicle(db, cache, vid);
    assert o.db.drivers == db.drivers;
    assert ApplyPatch(db.drivers[id], DriverPatch(None, None, None, None)) == db.drivers[id];
  }

  /** `deleteDriver`: a 404 for an unknown id; otherwise that driver alone is
      removed (the user's link to it and its rides stay). */
  function DeleteDriver(db: Db, cache: Cache, id: Id): (o: Outcome)
    ensures o.cache == cache
    ensures id !in db.drivers ==> o == Reply(db, cache, 404, DriverNotFoundOrDeleted, Null)
    ensures id in db.drivers ==>
              && o.db == db.(drivers := db.drivers - {id})
              && o.resp == Envelope(200, DriverDeleted, Success(true))
  {
    var d := DriverService.DeleteDriver(db.drivers, id);
    if !d.removed then Reply(db, cache, 404, DriverNotFoundOrDeleted, Null)
    else Outcome(WithDrivers(db, d.table), cache, Envelope(200, DriverDeleted, Success(true)))
  }

  /** `verifyLicenseNumber`. The request's `input` is optional while its
      licence number is required, so `license` is `None` exactly when the
      input is omitted; reading the licence number of the missing input then
      throws, and the catch answers 500. In order: admins only (403), the
      omitted input (500), a non-empty licence number is required (400), the
      driver must exist (404) and hold exactly that licence number (400);
      nothing is written on these. Otherwise the driver's verified flag alone
      becomes true. */
  function VerifyLicenseNumber(db: Db, cache: Cache, caller: Caller, id: Id, license: Option<string>): (o: Outcome)
    ensures o.cache == cache
    ensures o.resp.statusCode == 200 <==>
              caller.isAdmin && license.Some? && license.value != [] && id in db.drivers
              && db.drivers[id].licenseNumber == license.value
    ensures o.resp.statusCode != 200 ==> o.db == db
    ensures o.resp.statusCode != 200 && o.resp.statusCode != 500 ==> o.resp.data == Null
    ensures !caller.isAdmin ==> o.resp == Envelope(403, AccessDenied, Null)
    ensures caller.isAdmin && license.None? ==> o.resp == Envelope(500, LicenseVerifyFailed, Fault)
    ensures caller.isAdmin && license == Some([]) ==> o.resp == Envelope(400, LicenseRequired, Null)
    ensures caller.isAdmin && license.Some? && license.value != [] ==>
              && (id !in db.drivers ==> o.resp == Envelope(404, DriverNotFound, Null))
              && (id in db.drivers && db.drivers[id].licenseNumber != license.value ==>
                    o.resp == Envelope(400, LicenseMismatch, Null))
    ensures o.resp.statusCode == 200 ==>
              var d := db.drivers[id].(isLicenseNumberVerified := true);
              && o.db == db.(drivers := db.drivers[id := d])
              && o.resp == Envelope(200, LicenseVerified, DriverDoc(id, d))
  {
    if !caller.isAdmin then Reply(db, cache, 403, AccessDenied, Null)
    else if license.None? then Reply(db, cache, 500, LicenseVerifyFailed, Fault)
    else if license.value == [] then Reply(db, cache, 400, LicenseRequired, Null)
    else match DriverService.GetDriverById(db.drivers, id)
      case None => Reply(db, cache, 404, DriverNotFound, Null)
      case Some(d) =>
        if d.licenseNumber != license.value then Reply(db, cache, 400, LicenseMismatch, Null)
        else
          var w := DriverService.MarkLicenseVerified(db.drivers, id);
          Outcome(WithDrivers(db, w.table), cache, Envelope(200, LicenseVerified, DriverDoc(id, w.table[id])))
  }

  /** Verifying a licence a second time answers the same and changes nothing
      further. */
  lemma VerifyIdempotent(db: Db, cache: Cache, caller: Caller, id: Id, license: Option<string>)
    ensures var o := VerifyLicenseNumber(db, cache, caller, id, license);
            var o2 := VerifyLicenseNumber(o.db, o.cache, caller, id, license);
            o2.db == o.db && o2.resp == o.resp
  {
    var o := VerifyLicenseNumber(db, cache, caller, id, license);
    if o.resp.statusCode == 200 {
      assert o.db.drivers[id := o.db.drivers[id]] == o.db.drivers;
    }
  }

  /** A verified licence is what lets riders request rides from the driver:
      after a successful verification any rider's request naming the driver
      is admitted. */
  lemma VerificationAdmitsRides(db: Db, cache: Cache, admin: Caller, id: Id, license: Option<string>,
                                rider: Caller, input: RideResolver.RideInput)
    requires VerifyLicenseNumber(db, cache, admin, id, license).resp.statusCode == 200
    requires rider.isRider && input.driver == Some(id)
    ensures var o := VerifyLicenseNumber(db, cache, admin, id, license);
            RideResolver.Admitted(o.db, rider, input)
  {
  }

  /** `createDriver` keeps the unique indexes: it saves only what they admit. */
  lemma CreateDriverKeepsIndexes(db: Db, cache: Cache, input: DriverInput, now: Time)
    requires IndexesHold(db)
    ensures IndexesHold(CreateDriver(db, cache, input, now).db)
  {
    if DriverSaveable(db.drivers, db.next, Candidate(input, now)) {
      DriverWriteKeepsIndexes(db, db.next, Candidate(input, now));
    }
  }

  /** `updateDriver` keeps the unique indexes, the "vehicle missing" answer
      included: it writes only a patched driver they admit. */
  lemma UpdateDriverKeepsIndexes(db: Db, cache: Cache, id: Id, patch: DriverPatch)
    requires IndexesHold(db)
    ensures IndexesHold(UpdateDriver(db, cache, id, patch).db)
  {
    if id in db.drivers && DriverUnique(db.drivers, id, ApplyPatch(db.drivers[id], patch)) {
      DriverWriteKeepsIndexes(db, id, ApplyPatch(db.drivers[id], patch));
    }
  }

  /** Once a driver is deleted, reading it is a 404. */
  lemma DeletedDriverNotFound(db: Db, cache: Cache, id: Id)
    ensures var o := DeleteDriver(db, cache, id);
            GetDriver(o.db, o.cache, id).resp == Envelope(404, DriverNotFound, Null)
  {
  }
}

=== FILE: driver_service.dfy ===
/** Driver persistence: read, create, patch-update, delete, the licence flag
    write, the lookup by vehicle and the delete-all-of-a-user cascade. */
module DriverService {
  import opened Common
  import opened DriverModel
  import Store

  /** `getDriverById`: the stored driver, or null. */
  function GetDriverById(drivers: map<Id, Driver>, id: Id): (r: Option<Driver>)
    ensures r.Some? <==> id in drivers
    ensures r.Some? ==> r.value == drivers[id]
  {
    Store.Lookup(drivers, id)
  }

  /** `createDriver`: exactly one driver is added, under the fresh id. */
  function CreateDriver(drivers: map<Id, Driver>, id: Id, d: Driver): (m: map<Id, Driver>)
    requires id !in drivers
    ensures m.Keys == drivers.Keys + {id} && m[id] == d
    ensures forall k :: k in drivers ==> m[k] == drivers[k]
  {
    Store.Insert(drivers, id, d)
  }

  /** `updateDriver`: null and no change for an absent id; otherwise the patch
      is merged into that driver alone. */
  function UpdateDriver(drivers: map<Id, Driver>, id: Id, patch: DriverPatch): (w: Store.Write<Driver>)
    ensures id !in drivers ==> w.result.None? && w.table == drivers
    ensures id in drivers ==> w.result == Some(ApplyPatch(drivers[id], patch))
    ensures id in drivers ==> w.table == drivers[id := ApplyPatch(drivers[id], patch)]
  {
    Store.Modify(drivers, id, (d: Driver) => ApplyPatch(d, patch))
  }

  /** `updateDriver(id, {isLicenseNumberVerified: true})`: null for an absent
      id; otherwise that driver's flag alone becomes true. */
  function MarkLicenseVerified(drivers: map<Id, Driver>, id: Id): (w: Store.Write<Driver>)
    ensures id !in drivers ==> w.result.None? && w.table == drivers
    ensures w.table.Keys == drivers.Keys
    ensures id in drivers ==> w.result == Some(w.table[id])
    ensures id in drivers ==> w.table[id] == drivers[id].(isLicenseNumberVerified := true)
    ensures forall k :: k in drivers && k != id ==> w.table[k] == drivers[k]
  {
    Store.Modify(drivers, id, (d: Driver) => d.(isLicenseNumberVerified := true))
  }

  /** `deleteDriver`: true exactly when the id existed; afterwards it is absent. */
  function DeleteDriver(drivers: map<Id, Driver>, id: Id): (d: Store.Removal<Driver>)
    ensures d.removed <==> id in drivers
    ensures id !in d.table && d.table.Keys == drivers.Keys - {id}
    ensures forall k :: k in d.table ==> d.table[k] == drivers[k]
  {
    Store.Remove(drivers, id)
  }

  /** `getDriverByVehicleId`: a driver (the first in natural order) whose
      vehicle is `vehicle`, or null exactly when no driver references it. */
  function GetDriverByVehicleId(drivers: map<Id, Driver>, vehicle: Id, bound: Id): (r: Option<Id>)
    requires forall k :: k in drivers ==> k < bound
    ensures r.Some? ==> r.value in drivers && drivers[r.value].vehicle == vehicle
    ensures r.Some? ==> forall k :: k in drivers && k < r.value ==> drivers[k].vehicle != vehicle
    ensures r.None? <==> forall k :: k in drivers ==> drivers[k].vehicle != vehicle
  {
    Store.FindFirst(drivers, (d: Driver) => d.vehicle == vehicle, bound)
  }

  /** `deleteDriverByUserId`: removes every driver of `user`, keeps the rest,
      and is true exactly when at least one was removed. */
  function DeleteDriverByUserId(drivers: map<Id, Driver>, user: Id): (d: Store.Removal<Driver>)
    ensures d.removed <==> exists k :: k in drivers && drivers[k].user == user
    ensures forall k :: k in d.table <==> k in drivers && drivers[k].user != user
    ensures forall k :: k in d.table ==> d.table[k] == drivers[k]
  {
    Store.RemoveWhere(drivers, (d: Driver) => d.user == user)
  }
}

=== FILE: outcome.dfy ===
/** The result of running one resolver: the database and cache afterwards and
    the response envelope. */
module Outcomes {
  import opened Database
  import opened Caching
  import opened Response

  datatype Outcome = Outcome(db: Db, cache: Cache, resp: Envelope)

  /** An answer that leaves database and cache as they were. */
  function Reply(db: Db, cache: Cache, code: int, msg: Msg, data: Data): (o: Outcome)
    ensures o.db == db && o.cache == cache
    ensures o.resp.statusCode == code && o.resp.msg == msg && o.resp.data == data
  {
    Outcome(db, cache, Envelope(code, msg, data))
  }
}

=== FILE: payment_model.dfy ===
/** The payment document: payer, booking, amount, currency, payment method and
    status. The schema puts no uniqueness constraint on `booking`. */
module PaymentModel {
  import opened Common

  /** The values the schema's `status` enum admits. */
  datatype PaymentStatus = Pending | Paid | Unpaid | Refunded

  const StatusNames: seq<string> := ["pending", "paid", "unpaid", "refunded"]

  function StatusText(s: PaymentStatus): (t: string)
    ensures t in StatusNames
  {
    match s
    case Pending => "pending"
    case Paid => "paid"
    case Unpaid => "unpaid"
    case Refunded => "refunded"
  }

  /** Reading a payment status back from its text: defined exactly on the enum's names. */
  function ParseStatus(t: string): (r: Option<PaymentStatus>)
    ensures r.Some? <==> t in StatusNames
    ensures r.Some? ==> StatusText(r.value) == t
  {
    if t == "pending" then Some(Pending)
    else if t == "paid" then Some(Paid)
    else if t == "unpaid" then Some(Unpaid)
    else if t == "refunded" then Some(Refunded)
    else None
  }

  lemma ParseStatusText(s: PaymentStatus)
    ensures ParseStatus(StatusText(s)) == Some(s)
  {
  }

  const DefaultCurrency: string := "USD"

  /** A stored payment. Its status holds text: the schema checks it against
      the enum when a payment is created, but an update writes whatever string
      it is given. */
  datatype Payment = Payment(
    user: Id,
    booking: Id,
    amount: real,
    currency: string,
    paymentMethod: Id,
    status: string,
    createdAt: Time,
    updatedAt: Time)

  /** A saved payment: the status is stored by name, an omitted currency is
      "USD", an omitted status is `pending`, and the save hook stamps both
      times with `now`. */
  function NewPayment(user: Id, booking: Id, amount: real, currency: Option<string>,
                      paymentMethod: Id, status: Option<PaymentStatus>, now: Time): (p: Payment)
    ensures p.user == user && p.booking == booking && p.amount == amount
    ensures p.paymentMethod == paymentMethod
    ensures currency.Some? ==> p.currency == currency.value
    ensures p.status in StatusNames
    ensures status.Some? ==> ParseStatus(p.status) == status
    ensures p.createdAt == now && p.updatedAt == now
  {
    ParseStatusText(status.GetOr(Pending));
    Payment(user, booking, amount, currency.GetOr(DefaultCurrency), paymentMethod,
            StatusText(status.GetOr(Pending)), now, now)
  }

  /** The schema defaults of a payment. */
  lemma NewPaymentDefaults(user: Id, booking: Id, amount: real, paymentMethod: Id, now: Time)
    ensures NewPayment(user, booking, amount, None, paymentMethod, None, now).currency == "USD"
    ensures NewPayment(user, booking, amount, None, paymentMethod, None, now).status == "pending"
  {
  }

  /** The fields an update may carry; the status arrives as free text. */
  datatype PaymentPatch = PaymentPatch(
    user: Option<Id>,
    booking: Option<Id>,
    amount: Option<real>,
    currency: Option<string>,
    paymentMethod: Option<Id>,
    status: Option<string>)

  /** `findByIdAndUpdate` semantics: every field the patch carries overwrites,
      every other field, the timestamps included, is kept. */
  function ApplyPatch(q: Payment, p: PaymentPatch): (r: Payment)
    ensures r.createdAt == q.createdAt && r.updatedAt == q.updatedAt
    ensures p.user.Some? ==> r.user == p.user.value
    ensures p.user.None? ==> r.user == q.user
    ensures p.booking.Some? ==> r.booking == p.booking.value
    ensures p.booking.None? ==> r.booking == q.booking
    ensures p.amount.Some? ==> r.amount == p.amount.value
    ensures p.amount.None? ==> r.amount == q.amount
    ensures p.currency.Some? ==> r.currency == p.currency.value
    ensures p.currency.None? ==> r.currency == q.currency
    ensures p.paymentMethod.Some? ==> r.paymentMethod == p.paymentMethod.value
    ensures p.paymentMethod.None? ==> r.paymentMethod == q.paymentMethod
    ensures p.status.Some? ==> r.status == p.status.value
    ensures p.status.None? ==> r.status == q.status
  {
    q.(user := p.user.GetOr(q.user),
       booking := p.booking.GetOr(q.booking),
       amount := p.amount.GetOr(q.amount),
       currency := p.currency.GetOr(q.currency),
       paymentMethod := p.paymentMethod.GetOr(q.paymentMethod),
       status := p.status.GetOr(q.status))
  }

  lemma PatchIdempotent(q: Payment, p: PaymentPatch)
    ensures ApplyPatch(ApplyPatch(q, p), p) == ApplyPatch(q, p)
  {
  }

  lemma EmptyPatchKeeps(q: Payment)
    ensures ApplyPatch(q, PaymentPatch(None, None, None, None, None, None)) == q
  {
  }

  /** A patch stores any status text as given, a name outside the enum
      included: the enum check holds for new payments only. */
  lemma PatchCanStoreUnknownStatus(q: Payment, t: string)
    ensures ApplyPatch(q, PaymentPatch(None, None, None, None, None, Some(t))).status == t
    ensures ApplyPatch(q, PaymentPatch(None, None, None, None, None, Some("void"))).status !in StatusNames
  {
  }
}

=== FILE: payment_resolver.dfy ===
/** The payment resolvers: the admin listing, read by id, paying for a booking
    (which mirrors the payment's status onto the booking), update and delete.
    None of them touches the cache. */
module PaymentResolver {
  import opened Common
  import opened PaymentModel
  import BookingModel
  import opened Database
  import opened Caching
  import opened Response
  import opened Outcomes
  import PaymentService
  import BookingService


  /** A payment request; the payer is always the caller. */
  datatype PaymentInput = PaymentInput(
    booking: Option<Id>,
    amount: real,
    currency: Option<string>,
    paymentMethod: Id,
    status: Option<PaymentStatus>)

  /** No two payments are for the same booking. */
  predicate OnePaymentPerBooking(payments: map<Id, Payment>) {
    forall a, b :: a in payments && b in payments && a != b ==> payments[a].booking != payments[b].booking
  }

  /** `getAllPayments`: admins get every payment, others a 403. */
  function GetAllPayments(db: Db, cache: Cache, caller: Caller): (o: Outcome)
    ensures o.db == db && o.cache == cache
    ensures o.resp.statusCode == 200 <==> caller.isAdmin
    ensures !caller.isAdmin ==> o.resp == Envelope(403, AccessDenied, Null)
    ensures caller.isAdmin ==> o.resp.data == PaymentList(db.payments)
  {
    if !caller.isAdmin then Reply(db, cache, 403, AccessDenied, Null)
    else Reply(db, cache, 200, PaymentsFetched, PaymentList(db.payments))
  }

  /** `getPayment`: the stored payment, or a 404. */
  function GetPayment(db: Db, cache: Cache, id: Id): (o: Outcome)
    ensures o.db == db && o.cache == cache
    ensures id !in db.payments <==> o.resp == Envelope(404, PaymentNotFound, Null)
    ensures id in db.payments ==> o.resp == Envelope(200, PaymentFetched, PaymentDoc(id, db.payments[id]))
  {
    match PaymentService.GetPaymentById(db.payments, id)
    case None => Reply(db, cache, 404, PaymentNotFound, Null)
    case Some(p) => Reply(db, cache, 200, PaymentFetched, PaymentDoc(id, p))
  }

  /** `createPayment`. The booking must exist (else a 400) and have no payment
      yet (else a 400); a currency given as the empty string fails the schema's
      `required` on save (a 500). Nothing is written on any of these. Otherwise
      the caller's payment is saved under a fresh id with the defaults USD and
      pending; when the request names a status, the booking's payment state
      takes that status and the updated booking is answered with it. Users,
      rides, drivers, vehicles and the cache are untouched. */
  function CreatePayment(db: Db, cache: Cache, caller: Caller, input: PaymentInput, now: Time): (o: Outcome)
    ensures o.cache == cache
    ensures o.resp.statusCode == 201 <==>
              && input.booking.Some? && input.booking.value in db.bookings
              && (forall k :: k in db.payments ==> db.payments[k].booking != input.booking.value)
              && input.currency != Some("")
    ensures o.resp.statusCode != 201 ==> o.db == db
    ensures input.booking.None? || input.booking.value !in db.bookings ==>
              o.resp == Envelope(400, InvalidBooking, Null)
    ensures input.booking.Some? && input.booking.value in db.bookings ==>
              && ((exists k :: k in db.payments && db.payments[k].booking == input.booking.value) ==>
                    o.resp == Envelope(400, AlreadyPaid, Null))
              && (((forall k :: k in db.payments ==> db.payments[k].booking != input.booking.value) &&
                   input.currency == Some("")) ==> o.resp == Envelope(500, PaymentCreateFailed, Fault))
    ensures o.resp.statusCode == 201 ==>
              var b := input.booking.value;
              var p := Payment(caller.id, b, input.amount, input.currency.GetOr(DefaultCurrency),
                               input.paymentMethod, StatusText(input.status.GetOr(Pending)), now, now);
              var booking := db.bookings[b].(paymentStatus := StatusText(input.status.GetOr(Pending)));
              && o.db == db.(payments := db.payments[db.next := p],
                             bookings := if input.status.Some? then db.bookings[b := booking] else db.bookings,
                             next := db.next + 1)
              && o.resp == Envelope(201, PaymentDone,
                                    PaymentMade(db.next, p, if input.status.Some? then Some(booking) else None))
  {
    if input.booking.None? || BookingService.GetBookingById(db.bookings, input.booking.value).None? then
      Reply(db, cache, 400, InvalidBooking, Null)
    else if PaymentService.GetPaymentByBookingId(db.payments, input.booking.value, db.next).Some? then
      Reply(db, cache, 400, AlreadyPaid, Null)
    else if input.currency == Some("") then
      Reply(db, cache, 500, PaymentCreateFailed, Fault)
    else
      var b := input.booking.value;
      var p := NewPayment(caller.id, b, input.amount, input.currency, input.paymentMethod, input.status, now);
      NextIsFresh(db);
      var payments := PaymentService.CreatePayment(db.payments, db.next, p);
      var saved := AddPayments(db, payments);
      match input.status
      case None =>
        Outcome(saved, cache, Envelope(201, PaymentDone, PaymentMade(db.next, p, None)))
      case Some(s) =>
        var w := BookingService.UpdateBookingPaymentStatus(db.bookings, b, StatusText(s));
        Outcome(WithBookings(saved, w.table), cache, Envelope(201, PaymentDone, PaymentMade(db.next, p, w.result)))
  }

  /** A payment made with an explicit status leaves its booking's payment
      state holding the same name as the payment's status, one of the
      booking enum's names. */
  lemma StatusMirrored(db: Db, cache: Cache, caller: Caller, input: PaymentInput, now: Time)
    requires input.status.Some?
    requires CreatePayment(db, cache, caller, input, now).resp.statusCode == 201
    ensures var o := CreatePayment(db, cache, caller, input, now);
            && o.db.bookings[input.booking.value].paymentStatus == o.db.payments[db.next].status
            && o.db.payments[db.next].status in BookingModel.PaymentStateNames
  {
  }

  /** A payment made without a status is stored as pending but its booking's
      payment state is left as it was: the two then disagree whenever the
      booking was not already pending. */
  lemma DefaultStatusNotMirrored(db: Db, cache: Cache, caller: Caller, input: PaymentInput, now: Time)
    requires input.status.None?
    requires CreatePayment(db, cache, caller, input, now).resp.statusCode == 201
    ensures var o := CreatePayment(db, cache, caller, input, now);
            && o.db.payments[db.next].status == "pending"
            && o.db.bookings == db.bookings
  {
  }

  /** Paying never gives a booking a second payment. */
  lemma CreateKeepsOnePaymentPerBooking(db: Db, cache: Cache, caller: Caller, input: PaymentInput, now: Time)
    requires OnePaymentPerBooking(db.payments)
    ensures OnePaymentPerBooking(CreatePayment(db, cache, caller, input, now).db.payments)
  {
    var o := CreatePayment(db, cache, caller, input, now);
    if o.resp.statusCode == 201 {
      NextIsFresh(db);
      forall a, b | a in o.db.payments && b in o.db.payments && a != b
        ensures o.db.payments[a].booking != o.db.payments[b].booking
      {
        if a != db.next && b != db.next {
          assert o.db.payments[a] == db.payments[a] && o.db.payments[b] == db.payments[b];
        }
      }
    }
  }

  /** `updatePayment`: a 404 for an unknown id; otherwise the patch is merged
      into that payment alone and the merged payment answered. */
  function UpdatePayment(db: Db, cache: Cache, id: Id, patch: PaymentPatch): (o: Outcome)
    ensures o.cache == cache
    ensures id !in db.payments ==> o == Reply(db, cache, 404, PaymentNotFound, Null)
    ensures id in db.payments ==>
              var p := ApplyPatch(db.payments[id], patch);
              && o.db == db.(payments := db.payments[id := p])
              && o.resp == Envelope(200, PaymentUpdated, PaymentDoc(id, p))
  {
    var w := PaymentService.UpdatePayment(db.payments, id, patch);
    match w.result
    case None => Reply(db, cache, 404, PaymentNotFound, Null)
    case Some(p) => Outcome(WithPayments(db, w.table), cache, Envelope(200, PaymentUpdated, PaymentDoc(id, p)))
  }

  /** `deletePayment`: a 404 for an unknown id; otherwise that payment alone is
      removed. */
  function DeletePayment(db: Db, cache: Cache, id: Id): (o: Outcome)
    ensures o.cache == cache
    ensures id !in db.payments ==> o == Reply(db, cache, 404, PaymentNotFoundOrDeleted, Null)
    ensures id in db.payments ==>
              && o.db == db.(payments := db.payments - {id})
              && o.resp == Envelope(200, PaymentDeleted, Success(true))
  {
    var d := PaymentService.DeletePayment(db.payments, id);
    if !d.removed then Reply(db, cache, 404, PaymentNotFoundOrDeleted, Null)
    else Outcome(WithPayments(db, d.table), cache, Envelope(200, PaymentDeleted, Success(true)))
  }

  /** Once a payment is deleted, reading it is a 404. */
  lemma DeletedPaymentNotFound(db: Db, cache: Cache, id: Id)
    ensures var o := DeletePayment(db, cache, id);
            GetPayment(o.db, o.cache, id).resp == Envelope(404, PaymentNotFound, Null)
  {
  }
}

=== FILE: payment_service.dfy ===
/** Payment persistence: read, create, patch-update, delete and the lookup of a
    payment by its booking. */
module PaymentService {
  import opened Common
  import opened PaymentModel
  import Store

  /** `getPaymentById`: the stored payment, or null. */
  function GetPaymentById(payments: map<Id, Payment>, id: Id): (r: Option<Payment>)
    ensures r.Some? <==> id in payments
    ensures r.Some? ==> r.value == payments[id]
  {
    Store.Lookup(payments, id)
  }

  /** `createPayment`: exactly one payment is added, under the fresh id. */
  function CreatePayment(payments: map<Id, Payment>, id: Id, p: Payment): (m: map<Id, Payment>)
    requires id !in payments
    ensures m.Keys == payments.Keys + {id} && m[id] == p
    ensures |m| == |payments| + 1
    ensures forall k :: k in payments ==> m[k] == payments[k]
  {
    Store.Insert(payments, id, p)
  }

  /** `updatePayment`: null and no change for an absent id; otherwise the patch
      is merged into that payment alone. */
  function UpdatePayment(payments: map<Id, Payment>, id: Id, patch: PaymentPatch): (w: Store.Write<Payment>)
    ensures id !in payments ==> w.result.None? && w.table == payments
    ensures id in payments ==> w.result == Some(ApplyPatch(payments[id], patch))
    ensures id in payments ==> w.table == payments[id := ApplyPatch(payments[id], patch)]
  {
    Store.Modify(payments, id, (q: Payment) => ApplyPatch(q, patch))
  }

  /** `deletePayment`: true exactly when the id existed; afterwards it is absent. */
  function DeletePayment(payments: map<Id, Payment>, id: Id): (d: Store.Removal<Payment>)
    ensures d.removed <==> id in payments
    ensures id !in d.table && d.table.Keys == payments.Keys - {id}
    ensures forall k :: k in d.table ==> d.table[k] == payments[k]
  {
    Store.Remove(payments, id)
  }

  /** `getPaymentByBookingId`: a payment (the first in natural order) whose
      booking is `booking`, or null exactly when no payment references it. Ids
      below `bound` are searched; the database's counter covers every id. */
  function GetPaymentByBookingId(payments: map<Id, Payment>, booking: Id, bound: Id): (r: Option<Id>)
    requires forall k :: k in payments ==> k < bound
    ensures r.Some? ==> r.value in payments && payments[r.value].booking == booking
    ensures r.None? <==> forall k :: k in payments ==> payments[k].booking != booking
  {
    Store.FindFirst(payments, (q: Payment) => q.booking == booking, bound)
  }
}

=== FILE: response.dfy ===
/** What a resolver answers: the `{statusCode, msg, data}` envelope, with the
    payloads the resolvers put in `data`. */
module Response {
  import opened Common
  import UserModel
  import DriverModel
  import VehicleModel
  import RideModel
  import BookingModel
  import PaymentModel
  import AuthValidation

  /** The claims a login token carries. Signing and expiry belong to the token
      library and are not modelled. */
  datatype Token = Token(id: Id, isDriver: bool, isAdmin: bool, isRider: bool)

  /** The vehicle reference of a driver, populated with its licence number. */
  datatype VehicleRef = VehicleRef(refId: Id, refLicense: string)

  /** The flattened driver that `updateDriver` answers with. */
  datatype DriverView = DriverView(
    viewId: Id,
    viewLicense: Option<string>,
    viewVehicle: VehicleRef,
    viewRating: real,
    viewRides: int,
    viewUpdatedAt: Time)

  /** The payloads. Lists are answered in natural order, which is ascending id,
      so a collection map carries the same information. */
  datatype Data =
    | Null
    | Fault
    | UserList(users: map<Id, UserModel.User>)
    | UserDoc(userId: Id, user: UserModel.User)
    | RideList(rides: map<Id, RideModel.Ride>)
    | RideDoc(rideId: Id, ride: RideModel.Ride)
    | BookingList(bookings: map<Id, BookingModel.Booking>)
    | BookingDoc(bookingId: Id, booking: BookingModel.Booking)
    | Booked(bookedId: Id, newBooking: BookingModel.Booking, rideData: RideModel.Ride)
    | RideCancelled(cancelledRide: RideModel.Ride)
    | PaymentList(payments: map<Id, PaymentModel.Payment>)
    | PaymentDoc(paymentId: Id, payment: PaymentModel.Payment)
    | PaymentMade(paidId: Id, newPayment: PaymentModel.Payment, bookingData: Option<BookingModel.Booking>)
    | DriverList(drivers: map<Id, DriverModel.Driver>)
    | DriverDoc(driverId: Id, driver: DriverModel.Driver)
    | DriverFlat(view: DriverView)
    | VehicleList(vehicles: map<Id, VehicleModel.Vehicle>)
    | VehicleDoc(vehicleId: Id, vehicle: VehicleModel.Vehicle)
    | Success(success: bool)
    | Deletion(deleted: bool)
    | Registered(registeredId: Id, registered: UserModel.User)
    | DriverAccount(accountId: Id, account: UserModel.User, newDriverId: Id, newDriver: DriverModel.Driver,
                    newVehicleId: Id, newVehicle: VehicleModel.Vehicle)
    | Issued(token: Token)
    | Invalid(errors: seq<AuthValidation.FieldError>)

  /** The `msg` texts the resolvers answer with, one constructor per distinct
      text; `Text` gives the text itself. */
  datatype Msg =
    | AccessDenied
    | InternalError
    | UsersFetchedFromCache
    | UsersFetched
    | UserFetchedFromCache
    | UserNotFound
    | UserFetched
    | UserCreated
    | UserCreateFailed
    | UserUpdated
    | UserUpdateFailed
    | UserNotFoundOrDeleted
    | UserDeleted
    | RidesFetchedFromCache
    | RidesFetched
    | RideFetchedFromCache
    | RideFetched
    | RideNotFound
    | NotRider
    | DriverNotFound
    | LicenseUnverified
    | RideCreated
    | RideUpdated
    | RideNotFoundOrDeleted
    | RideDeleted
    | NotDriver
    | BadFare
    | BadStatus
    | BadPaymentStatus
    | BookingRideNotFound
    | BookingRiderNotFound
    | RideUnavailable
    | RideCancellation
    | BookedSuccessfully
    | BookingsFetched
    | BookingNotFound
    | BookingFetched
    | BookingUpdated
    | BookingNotFoundOrDeleted
    | BookingDeleted
    | InvalidBooking
    | AlreadyPaid
    | PaymentDone
    | PaymentCreateFailed
    | PaymentsFetched
    | PaymentNotFound
    | PaymentFetched
    | PaymentUpdated
    | PaymentNotFoundOrDeleted
    | PaymentDeleted
    | DriversFetched
    | DriverFetched
    | DriverCreated
    | DriverCreateFailed
    | DriverUpdated
    | DriverUpdateFailed
    | VehicleMissing
    | DriverNotFoundOrDeleted
    | DriverDeleted
    | LicenseRequired
    | LicenseMismatch
    | LicenseVerified
    | LicenseVerifyFailed
    | VehiclesFetched
    | VehicleNotFound
    | VehicleFetched
    | VehicleCreated
    | VehicleCreateFailed
    | VehicleLicenseMismatch
    | VehicleUpdated
    | VehicleUpdateFailed
    | VehicleNotFoundOrDeleted
    | VehicleDeleted
    | OneAdminOnly
    | ValidationErrors
    | UserExists
    | DrriverRegistered
    | UserRegistered
    | InvalidCredentials
    | LoginSuccessful
    | LogoutSuccessful
  {
    function Text(): string {
      match this
      case AccessDenied => "Access denied - User is not an admin"
      case InternalError => "Internal server error"
      case UsersFetchedFromCache => "Users fetched successfully (from cache)"
      case UsersFetched => "Users fetched successfully"
      case UserFetchedFromCache => "User fetched successfully (cache)"
      case UserNotFound => "User not found"
      case UserFetched => "User fetched successfully"
      case UserCreated => "User created successfully"
      case UserCreateFailed => "Failed to create user"
      case UserUpdated => "User updated successfully"
      case UserUpdateFailed => "Failed to update user"
      case UserNotFoundOrDeleted => "User not found or already deleted"
      case UserDeleted => "User deleted successfully"
      case RidesFetchedFromCache => "Rides fetched successfully (from cache)"
      case RidesFetched => "Rides fetched successfully"
      case RideFetchedFromCache => "Ride fetched successfully (cache)"
      case RideFetched => "Ride fetched successfully"
      case RideNotFound => "Ride not found"
      case NotRider => "User is not a Rider"
      case DriverNotFound => "Driver not found"
      case LicenseUnverified => "Driver license is not verified. Ride cannot be booked"
      case RideCreated => "Ride created successfully"
      case RideUpdated => "Ride updated successfully"
      case RideNotFoundOrDeleted => "Ride not found or already deleted"
      case RideDeleted => "Ride deleted successfully"
      case NotDriver => "Only driver can accept rider booking"
      case BadFare => "Fare must be a positive number."
      case BadStatus => "Invalid booking status. Allowed values: 'accepted', 'rejected', 'cancelled', 'completed'."
      case BadPaymentStatus => "Invalid payment status. Allowed values: 'unpaid', 'paid', 'refunded'."
      case BookingRideNotFound => "Ride not found."
      case BookingRiderNotFound => "User not found."
      case RideUnavailable => "Ride is not available for booking."
      case RideCancellation => "Ride has been successfully cancelled"
      case BookedSuccessfully => "Booked successfully"
      case BookingsFetched => "Bookings fetched successfully"
      case BookingNotFound => "Booking not found"
      case BookingFetched => "Booking fetched successfully"
      case BookingUpdated => "Booking updated successfully"
      case BookingNotFoundOrDeleted => "Booking not found or already deleted"
      case BookingDeleted => "Booking deleted successfully"
      case InvalidBooking => "Invalid booking ID."
      case AlreadyPaid => "A payment already exists for this booking."
      case PaymentDone => "Payment done successfully."
      case PaymentCreateFailed => "Failed to create payment"
      case PaymentsFetched => "Payments fetched successfully"
      case PaymentNotFound => "Payment not found"
      case PaymentFetched => "Payment fetched successfully"
      case PaymentUpdated => "Payment updated successfully"
      case PaymentNotFoundOrDeleted => "Payment not found or already deleted"
      case PaymentDeleted => "Payment deleted successfully"
      case DriversFetched => "Drivers fetched successfully"
      case DriverFetched => "Driver fetched successfully"
      case DriverCreated => "Driver created successfully"
      case DriverCreateFailed => "Failed to create driver"
      case DriverUpdated => "Driver updated successfully"
      case DriverUpdateFailed => "Failed to update driver"
      case VehicleMissing => "Driver vehicle information is missing"
      case DriverNotFoundOrDeleted => "Driver not found or already deleted"
      case DriverDeleted => "Driver deleted successfully"
      case LicenseRequired => "License number is required"
      case LicenseMismatch => "License number verification failed missmatch"
      case LicenseVerified => "License number verified successfully"
      case LicenseVerifyFailed => "Failed to verify license number"
      case VehiclesFetched => "Vehicles fetched successfully"
      case VehicleNotFound => "Vehicle not found"
      case VehicleFetched => "Vehicle fetched successfully"
      case VehicleCreated => "Vehicle created successfully"
      case VehicleCreateFailed => "Failed to create vehicle"
      case VehicleLicenseMismatch => "License number mismatch between driver and vehicle"
      case VehicleUpdated => "Vehicle updated successfully"
      case VehicleUpdateFailed => "Failed to update vehicle"
      case VehicleNotFoundOrDeleted => "Vehicle not found or already deleted"
      case VehicleDeleted => "Vehicle deleted successfully"
      case OneAdminOnly => "Only one admin is allowed in the system"
      case ValidationErrors => "Validation errors"
      case UserExists => "User already exists"
      case DrriverRegistered => "Drriver registered successfully"
      case UserRegistered => "User registered successfully"
      case InvalidCredentials => "Invalid email or password"
      case LoginSuccessful => "Login successful"
      case LogoutSuccessful => "Logout successful"
    }
  }

  /** The response envelope every resolver returns. */
  datatype Envelope = Envelope(statusCode: int, msg: Msg, data: Data)
}

=== FILE: ride_model.dfy ===
/** The ride document: who booked it, with which driver and vehicle, where from
    and to, and its status. */
module RideModel {
  import opened Common

  /** The four values the schema's `status` enum admits. */
  datatype RideStatus = Pending | InProgress | Completed | Cancelled

  /** The text stored for a ride status. */
  function StatusText(s: RideStatus): (t: string)
    ensures t in StatusNames
  {
    match s
    case Pending => "pending"
    case InProgress => "in-progress"
    case Completed => "completed"
    case Cancelled => "cancelled"
  }

  const StatusNames: seq<string> := ["pending", "in-progress", "completed", "cancelled"]

  /** Reading a status back from its text: defined exactly on the enum's names. */
  function ParseStatus(t: string): (r: Option<RideStatus>)
    ensures r.Some? <==> t in StatusNames
    ensures r.Some? ==> StatusText(r.value) == t
  {
    if t == "pending" then Some(Pending)
    else if t == "in-progress" then Some(InProgress)
    else if t == "completed" then Some(Completed)
    else if t == "cancelled" then Some(Cancelled)
    else None
  }

  lemma ParseStatusText(s: RideStatus)
    ensures ParseStatus(StatusText(s)) == Some(s)
  {
  }

  /** A GeoJSON point; the schema fixes its `type` to "Point". */
  datatype GeoPoint = GeoPoint(coordinates: seq<real>) {
    function Type(): string { "Point" }
  }

  datatype Ride = Ride(
    driver: Id,
    vehicle: Id,
    user: Id,
    origin: GeoPoint,
    destination: GeoPoint,
    distance: real,
    estimatedTime: int,
    price: real,
    status: RideStatus,
    createdAt: Time,
    updatedAt: Time)

  /** A saved ride: an omitted status takes the default `pending`, and the
      save hook stamps both times with `now`. */
  function NewRide(driver: Id, vehicle: Id, user: Id, origin: GeoPoint, destination: GeoPoint,
                   distance: real, estimatedTime: int, price: real,
                   status: Option<RideStatus>, now: Time): (r: Ride)
    ensures r.driver == driver && r.vehicle == vehicle && r.user == user
    ensures r.origin == origin && r.destination == destination
    ensures r.distance == distance && r.estimatedTime == estimatedTime && r.price == price
    ensures status.Some? ==> r.status == status.value
    ensures r.createdAt == now && r.updatedAt == now
  {
    Ride(driver, vehicle, user, origin, destination, distance, estimatedTime, price,
         status.GetOr(Pending), now, now)
  }

  /** A ride created without an explicit status is pending. */
  lemma NewRideIsPending(driver: Id, vehicle: Id, user: Id, origin: GeoPoint, destination: GeoPoint,
                         distance: real, estimatedTime: int, price: real, now: Time)
    ensures NewRide(driver, vehicle, user, origin, destination, distance, estimatedTime, price, None, now).status
            == Pending
  {
  }

  /** The fields an update may carry (the update input has no status). */
  datatype RidePatch = RidePatch(
    driver: Option<Id>,
    vehicle: Option<Id>,
    origin: Option<GeoPoint>,
    destination: Option<GeoPoint>,
    distance: Option<real>,
    estimatedTime: Option<int>,
    price: Option<real>)

  /** `findByIdAndUpdate` semantics: every field the patch carries overwrites,
      every other field, the timestamps included, is kept. */
  function ApplyPatch(r: Ride, p: RidePatch): (q: Ride)
    ensures q.user == r.user && q.status == r.status
    ensures q.createdAt == r.createdAt && q.updatedAt == r.updatedAt
    ensures p.driver.Some? ==> q.driver == p.driver.value
    ensures p.driver.None? ==> q.driver == r.driver
    ensures p.vehicle.Some? ==> q.vehicle == p.vehicle.value
    ensures p.vehicle.None? ==> q.vehicle == r.vehicle
    ensures p.origin.Some? ==> q.origin == p.origin.value
    ensures p.origin.None? ==> q.origin == r.origin
    ensures p.destination.Some? ==> q.destination == p.destination.value
    ensures p.destination.None? ==> q.destination == r.destination
    ensures p.distance.Some? ==> q.distance == p.distance.value
    ensures p.distance.None? ==> q.distance == r.distance
    ensures p.estimatedTime.Some? ==> q.estimatedTime == p.estimatedTime.value
    ensures p.estimatedTime.None? ==> q.estimatedTime == r.estimatedTime
    ensures p.price.Some? ==> q.price == p.price.value
    ensures p.price.None? ==> q.price == r.price
  {
    r.(driver := p.driver.GetOr(r.driver),
       vehicle := p.vehicle.GetOr(r.vehicle),
       origin := p.origin.GetOr(r.origin),
       destination := p.destination.GetOr(r.destination),
       distance := p.distance.GetOr(r.distance),
       estimatedTime := p.estimatedTime.GetOr(r.estimatedTime),
       price := p.price.GetOr(r.price))
  }

  /** Applying the same patch twice is the same as applying it once. */
  lemma PatchIdempotent(r: Ride, p: RidePatch)
    ensures ApplyPatch(ApplyPatch(r, p), p) == ApplyPatch(r, p)
  {
  }

  /** The empty patch changes nothing. */
  lemma EmptyPatchKeeps(r: Ride)
    ensures ApplyPatch(r, RidePatch(None, None, None, None, None, None, None)) == r
  {
  }
}

=== FILE: ride_resolver.dfy ===
/** The ride resolvers: the admin listing (served from the cache when an entry
    exists), read by id (which consults the cache under a user key), the
    rider's ride request, update (which drops two cache keys) and delete. */
module RideResolver {
  import opened Common
  import opened RideModel
  import opened Database
  import opened Caching
  import opened Response
  import opened Outcomes
  import RideService
  import DriverService


  /** A ride request; the rider is the caller and the vehicle is the driver's. */
  datatype RideInput = RideInput(
    driver: Option<Id>,
    origin: GeoPoint,
    destination: GeoPoint,
    distance: real,
    estimatedTime: int,
    price: real,
    status: Option<RideStatus>)

  /** `getAllRides`: admins get the cached list when `rides:all` holds one, the
      stored rides otherwise; the listing never fills the cache. Others get a
      403. */
  function GetAllRides(db: Db, cache: Cache, caller: Caller): (o: Outcome)
    ensures o.db == db && o.cache == cache
    ensures o.resp.statusCode == 200 <==> caller.isAdmin
    ensures !caller.isAdmin ==> o.resp == Envelope(403, AccessDenied, Null)
    ensures caller.isAdmin && AllRidesKey in cache ==>
              o.resp == Envelope(200, RidesFetchedFromCache, cache[AllRidesKey].value)
    ensures caller.isAdmin && AllRidesKey !in cache ==>
              o.resp == Envelope(200, RidesFetched, RideList(db.rides))
  {
    if !caller.isAdmin then Reply(db, cache, 403, AccessDenied, Null)
    else match Get(cache, AllRidesKey)
      case Some(v) => Reply(db, cache, 200, RidesFetchedFromCache, v)
      case None => Reply(db, cache, 200, RidesFetched, RideList(db.rides))
  }

  /** `getRide`, as written: an entry under the key `user:<id>` is answered as
      the ride; otherwise the stored ride or a 404. Nothing is written. */
  function GetRide(db: Db, cache: Cache, id: Id): (o: Outcome)
    ensures o.db == db && o.cache == cache
    ensures UserKey(id) in cache ==>
              o.resp == Envelope(200, RideFetchedFromCache, cache[UserKey(id)].value)
    ensures UserKey(id) !in cache ==>
              && (id !in db.rides <==> o.resp == Envelope(404, RideNotFound, Null))
              && (id in db.rides ==> o.resp == Envelope(200, RideFetched, RideDoc(id, db.rides[id])))
  {
    match Get(cache, UserKey(id))
    case Some(v) => Reply(db, cache, 200, RideFetchedFromCache, v)
    case None =>
      match RideService.GetRideById(db.rides, id)
      case None => Reply(db, cache, 404, RideNotFound, Null)
      case Some(r) => Reply(db, cache, 200, RideFetched, RideDoc(id, r))
  }

  /** `getRide` reading the per-ride key `ride:<id>`, the one `updateRide`
      evicts. */
  function GetRideCorrected(db: Db, cache: Cache, id: Id): (o: Outcome)
    ensures o.db == db && o.cache == cache
    ensures RideKey(id) in cache ==>
              o.resp == Envelope(200, RideFetchedFromCache, cache[RideKey(id)].value)
    ensures RideKey(id) !in cache ==>
              && (id !in db.rides <==> o.resp == Envelope(404, RideNotFound, Null))
              && (id in db.rides ==> o.resp == Envelope(200, RideFetched, RideDoc(id, db.rides[id])))
  {
    match Get(cache, RideKey(id))
    case Some(v) => Reply(db, cache, 200, RideFetchedFromCache, v)
    case None =>
      match RideService.GetRideById(db.rides, id)
      case None => Reply(db, cache, 404, RideNotFound, Null)
      case Some(r) => Reply(db, cache, 200, RideFetched, RideDoc(id, r))
  }

  /** Every check `createRide` makes before writing passes. */
  predicate Admitted(db: Db, caller: Caller, input: RideInput) {
    && caller.isRider
    && input.driver.Some? && input.driver.value in db.drivers
    && db.drivers[input.driver.value].isLicenseNumberVerified
  }

  /** `createRide`. Only riders may ask (else a 403); the driver must exist
      (else a 404) and have a verified licence (else a 400), with nothing
      written. Otherwise a ride for the caller, on the driver's vehicle, is
      saved under a fresh id, pending unless a status is given. */
  function CreateRide(db: Db, cache: Cache, caller: Caller, input: RideInput, now: Time): (o: Outcome)
    ensures o.cache == cache
    ensures o.resp.statusCode == 201 <==> Admitted(db, caller, input)
    ensures !Admitted(db, caller, input) ==> o.db == db && o.resp.data == Null
    ensures !caller.isRider ==> o.resp == Envelope(403, NotRider, Null)
    ensures caller.isRider && (input.driver.None? || input.driver.value !in db.drivers) ==>
              o.resp == Envelope(404, DriverNotFound, Null)
    ensures caller.isRider && input.driver.Some? && input.driver.value in db.drivers &&
            !db.drivers[input.driver.value].isLicenseNumberVerified ==>
              o.resp == Envelope(400, LicenseUnverified, Null)
    ensures Admitted(db, caller, input) ==>
              var d := input.driver.value;
              var r := Ride(d, db.drivers[d].vehicle, caller.id, input.origin, input.destination,
                            input.distance, input.estimatedTime, input.price, input.status.GetOr(Pending), now, now);
              && o.db == db.(rides := db.rides[db.next := r], next := db.next + 1)
              && o.resp == Envelope(201, RideCreated, RideDoc(db.next, r))
  {
    if !caller.isRider then Reply(db, cache, 403, NotRider, Null)
    else if input.driver.None? || DriverService.GetDriverById(db.drivers, input.driver.value).None? then
      Reply(db, cache, 404, DriverNotFound, Null)
    else
      var driver := db.drivers[input.driver.value];
      if !driver.isLicenseNumberVerified then Reply(db, cache, 400, LicenseUnverified, Null)
      else
        var r := NewRide(input.driver.value, driver.vehicle, caller.id, input.origin, input.destination,
                         input.distance, input.estimatedTime, input.price, input.status, now);
        NextIsFresh(db);
        var rides := RideService.CreateRide(db.rides, db.next, r);
        Outcome(AddRides(db, rides), cache, Envelope(201, RideCreated, RideDoc(db.next, r)))
  }

  /** A ride created through the resolver is on its driver's vehicle and
      belongs to the caller, who is a rider. */
  lemma CreatedRideConsistent(db: Db, cache: Cache, caller: Caller, input: RideInput, now: Time)
    requires CreateRide(db, cache, caller, input, now).resp.statusCode == 201
    ensures var o := CreateRide(db, cache, caller, input, now);
            var r := o.db.rides[db.next];
            && r.driver in db.drivers && r.vehicle == db.drivers[r.driver].vehicle
            && db.drivers[r.driver].isLicenseNumberVerified
            && r.user == caller.id && caller.isRider
  {
  }

  /** `updateRide`: a 404 for an unknown id; otherwise the patch is merged
      into that ride alone, and the keys `ride:<id>` and `ridersupdate:all`
      are dropped from the cache. */
  function UpdateRide(db: Db, cache: Cache, id: Id, patch: RidePatch): (o: Outcome)
    ensures id !in db.rides ==> o == Reply(db, cache, 404, RideNotFound, Null)
    ensures id in db.rides ==>
              var r := ApplyPatch(db.rides[id], patch);
              && o.db == db.(rides := db.rides[id := r])
              && o.cache == cache - {RideKey(id), RidersUpdateKey}
              && o.resp == Envelope(200, RideUpdated, RideDoc(id, r))
  {
    var w := RideService.UpdateRide(db.rides, id, patch);
    match w.result
    case None => Reply(db, cache, 404, RideNotFound, Null)
    case Some(r) =>
      Outcome(WithRides(db, w.table), Del(Del(cache, RideKey(id)), RidersUpdateKey),
              Envelope(200, RideUpdated, RideDoc(id, r)))
  }

  /** `deleteRide`: a 404 for an unknown id; otherwise that ride alone is
      removed. The cache is not touched. */
  function DeleteRide(db: Db, cache: Cache, id: Id): (o: Outcome)
    ensures o.cache == cache
    ensures id !in db.rides ==> o == Reply(db, cache, 404, RideNotFoundOrDeleted, Null)
    ensures id in db.rides ==>
              && o.db == db.(rides := db.rides - {id})
              && o.resp == Envelope(200, RideDeleted, Success(true))
  {
    var d := RideService.DeleteRide(db.rides, id);
    if !d.removed then Reply(db, cache, 404, RideNotFoundOrDeleted, Null)
    else Outcome(WithRides(db, d.table), cache, Envelope(200, RideDeleted, Success(true)))
  }

  /** Once a ride is deleted, reading it is a 404 unless the read is answered
      from a `user:<id>` entry, and the corrected read is a 404 unless
      `ride:<id>` is cached. */
  lemma DeletedRideNotFound(db: Db, cache: Cache, id: Id)
    ensures var o := DeleteRide(db, cache, id);
            UserKey(id) !in cache ==> GetRide(o.db, o.cache, id).resp == Envelope(404, RideNotFound, Null)
    ensures var o := DeleteRide(db, cache, id);
            RideKey(id) !in cache ==> GetRideCorrected(o.db, o.cache, id).resp == Envelope(404, RideNotFound, Null)
  {
  }
}

=== FILE: ride_service.dfy ===
/** Ride persistence: read, create, patch-update, delete, the unconditional
    status write and the delete-all-of-a-user cascade. */
module RideService {
  import opened Common
  import opened RideModel
  import Store

  /** `getRideById`: the stored ride, or null. */
  function GetRideById(rides: map<Id, Ride>, id: Id): (r: Option<Ride>)
    ensures r.Some? <==> id in rides
    ensures r.Some? ==> r.value == rides[id]
  {
    Store.Lookup(rides, id)
  }

  /** `createRide`: exactly one ride is added, under the fresh id. */
  function CreateRide(rides: map<Id, Ride>, id: Id, r: Ride): (m: map<Id, Ride>)
    requires id !in rides
    ensures m.Keys == rides.Keys + {id} && m[id] == r
    ensures forall k :: k in rides ==> m[k] == rides[k]
  {
    Store.Insert(rides, id, r)
  }

  /** `updateRide`: null and no change for an absent id; otherwise the patch is
      merged into that ride alone. */
  function UpdateRide(rides: map<Id, Ride>, id: Id, patch: RidePatch): (w: Store.Write<Ride>)
    ensures id !in rides ==> w.result.None? && w.table == rides
    ensures id in rides ==> w.result == Some(ApplyPatch(rides[id], patch))
    ensures id in rides ==> w.table == rides[id := ApplyPatch(rides[id], patch)]
  {
    Store.Modify(rides, id, (r: Ride) => ApplyPatch(r, patch))
  }

  /** `deleteRide`: true exactly when the id existed; afterwards it is absent. */
  function DeleteRide(rides: map<Id, Ride>, id: Id): (d: Store.Removal<Ride>)
    ensures d.removed <==> id in rides
    ensures id !in d.table && d.table.Keys == rides.Keys - {id}
    ensures forall k :: k in d.table ==> d.table[k] == rides[k]
  {
    Store.Remove(rides, id)
  }

  /** `updateRideStatus`: sets the status whatever it was before (there is no
      transition check) and changes no other field of any ride; null for an
      absent id. */
  function UpdateRideStatus(rides: map<Id, Ride>, id: Id, s: RideStatus): (w: Store.Write<Ride>)
    ensures id !in rides ==> w.result.None? && w.table == rides
    ensures w.table.Keys == rides.Keys
    ensures id in rides ==> w.result == Some(w.table[id])
    ensures id in rides ==> w.table[id] == rides[id].(status := s)
    ensures forall k :: k in rides && k != id ==> w.table[k] == rides[k]
  {
    Store.Modify(rides, id, (r: Ride) => r.(status := s))
  }

  /** Every status can be written over every status: the service admits any
      transition, back to `pending` from `completed` included. */
  lemma AnyTransitionAdmitted(rides: map<Id, Ride>, id: Id, s: RideStatus)
    requires id in rides
    ensures UpdateRideStatus(rides, id, s).result.Some?
    ensures UpdateRideStatus(rides, id, s).table[id].status == s
  {
  }

  /** `deleteRidesByUserId`: removes exactly the rides of `user`, keeps the
      rest, and is true exactly when at least one was removed. */
  function DeleteRidesByUserId(rides: map<Id, Ride>, user: Id): (d: Store.Removal<Ride>)
    ensures d.removed <==> exists k :: k in rides && rides[k].user == user
    ensures forall k :: k in d.table <==> k in rides && rides[k].user != user
    ensures forall k :: k in d.table ==> d.table[k] == rides[k]
  {
    Store.RemoveWhere(rides, (r: Ride) => r.user == user)
  }
}

=== FILE: store.dfy ===
/** The collection operations every service is built from, over a collection
    held as a map from id to document: read by id, save a new document,
    update-by-id returning the new document or null, delete-by-id reporting
    whether anything was deleted, delete-many by filter, and find-one by filter
    in natural (ascending id) order. */
module Store {
  import opened Common

  /** The collection after an update and the updated document (`None` for null). */
  datatype Write<T> = Write(table: map<Id, T>, result: Option<T>)

  /** The collection after a deletion and whether any document was deleted. */
  datatype Removal<T> = Removal(table: map<Id, T>, removed: bool)

  /** `findById`: the stored document, or null. */
  function Lookup<T>(m: map<Id, T>, id: Id): (r: Option<T>)
    ensures r.Some? <==> id in m
    ensures r.Some? ==> r.value == m[id]
  {
    if id in m then Some(m[id]) else None
  }

  /** `save` of a new document under a freshly issued id: exactly one document is
      added and the others are untouched. */
  function Insert<T>(m: map<Id, T>, id: Id, v: T): (r: map<Id, T>)
    requires id !in m
    ensures r.Keys == m.Keys + {id}
    ensures |r| == |m| + 1
    ensures r[id] == v
    ensures forall k :: k in m ==> r[k] == m[k]
  {
    m[id := v]
  }

  /** `findByIdAndUpdate(id, …, {new: true})` after an existence check: null and
      no change for an absent id; otherwise only that document changes, to `f`
      of itself, and the new document is returned. */
  function Modify<T>(m: map<Id, T>, id: Id, f: T -> T): (w: Write<T>)
    ensures id !in m ==> w.result.None? && w.table == m
    ensures id in m ==> w.result == Some(f(m[id]))
    ensures id in m ==> w.table == m[id := f(m[id])]
    ensures w.table.Keys == m.Keys
  {
    if id in m then Write(m[id := f(m[id])], Some(f(m[id]))) else Write(m, None)
  }

  /** `findByIdAndDelete(id) !== null`: true exactly when the id existed; the id
      is absent afterwards and every other document is kept. */
  function Remove<T>(m: map<Id, T>, id: Id): (d: Removal<T>)
    ensures d.removed <==> id in m
    ensures d.table.Keys == m.Keys - {id}
    ensures forall k :: k in d.table ==> d.table[k] == m[k]
  {
    Removal(m - {id}, id in m)
  }

  /** `deleteMany(filter).deletedCount > 0`: exactly the matching documents go,
      and the result is true exactly when at least one matched. */
  function RemoveWhere<T>(m: map<Id, T>, p: T -> bool): (d: Removal<T>)
    ensures d.removed <==> exists k :: k in m && p(m[k])
    ensures forall k :: k in d.table <==> k in m && !p(m[k])
    ensures forall k :: k in d.table ==> d.table[k] == m[k]
  {
    Removal(map k | k in m && !p(m[k]) :: m[k], exists k | k in m :: p(m[k]))
  }

  /** `findOne(filter)` over ids below `bound`, in ascending order: the least
      matching id, or `None` when no id below the bound matches. */
  function FindFirst<T>(m: map<Id, T>, p: T -> bool, bound: Id): (r: Option<Id>)
    ensures r.Some? ==> r.value in m && p(m[r.value]) && r.value < bound
    ensures r.Some? ==> forall k :: k in m && k < r.value ==> !p(m[k])
    ensures r.None? ==> forall k :: k in m && k < bound ==> !p(m[k])
  {
    FindFrom(m, p, 0, bound)
  }

  /** The search behind `FindFirst`, from id `i` upwards. */
  function FindFrom<T>(m: map<Id, T>, p: T -> bool, i: Id, bound: Id): (r: Option<Id>)
    ensures r.Some? ==> r.value in m && p(m[r.value]) && i <= r.value < bound
    ensures r.Some? ==> forall k :: k in m && i <= k < r.value ==> !p(m[k])
    ensures r.None? ==> forall k :: k in m && i <= k < bound ==> !p(m[k])
    decreases bound - i
  {
    if bound <= i then None
    else if i in m && p(m[i]) then Some(i)
    else FindFrom(m, p, i + 1, bound)
  }
}

=== FILE: text.dfy ===
/** The JavaScript string semantics the validators and the schema setters rely
    on: white space as `String.prototype.trim` and the regular-expression class
    `\s` define it, trimming, lower-casing and `length` in UTF-16 code units. */
module Text {

  /** White space and line terminators in the sense of ECMAScript: exactly the
      characters that `trim` strips and `\s` matches. */
  predicate IsSpace(c: char) {
    || c == ' ' || c == '\t' || c == '\n' || c == '\r'
    || c == '\U{000B}' || c == '\U{000C}' || c == '\U{00A0}' || c == '\U{1680}'
    || ('\U{2000}' <= c <= '\U{200A}')
    || c == '\U{2028}' || c == '\U{2029}' || c == '\U{202F}' || c == '\U{205F}'
    || c == '\U{3000}' || c == '\U{FEFF}'
  }

  /** Every character of `s` is white space (vacuously true of ""). */
  predicate IsBlank(s: string) {
    forall i :: 0 <= i < |s| ==> IsSpace(s[i])
  }

  /** `s` with its leading white space removed. */
  function TrimStart(s: string): (r: string)
    ensures |r| <= |s|
    ensures r == [] || !IsSpace(r[0])
  {
    if s == [] || !IsSpace(s[0]) then s else TrimStart(s[1..])
  }

  /** What `TrimStart` removes is a blank prefix: the result is the rest. */
  lemma {:induction false} TrimStartSplits(s: string)
    ensures var r := TrimStart(s); r == s[|s| - |r|..] && IsBlank(s[..|s| - |r|])
  {
    if s != [] && IsSpace(s[0]) {
      TrimStartSplits(s[1..]);
      var r := TrimStart(s[1..]);
      assert s[1..][..|s| - 1 - |r|] == s[1..|s| - |r|];
    }
  }

  /** `s` with its trailing white space removed. */
  function TrimEnd(s: string): (r: string)
    ensures |r| <= |s|
    ensures r == [] || !IsSpace(r[|r| - 1])
  {
    if s == [] || !IsSpace(s[|s| - 1]) then s else TrimEnd(s[..|s| - 1])
  }

  /** What `TrimEnd` removes is a blank suffix: the result is the rest. */
  lemma {:induction false} TrimEndSplits(s: string)
    ensures var r := TrimEnd(s); r == s[..|r|] && IsBlank(s[|r|..])
  {
    if s != [] && IsSpace(s[|s| - 1]) {
      TrimEndSplits(s[..|s| - 1]);
      var r := TrimEnd(s[..|s| - 1]);
      assert s[..|s| - 1][..|r|] == s[..|r|];
    }
  }

  /** JavaScript's `s.trim()`. */
  function Trim(s: string): (r: string)
    ensures |r| <= |s|
    ensures r == [] || (!IsSpace(r[0]) && !IsSpace(r[|r| - 1]))
  {
    TrimEndSplits(TrimStart(s));
    TrimEnd(TrimStart(s))
  }

  /** Trimming yields the empty string exactly when the string is all white space. */
  lemma {:induction false} TrimEmptyIffBlank(s: string)
    ensures Trim(s) == [] <==> IsBlank(s)
  {
    var t := TrimStart(s);
    TrimStartSplits(s);
    TrimEndSplits(t);
    if Trim(s) == [] {
      assert IsBlank(t[|Trim(s)|..]);
      assert t[|Trim(s)|..] == t;
      assert t == [];
      assert s[..|s| - |t|] == s;
    } else {
      var r := Trim(s);
      assert !IsSpace(r[0]);
      assert r[0] == t[0];
      assert t[0] == s[|s| - |t|];
    }
  }

  /** Trimming is idempotent. */
  lemma {:induction false} TrimIdempotent(s: string)
    ensures Trim(Trim(s)) == Trim(s)
  {
    var r := Trim(s);
    if r != [] {
      assert TrimStart(r) == r;
      assert TrimEnd(r) == r;
    }
  }

  /** The number of UTF-16 code units a character occupies. */
  function CodeUnits(c: char): (n: nat)
    ensures n == 1 || n == 2
  {
    if c as int > 0xFFFF then 2 else 1
  }

  /** JavaScript's `s.length`: characters outside the Basic Multilingual Plane
      count twice, as surrogate pairs. */
  function JsLength(s: string): (n: nat)
    ensures |s| <= n <= 2 * |s|
  {
    if s == [] then 0 else CodeUnits(s[0]) + JsLength(s[1..])
  }

  /** A string of Basic Multilingual Plane characters has the same JavaScript
      length as its number of characters. */
  lemma {:induction false} JsLengthOfBmp(s: string)
    requires forall i :: 0 <= i < |s| ==> s[i] as int <= 0xFFFF
    ensures JsLength(s) == |s|
  {
    if s != [] {
      JsLengthOfBmp(s[1..]);
    }
  }

  predicate IsUpper(c: char) {
    'A' <= c <= 'Z'
  }

  predicate IsLower(c: char) {
    'a' <= c <= 'z'
  }

  function LowerChar(c: char): (d: char)
    ensures IsUpper(c) ==> IsLower(d) && d as int == c as int + 32
    ensures !IsUpper(c) ==> d == c
  {
    if IsUpper(c) then (c as int + 32) as char else c
  }

  /** `s.toLowerCase()` restricted to the ASCII letters. */
  function Lower(s: string): (r: string)
    ensures |r| == |s|
    ensures forall i :: 0 <= i < |s| ==> r[i] == LowerChar(s[i])
    ensures forall i :: 0 <= i < |r| ==> !IsUpper(r[i])
  {
    seq(|s|, i requires 0 <= i < |s| => LowerChar(s[i]))
  }
}

=== FILE: user_model.dfy ===
/** The user document: profile, hashed password, role flags and the link to the
    user's driver record. */
module UserModel {
  import opened Common
  import Text

  datatype User = User(
    name: string,
    email: string,
    password: string,
    phone: string,
    isDriver: bool,
    isAdmin: bool,
    isRider: bool,
    isPhoneVerified: bool,
    driverDetails: Option<Id>,
    createdAt: Time,
    updatedAt: Time)

  /** What a creation carries; omitted flags take the schema defaults, and an
      omitted driver link is left unset. */
  datatype UserFields = UserFields(
    name: string,
    email: string,
    password: string,
    phone: string,
    isDriver: Option<bool>,
    isAdmin: Option<bool>,
    isRider: Option<bool>,
    isPhoneVerified: Option<bool>,
    driverDetails: Option<Id>)

  /** The form the schema stores an e-mail address in: trimmed, then lower-cased. */
  function StoredEmail(e: string): (r: string)
    ensures |r| <= |e|
    ensures forall i :: 0 <= i < |r| ==> !Text.IsUpper(r[i])
  {
    Text.Lower(Text.Trim(e))
  }

  /** A saved user: name, e-mail and phone pass through their setters, omitted
      flags default to rider and to not admin, not driver, phone unverified,
      and the driver link is stored as given. */
  function NewUser(f: UserFields, now: Time): (u: User)
    ensures u.name == Text.Trim(f.name) && u.phone == Text.Trim(f.phone)
    ensures u.email == StoredEmail(f.email) && u.password == f.password
    ensures u.isRider == f.isRider.GetOr(true)
    ensures u.isAdmin == f.isAdmin.GetOr(false)
    ensures u.isDriver == f.isDriver.GetOr(false)
    ensures u.isPhoneVerified == f.isPhoneVerified.GetOr(false)
    ensures u.driverDetails == f.driverDetails
    ensures u.createdAt == now && u.updatedAt == now
  {
    User(Text.Trim(f.name), StoredEmail(f.email), f.password, Text.Trim(f.phone),
         f.isDriver.GetOr(false), f.isAdmin.GetOr(false), f.isRider.GetOr(true),
         f.isPhoneVerified.GetOr(false), f.driverDetails, now, now)
  }

  /** The schema defaults of a user with no flags given. */
  lemma NewUserDefaults(name: string, email: string, password: string, phone: string, now: Time)
    ensures var u := NewUser(UserFields(name, email, password, phone, None, None, None, None, None), now);
            u.isRider && !u.isAdmin && !u.isDriver && !u.isPhoneVerified
  {
  }

  /** The fields a profile update may carry. */
  datatype UserPatch = UserPatch(
    name: Option<string>,
    email: Option<string>,
    phone: Option<string>,
    driverDetails: Option<Id>)

  /** `findByIdAndUpdate` semantics: every field the patch carries overwrites
      through its setter, every other field (password, flags, times) is kept. */
  function ApplyPatch(u: User, p: UserPatch): (q: User)
    ensures q.password == u.password
    ensures q.isDriver == u.isDriver && q.isAdmin == u.isAdmin && q.isRider == u.isRider
    ensures q.isPhoneVerified == u.isPhoneVerified
    ensures q.createdAt == u.createdAt && q.updatedAt == u.updatedAt
    ensures p.email.Some? ==> q.email == StoredEmail(p.email.value)
    ensures p.email.None? ==> q.email == u.email
    ensures p.name.Some? ==> q.name == Text.Trim(p.name.value)
    ensures p.name.None? ==> q.name == u.name
    ensures p.phone.Some? ==> q.phone == Text.Trim(p.phone.value)
    ensures p.phone.None? ==> q.phone == u.phone
    ensures p.driverDetails.Some? ==> q.driverDetails == p.driverDetails
    ensures p.driverDetails.None? ==> q.driverDetails == u.driverDetails
  {
    var name := if p.name.Some? then Text.Trim(p.name.value) else u.name;
    var email := if p.email.Some? then StoredEmail(p.email.value) else u.email;
    var phone := if p.phone.Some? then Text.Trim(p.phone.value) else u.phone;
    User(name, email, u.password, phone, u.isDriver, u.isAdmin, u.isRider, u.isPhoneVerified,
         p.driverDetails.Or(u.driverDetails), u.createdAt, u.updatedAt)
  }

  lemma EmptyPatchKeeps(u: User)
    ensures ApplyPatch(u, UserPatch(None, None, None, None)) == u
  {
  }
}

=== FILE: user_resolver.dfy ===
/** The user resolvers: the admin listing and the caller's own profile (both
    served from the cache when an entry exists and cached otherwise), create,
    the caller's profile update and the caller's account deletion with its
    cascade. */
module UserResolver {
  import opened Common
  import opened UserModel
  import opened Database
  import opened Caching
  import opened Response
  import opened Outcomes
  import UserService
  import VehicleService
  import RideService
  import DriverService

  /** `getAllUsers`: admins get the cached list when `users:all` holds one;
      otherwise the stored users, which are then cached under `users:all`.
      Others get a 403. */
  function GetAllUsers(db: Db, cache: Cache, caller: Caller): (o: Outcome)
    ensures o.db == db
    ensures o.resp.statusCode == 200 <==> caller.isAdmin
    ensures !caller.isAdmin ==> o.cache == cache && o.resp == Envelope(403, AccessDenied, Null)
    ensures caller.isAdmin && AllUsersKey in cache ==>
              && o.cache == cache
              && o.resp == Envelope(200, UsersFetchedFromCache, cache[AllUsersKey].value)
    ensures caller.isAdmin && AllUsersKey !in cache ==>
              && o.cache == cache[AllUsersKey := Entry(UserList(db.users), Ttl)]
              && o.resp == Envelope(200, UsersFetched, UserList(db.users))
  {
    if !caller.isAdmin then Reply(db, cache, 403, AccessDenied, Null)
    else match Get(cache, AllUsersKey)
      case Some(v) => Reply(db, cache, 200, UsersFetchedFromCache, v)
      case None =>
        Outcome(db, Set(cache, AllUsersKey, UserList(db.users)), Envelope(200, UsersFetched, UserList(db.users)))
  }

  /** `getUser`: the caller's own document, from `user:<id>` when cached;
      otherwise the stored user, which is then cached, or a 404 with nothing
      cached. */
  function GetUser(db: Db, cache: Cache, caller: Caller): (o: Outcome)
    ensures o.db == db
    ensures UserKey(caller.id) in cache ==>
              && o.cache == cache
              && o.resp == Envelope(200, UserFetchedFromCache, cache[UserKey(caller.id)].value)
    ensures UserKey(caller.id) !in cache && caller.id !in db.users ==>
              o.cache == cache && o.resp == Envelope(404, UserNotFound, Null)
    ensures UserKey(caller.id) !in cache && caller.id in db.users ==>
              var doc := UserDoc(caller.id, db.users[caller.id]);
              && o.cache == cache[UserKey(caller.id) := Entry(doc, Ttl)]
              && o.resp == Envelope(200, UserFetched, doc)
  {
    var key := UserKey(caller.id);
    match Get(cache, key)
    case Some(v) => Reply(db, cache, 200, UserFetchedFromCache, v)
    case None =>
      match UserService.GetUserById(db.users, caller.id)
      case None => Reply(db, cache, 404, UserNotFound, Null)
      case Some(u) => Outcome(db, Set(cache, key, UserDoc(caller.id, u)), Envelope(200, UserFetched, UserDoc(caller.id, u)))
  }

  /** The `createUser` input: the four required profile fields, and an
      optional driver flag and driver link. It carries no admin, rider or
      phone-verified flag. */
  datatype CreateUserInput = CreateUserInput(
    name: string,
    email: string,
    password: string,
    phone: string,
    isDriver: Option<bool>,
    driverDetails: Option<Id>)

  /** What `new User(input)` receives from a `createUser` input: the given
      fields, with the flags the input cannot carry left to their defaults. */
  function FieldsOf(input: CreateUserInput): (f: UserFields)
    ensures f.name == input.name && f.email == input.email
    ensures f.password == input.password && f.phone == input.phone
    ensures f.isDriver == input.isDriver && f.driverDetails == input.driverDetails
    ensures f.isAdmin.None? && f.isRider.None? && f.isPhoneVerified.None?
  {
    UserFields(input.name, input.email, input.password, input.phone, input.isDriver, None, None, None,
               input.driverDetails)
  }

  /** `createUser`: no role check, and the password is stored as given. The
      save refuses (a 500, nothing written) a missing name, e-mail or phone, a
      password shorter than 8, or an e-mail or phone another user has;
      otherwise the user is saved under a fresh id. The cache is untouched. */
  function CreateUser(db: Db, cache: Cache, input: CreateUserInput, now: Time): (o: Outcome)
    ensures o.cache == cache
    ensures o.resp.statusCode == 201 <==> UserSaveable(db.users, db.next, NewUser(FieldsOf(input), now))
    ensures o.resp.statusCode != 201 ==> o.db == db && o.resp == Envelope(500, UserCreateFailed, Fault)
    ensures o.resp.statusCode == 201 ==>
              && o.db == db.(users := db.users[db.next := NewUser(FieldsOf(input), now)], next := db.next + 1)
              && o.resp == Envelope(201, UserCreated, UserDoc(db.next, NewUser(FieldsOf(input), now)))
    ensures o.resp.statusCode == 201 ==>
              && db.next in o.db.users
              && var u := o.db.users[db.next];
                 && u.driverDetails == input.driverDetails
                 && u.isDriver == input.isDriver.GetOr(false)
                 && u.isRider && !u.isAdmin && !u.isPhoneVerified
  {
    var u := NewUser(FieldsOf(input), now);
    if !UserSaveable(db.users, db.next, u) then Reply(db, cache, 500, UserCreateFailed, Fault)
    else
      NextIsFresh(db);
      var users := UserService.CreateUser(db.users, db.next, u);
      Outcome(AddUsers(db, users), cache, Envelope(201, UserCreated, UserDoc(db.next, u)))
  }

  /** The profile update shared by the resolver as written and the corrected
      one: a 404 when the caller's user does not exist, a 500 when the new
      e-mail or phone is another user's (nothing written on either); otherwise
      the patch merged into the caller's user, with `evict` removed from the
      cache. */
  function UpdateWith(db: Db, cache: Cache, caller: Caller, patch: UserPatch, evict: set<string>): (o: Outcome)
    ensures caller.id !in db.users ==> o == Reply(db, cache, 404, UserNotFound, Null)
    ensures caller.id in db.users ==>
              var u := ApplyPatch(db.users[caller.id], patch);
              && (!UserUnique(db.users, caller.id, u) ==> o == Reply(db, cache, 500, UserUpdateFailed, Fault))
              && (UserUnique(db.users, caller.id, u) ==>
                    && o.db == db.(users := db.users[caller.id := u])
                    && o.cache == cache - evict
                    && o.resp == Envelope(200, UserUpdated, UserDoc(caller.id, u)))
  {
    var id := caller.id;
    if UserService.GetUserById(db.users, id).None? then Reply(db, cache, 404, UserNotFound, Null)
    else if !UserUnique(db.users, id, ApplyPatch(db.users[id], patch)) then
      Reply(db, cache, 500, UserUpdateFailed, Fault)
    else
      var w := UserService.UpdateUser(db.users, id, patch);
      Outcome(WithUsers(db, w.table), cache - evict, Envelope(200, UserUpdated, UserDoc(id, w.result.value)))
  }

  /** `updateUser` as written: after a successful update it deletes
      `user:<id>` and `usersupdate:all`, a key nothing reads, so `users:all`
      keeps the list from before the update. */
  function UpdateUser(db: Db, cache: Cache, caller: Caller, patch: UserPatch): (o: Outcome)
    ensures o == UpdateWith(db, cache, caller, patch, {UserKey(caller.id), UsersUpdateKey})
    ensures o.resp.statusCode == 200 ==> AllUsersKey in cache ==> AllUsersKey in o.cache
  {
    KeysDistinct(caller.id, caller.id);
    UpdateWith(db, cache, caller, patch, {UserKey(caller.id), UsersUpdateKey})
  }

  /** `updateUser` deleting the list key it evidently means, `users:all`,
      alongside `user:<id>`. */
  function UpdateUserCorrected(db: Db, cache: Cache, caller: Caller, patch: UserPatch): (o: Outcome)
    ensures o == UpdateWith(db, cache, caller, patch, {UserKey(caller.id), AllUsersKey})
    ensures o.resp.statusCode == 200 ==> AllUsersKey !in o.cache && UserKey(caller.id) !in o.cache
  {
    UpdateWith(db, cache, caller, patch, {UserKey(caller.id), AllUsersKey})
  }

  /** The writes of an account deletion: the user is removed, then in order
      the vehicle found through the user's driver licence number together with
      that driver, every ride the user requested, and every remaining driver
      record of the user. Bookings, payments and the other users are kept. */
  function Purge(db: Db, id: Id): (w: Db)
    ensures var c := VehicleService.DeleteVehicleByUserId(db.vehicles, db.drivers, id, db.next);
            && w.users == db.users - {id}
            && w.vehicles == c.vehicles
            && (forall k :: k in w.rides <==> k in db.rides && db.rides[k].user != id)
            && (forall k :: k in w.rides ==> w.rides[k] == db.rides[k])
            && (forall k :: k in w.drivers <==> k in c.drivers && c.drivers[k].user != id)
            && (forall k :: k in w.drivers ==> w.drivers[k] == db.drivers[k])
            && w.bookings == db.bookings && w.payments == db.payments && w.next == db.next
  {
    var users := UserService.DeleteUser(db.users, id).table;
    var c := VehicleService.DeleteVehicleByUserId(db.vehicles, db.drivers, id, db.next);
    var rides := RideService.DeleteRidesByUserId(db.rides, id).table;
    var drivers := DriverService.DeleteDriverByUserId(c.drivers, id).table;
    assert forall k :: k in drivers ==> k in db.drivers;
    WithDrivers(WithRides(WithVehicles(WithUsers(db, users), c.vehicles), rides), drivers)
  }

  /** `deleteUser`: a 404 when the caller's user does not exist; otherwise the
      account and what hangs on it are removed, and the keys `user:<id>` and
      `users:all` are dropped from the cache. */
  function DeleteUser(db: Db, cache: Cache, caller: Caller): (o: Outcome)
    ensures caller.id !in db.users ==> o == Reply(db, cache, 404, UserNotFoundOrDeleted, Null)
    ensures caller.id in db.users ==>
              && o.db == Purge(db, caller.id)
              && o.cache == cache - {UserKey(caller.id), AllUsersKey}
              && o.resp == Envelope(200, UserDeleted, Deletion(true))
  {
    var id := caller.id;
    if UserService.GetUserById(db.users, id).None? then Reply(db, cache, 404, UserNotFoundOrDeleted, Null)
    else Outcome(Purge(db, id), Del(Del(cache, UserKey(id)), AllUsersKey), Envelope(200, UserDeleted, Deletion(true)))
  }

  /** After an account deletion the user owns no ride and no driver record. */
  lemma DeletedUserLeavesNothing(db: Db, cache: Cache, caller: Caller)
    requires caller.id in db.users
    ensures var o := DeleteUser(db, cache, caller);
            && caller.id !in o.db.users
            && (forall k :: k in o.db.rides ==> o.db.rides[k].user != caller.id)
            && (forall k :: k in o.db.drivers ==> o.db.drivers[k].user != caller.id)
  {
    var o := DeleteUser(db, cache, caller);
    var c := VehicleService.DeleteVehicleByUserId(db.vehicles, db.drivers, caller.id, db.next);
    assert o.db == Purge(db, caller.id);
    forall k | k in o.db.drivers
      ensures o.db.drivers[k].user != caller.id
    {
      assert k in c.drivers && c.drivers[k].user != caller.id;
    }
  }

  /** `createUser` keeps the unique indexes: it saves only what they admit. */
  lemma CreateUserKeepsIndexes(db: Db, cache: Cache, input: CreateUserInput, now: Time)
    requires IndexesHold(db)
    ensures IndexesHold(CreateUser(db, cache, input, now).db)
  {
    var u := NewUser(FieldsOf(input), now);
    if UserSaveable(db.users, db.next, u) {
      UserWriteKeepsIndexes(db, db.next, u);
    }
  }

  /** A profile update, as written or corrected, keeps the unique indexes:
      it writes only a patched user they admit. */
  lemma UpdateKeepsIndexes(db: Db, cache: Cache, caller: Caller, patch: UserPatch, evict: set<string>)
    requires IndexesHold(db)
    ensures IndexesHold(UpdateWith(db, cache, caller, patch, evict).db)
  {
    if caller.id in db.users && UserUnique(db.users, caller.id, ApplyPatch(db.users[caller.id], patch)) {
      UserWriteKeepsIndexes(db, caller.id, ApplyPatch(db.users[caller.id], patch));
    }
  }
}

=== FILE: user_service.dfy ===
/** User persistence: read, create, patch-update and delete. */
module UserService {
  import opened Common
  import opened UserModel
  import Store

  /** `getUserById`: the stored user, or null. */
  function GetUserById(users: map<Id, User>, id: Id): (r: Option<User>)
    ensures r.Some? <==> id in users
    ensures r.Some? ==> r.value == users[id]
  {
    Store.Lookup(users, id)
  }

  /** `createUser`: exactly one user is added, under the fresh id. */
  function CreateUser(users: map<Id, User>, id: Id, u: User): (m: map<Id, User>)
    requires id !in users
    ensures m.Keys == users.Keys + {id} && m[id] == u
    ensures |m| == |users| + 1
    ensures forall k :: k in users ==> m[k] == users[k]
  {
    Store.Insert(users, id, u)
  }

  /** `updateUser`: null and no change for an absent id; otherwise the patch is
      merged into that user alone. */
  function UpdateUser(users: map<Id, User>, id: Id, patch: UserPatch): (w: Store.Write<User>)
    ensures id !in users ==> w.result.None? && w.table == users
    ensures id in users ==> w.result == Some(ApplyPatch(users[id], patch))
    ensures id in users ==> w.table == users[id := ApplyPatch(users[id], patch)]
  {
    Store.Modify(users, id, (u: User) => ApplyPatch(u, patch))
  }

  /** `deleteUser`: true exactly when the id existed; afterwards it is absent. */
  function DeleteUser(users: map<Id, User>, id: Id): (d: Store.Removal<User>)
    ensures d.removed <==> id in users
    ensures id !in d.table && d.table.Keys == users.Keys - {id}
    ensures forall k :: k in d.table ==> d.table[k] == users[k]
  {
    Store.Remove(users, id)
  }
}

=== FILE: vehicle_model.dfy ===
/** The vehicle document: licence number, vehicle type and optional details. */
module VehicleModel {
  import opened Common
  import Text

  /** The values the schema's `vehicleType` enum admits. */
  datatype VehicleType = Cab | Auto | Bike

  /** The schema's `min: 1` on capacity, checked when a vehicle is created. */
  type Capacity = c: int | 1 <= c witness 1

  /** A stored vehicle. Its capacity is a plain integer: an update writes
      whatever number it is given. */
  datatype Vehicle = Vehicle(
    licenseNumber: string,
    vehicleType: VehicleType,
    make: Option<string>,
    cmodel: Option<string>,
    color: Option<string>,
    year: Option<int>,
    capacity: Option<int>,
    isAvailable: Option<bool>,
    createdAt: Time,
    updatedAt: Time)

  /** What a creation carries: the licence number and type are required, the
      rest is optional. */
  datatype VehicleFields = VehicleFields(
    licenseNumber: string,
    vehicleType: VehicleType,
    make: Option<string>,
    cmodel: Option<string>,
    color: Option<string>,
    year: Option<int>,
    capacity: Option<Capacity>,
    isAvailable: Option<bool>)

  /** A saved vehicle: the licence number is trimmed by its schema setter and the
      save hook stamps both times with `now`. */
  function NewVehicle(f: VehicleFields, now: Time): (v: Vehicle)
    ensures v.licenseNumber == Text.Trim(f.licenseNumber)
    ensures v.vehicleType == f.vehicleType && v.capacity == f.capacity
    ensures v.capacity.Some? ==> v.capacity.value >= 1
    ensures v.createdAt == now && v.updatedAt == now
  {
    Vehicle(Text.Trim(f.licenseNumber), f.vehicleType, f.make, f.cmodel, f.color, f.year,
            f.capacity, f.isAvailable, now, now)
  }

  /** The fields an update may carry (the type cannot be changed). */
  datatype VehiclePatch = VehiclePatch(
    licenseNumber: Option<string>,
    make: Option<string>,
    cmodel: Option<string>,
    color: Option<string>,
    year: Option<int>,
    capacity: Option<int>,
    isAvailable: Option<bool>)

  /** `findByIdAndUpdate` semantics: every field the patch carries overwrites
      (a licence number through its trimming setter), every other field is kept. */
  function ApplyPatch(v: Vehicle, p: VehiclePatch): (q: Vehicle)
    ensures q.vehicleType == v.vehicleType
    ensures q.createdAt == v.createdAt && q.updatedAt == v.updatedAt
    ensures p.licenseNumber.Some? ==> q.licenseNumber == Text.Trim(p.licenseNumber.value)
    ensures p.licenseNumber.None? ==> q.licenseNumber == v.licenseNumber
    ensures p.make.Some? ==> q.make == p.make
    ensures p.make.None? ==> q.make == v.make
    ensures p.cmodel.Some? ==> q.cmodel == p.cmodel
    ensures p.cmodel.None? ==> q.cmodel == v.cmodel
    ensures p.color.Some? ==> q.color == p.color
    ensures p.color.None? ==> q.color == v.color
    ensures p.year.Some? ==> q.year == p.year
    ensures p.year.None? ==> q.year == v.year
    ensures p.capacity.Some? ==> q.capacity == p.capacity
    ensures p.capacity.None? ==> q.capacity == v.capacity
    ensures p.isAvailable.Some? ==> q.isAvailable == p.isAvailable
    ensures p.isAvailable.None? ==> q.isAvailable == v.isAvailable
  {
    var licenseNumber := if p.licenseNumber.Some? then Text.Trim(p.licenseNumber.value) else v.licenseNumber;
    Vehicle(licenseNumber, v.vehicleType,
            p.make.Or(v.make),
            p.cmodel.Or(v.cmodel),
            p.color.Or(v.color),
            p.year.Or(v.year),
            p.capacity.Or(v.capacity),
            p.isAvailable.Or(v.isAvailable),
            v.createdAt, v.updatedAt)
  }

  lemma {:induction false} PatchIdempotent(v: Vehicle, p: VehiclePatch)
    ensures ApplyPatch(ApplyPatch(v, p), p) == ApplyPatch(v, p)
  {
    if p.licenseNumber.Some? {
      Text.TrimIdempotent(p.licenseNumber.value);
    }
  }

  lemma EmptyPatchKeeps(v: Vehicle)
    ensures ApplyPatch(v, VehiclePatch(None, None, None, None, None, None, None)) == v
  {
  }

  /** A patch stores any capacity as given, one below the schema's minimum
      included: the bound holds for new vehicles only. */
  lemma PatchCanLeaveCapacityRange(v: Vehicle)
    ensures ApplyPatch(v, VehiclePatch(None, None, None, None, None, Some(0), None)).capacity == Some(0)
  {
  }
}

=== FILE: vehicle_resolver.dfy ===
/** The vehicle resolvers: the admin listing, read by id, create, update (which
    compares a new licence number with the linked driver's) and delete. None of
    them touches the cache. */
module VehicleResolver {
  import opened Common
  import opened VehicleModel
  import DriverModel
  import Text
  import opened Database
  import opened Caching
  import opened Response
  import opened Outcomes
  import VehicleService
  import DriverService

  /** `getAllVehicles`: admins get every vehicle, others a 403. */
  function GetAllVehicles(db: Db, cache: Cache, caller: Caller): (o: Outcome)
    ensures o.db == db && o.cache == cache
    ensures o.resp.statusCode == 200 <==> caller.isAdmin
    ensures !caller.isAdmin ==> o.resp == Envelope(403, AccessDenied, Null)
    ensures caller.isAdmin ==> o.resp == Envelope(200, VehiclesFetched, VehicleList(db.vehicles))
  {
    if !caller.isAdmin then Reply(db, cache, 403, AccessDenied, Null)
    else Reply(db, cache, 200, VehiclesFetched, VehicleList(db.vehicles))
  }

  /** `getVehicle`: the stored vehicle, or a 404. */
  function GetVehicle(db: Db, cache: Cache, id: Id): (o: Outcome)
    ensures o.db == db && o.cache == cache
    ensures id !in db.vehicles <==> o.resp == Envelope(404, VehicleNotFound, Null)
    ensures id in db.vehicles ==> o.resp == Envelope(200, VehicleFetched, VehicleDoc(id, db.vehicles[id]))
  {
    match VehicleService.GetVehicleById(db.vehicles, id)
    case None => Reply(db, cache, 404, VehicleNotFound, Null)
    case Some(v) => Reply(db, cache, 200, VehicleFetched, VehicleDoc(id, v))
  }

  /** `createVehicle`: no role check. The save refuses (a 500, nothing written)
      an empty licence number or one another vehicle already has; otherwise the
      vehicle is saved under a fresh id. */
  function CreateVehicle(db: Db, cache: Cache, f: VehicleFields, now: Time): (o: Outcome)
    ensures o.cache == cache
    ensures o.resp.statusCode == 201 <==> VehicleSaveable(db.vehicles, db.next, NewVehicle(f, now))
    ensures o.resp.statusCode != 201 ==> o.db == db && o.resp == Envelope(500, VehicleCreateFailed, Fault)
    ensures o.resp.statusCode == 201 ==>
              && o.db == db.(vehicles := db.vehicles[db.next := NewVehicle(f, now)], next := db.next + 1)
              && o.resp == Envelope(201, VehicleCreated, VehicleDoc(db.next, NewVehicle(f, now)))
  {
    var v := NewVehicle(f, now);
    if !VehicleSaveable(db.vehicles, db.next, v) then Reply(db, cache, 500, VehicleCreateFailed, Fault)
    else
      NextIsFresh(db);
      var vehicles := VehicleService.CreateVehicle(db.vehicles, db.next, v);
      Outcome(AddVehicles(db, vehicles), cache, Envelope(201, VehicleCreated, VehicleDoc(db.next, v)))
  }

  /** The check `updateVehicle` makes when the patch carries a non-empty licence
      number: the first driver (in natural order) whose vehicle is this one
      must hold exactly that licence number, as given and untrimmed. */
  predicate LicenseConflict(db: Db, id: Id, patch: VehiclePatch) {
    && patch.licenseNumber.Some? && patch.licenseNumber.value != []
    && var driver := DriverService.GetDriverByVehicleId(db.drivers, id, db.next);
       driver.Some? && db.drivers[driver.value].licenseNumber != patch.licenseNumber.value
  }

  /** `updateVehicle`. In order: an unknown id is a 404; a licence number that
      differs from the linked driver's is a 400; a licence number another
      vehicle holds is refused by the unique index (a 500). Nothing is written
      on any of these. Otherwise the patch is merged into that vehicle alone. */
  function UpdateVehicle(db: Db, cache: Cache, id: Id, patch: VehiclePatch): (o: Outcome)
    ensures o.cache == cache
    ensures o.resp.statusCode != 200 ==> o.db == db && o.resp.statusCode in {400, 404, 500}
    ensures id !in db.vehicles ==> o.resp == Envelope(404, VehicleNotFound, Null)
    ensures id in db.vehicles && LicenseConflict(db, id, patch) ==>
              o.resp == Envelope(400, VehicleLicenseMismatch, Null)
    ensures id in db.vehicles && !LicenseConflict(db, id, patch) ==>
              var v := ApplyPatch(db.vehicles[id], patch);
              && (!VehicleUnique(db.vehicles, id, v) ==> o.resp == Envelope(500, VehicleUpdateFailed, Fault))
              && (VehicleUnique(db.vehicles, id, v) ==>
                    && o.db == db.(vehicles := db.vehicles[id := v])
                    && o.resp == Envelope(200, VehicleUpdated, VehicleDoc(id, v)))
  {
    if VehicleService.GetVehicleById(db.vehicles, id).None? then Reply(db, cache, 404, VehicleNotFound, Null)
    else if LicenseConflict(db, id, patch) then Reply(db, cache, 400, VehicleLicenseMismatch, Null)
    else if !VehicleUnique(db.vehicles, id, ApplyPatch(db.vehicles[id], patch)) then
      Reply(db, cache, 500, VehicleUpdateFailed, Fault)
    else
      var w := VehicleService.UpdateVehicle(db.vehicles, id, patch);
      Outcome(WithVehicles(db, w.table), cache, Envelope(200, VehicleUpdated, VehicleDoc(id, w.result.value)))
  }

  /** The licence check compares the raw input with the driver's stored, trimmed
      licence number: a request that pads the driver's own licence number with a
      space is refused, although the value it would store is the driver's. */
  lemma PaddedLicenseRefused(db: Db, cache: Cache, id: Id, patch: VehiclePatch)
    requires id in db.vehicles
    requires DriverService.GetDriverByVehicleId(db.drivers, id, db.next).Some?
    requires var license := db.drivers[DriverService.GetDriverByVehicleId(db.drivers, id, db.next).value].licenseNumber;
             && license != [] && !Text.IsSpace(license[0]) && !Text.IsSpace(license[|license| - 1])
             && patch.licenseNumber == Some([' '] + license)
    ensures var license := db.drivers[DriverService.GetDriverByVehicleId(db.drivers, id, db.next).value].licenseNumber;
            && Text.Trim(patch.licenseNumber.value) == license
            && UpdateVehicle(db, cache, id, patch).resp == Envelope(400, VehicleLicenseMismatch, Null)
  {
    var license := db.drivers[DriverService.GetDriverByVehicleId(db.drivers, id, db.next).value].licenseNumber;
    var padded := [' '] + license;
    assert padded[1..] == license;
    assert Text.TrimStart(padded) == license;
    assert padded != license by {
      assert padded[0] == ' ';
    }
  }

  /** `deleteVehicle`: a 404 for an unknown id; otherwise that vehicle alone is
      removed, and drivers that reference it keep the reference. */
  function DeleteVehicle(db: Db, cache: Cache, id: Id): (o: Outcome)
    ensures o.cache == cache
    ensures id !in db.vehicles ==> o == Reply(db, cache, 404, VehicleNotFoundOrDeleted, Null)
    ensures id in db.vehicles ==>
              && o.db == db.(vehicles := db.vehicles - {id})
              && o.resp == Envelope(200, VehicleDeleted, Success(true))
  {
    var d := VehicleService.DeleteVehicle(db.vehicles, id);
    if !d.removed then Reply(db, cache, 404, VehicleNotFoundOrDeleted, Null)
    else Outcome(WithVehicles(db, d.table), cache, Envelope(200, VehicleDeleted, Success(true)))
  }

  /** `createVehicle` keeps the unique indexes: it saves only what they admit. */
  lemma CreateVehicleKeepsIndexes(db: Db, cache: Cache, f: VehicleFields, now: Time)
    requires IndexesHold(db)
    ensures IndexesHold(CreateVehicle(db, cache, f, now).db)
  {
    if VehicleSaveable(db.vehicles, db.next, NewVehicle(f, now)) {
      VehicleWriteKeepsIndexes(db, db.next, NewVehicle(f, now));
    }
  }

  /** `updateVehicle` keeps the unique indexes: it writes only a patched
      vehicle they admit. */
  lemma UpdateVehicleKeepsIndexes(db: Db, cache: Cache, id: Id, patch: VehiclePatch)
    requires IndexesHold(db)
    ensures IndexesHold(UpdateVehicle(db, cache, id, patch).db)
  {
    if id in db.vehicles && !LicenseConflict(db, id, patch)
       && VehicleUnique(db.vehicles, id, ApplyPatch(db.vehicles[id], patch)) {
      VehicleWriteKeepsIndexes(db, id, ApplyPatch(db.vehicles[id], patch));
    }
  }

  /** Once a vehicle is deleted, reading it is a 404. */
  lemma DeletedVehicleNotFound(db: Db, cache: Cache, id: Id)
    ensures var o := DeleteVehicle(db, cache, id);
            GetVehicle(o.db, o.cache, id).resp == Envelope(404, VehicleNotFound, Null)
  {
  }
}

=== FILE: vehicle_service.dfy ===
/** Vehicle persistence: read, create, patch-update, delete, and the cascade
    that removes a user's vehicle and driver records. */
module VehicleService {
  import opened Common
  import opened VehicleModel
  import DriverModel
  import Store

  /** `getVehicleById`: the stored vehicle, or null. */
  function GetVehicleById(vehicles: map<Id, Vehicle>, id: Id): (r: Option<Vehicle>)
    ensures r.Some? <==> id in vehicles
    ensures r.Some? ==> r.value == vehicles[id]
  {
    Store.Lookup(vehicles, id)
  }

  /** `createVehicle`: exactly one vehicle is added, under the fresh id. */
  function CreateVehicle(vehicles: map<Id, Vehicle>, id: Id, v: Vehicle): (m: map<Id, Vehicle>)
    requires id !in vehicles
    ensures m.Keys == vehicles.Keys + {id} && m[id] == v
    ensures forall k :: k in vehicles ==> m[k] == vehicles[k]
  {
    Store.Insert(vehicles, id, v)
  }

  /** `updateVehicle`: null and no change for an absent id; otherwise the patch
      is merged into that vehicle alone. */
  function UpdateVehicle(vehicles: map<Id, Vehicle>, id: Id, patch: VehiclePatch): (w: Store.Write<Vehicle>)
    ensures id !in vehicles ==> w.result.None? && w.table == vehicles
    ensures id in vehicles ==> w.result == Some(ApplyPatch(vehicles[id], patch))
    ensures id in vehicles ==> w.table == vehicles[id := ApplyPatch(vehicles[id], patch)]
  {
    Store.Modify(vehicles, id, (v: Vehicle) => ApplyPatch(v, patch))
  }

  /** `deleteVehicle`: true exactly when the id existed; afterwards it is absent. */
  function DeleteVehicle(vehicles: map<Id, Vehicle>, id: Id): (d: Store.Removal<Vehicle>)
    ensures d.removed <==> id in vehicles
    ensures id !in d.table && d.table.Keys == vehicles.Keys - {id}
    ensures forall k :: k in d.table ==> d.table[k] == vehicles[k]
  {
    Store.Remove(vehicles, id)
  }

  /** The two collections after the cascade and the boolean it returns. */
  datatype Cascade = Cascade(
    vehicles: map<Id, Vehicle>,
    drivers: map<Id, DriverModel.Driver>,
    deleted: bool)

  /** `Driver.findOne({user})`: the user's first driver in natural order. */
  function DriverOfUser(drivers: map<Id, DriverModel.Driver>, user: Id, bound: Id): (r: Option<Id>)
    requires forall k :: k in drivers ==> k < bound
    ensures r.Some? ==> r.value in drivers && drivers[r.value].user == user
    ensures r.Some? ==> forall k :: k in drivers && drivers[k].user == user ==> r.value <= k
    ensures r.None? <==> forall k :: k in drivers ==> drivers[k].user != user
  {
    Store.FindFirst(drivers, (d: DriverModel.Driver) => d.user == user, bound)
  }

  /** `Vehicle.deleteOne({licenseNumber})`'s target: the first vehicle carrying
      the licence number. */
  function VehicleWithLicense(vehicles: map<Id, Vehicle>, license: string, bound: Id): (r: Option<Id>)
    requires forall k :: k in vehicles ==> k < bound
    ensures r.Some? ==> r.value in vehicles && vehicles[r.value].licenseNumber == license
    ensures r.Some? ==> forall k :: k in vehicles && vehicles[k].licenseNumber == license ==> r.value <= k
    ensures r.None? <==> forall k :: k in vehicles ==> vehicles[k].licenseNumber != license
  {
    Store.FindFirst(vehicles, (v: Vehicle) => v.licenseNumber == license, bound)
  }

  /** `deleteVehicleByUserId`. The vehicle is found through the driver's licence
      number, not through the driver's vehicle reference:
      - a user without a driver: false, nothing deleted;
      - no vehicle with the driver's licence number: false, the driver is kept;
      - otherwise that vehicle and then the user's driver (the same one
        `findOne` found, nothing having changed in between) are deleted: true. */
  function DeleteVehicleByUserId(vehicles: map<Id, Vehicle>, drivers: map<Id, DriverModel.Driver>,
                                 user: Id, bound: Id): (c: Cascade)
    requires forall k :: k in vehicles ==> k < bound
    requires forall k :: k in drivers ==> k < bound
    ensures DriverOfUser(drivers, user, bound).None? ==> c == Cascade(vehicles, drivers, false)
    ensures DriverOfUser(drivers, user, bound).Some? ==>
              var d := DriverOfUser(drivers, user, bound).value;
              var license := drivers[d].licenseNumber;
              && ((forall k :: k in vehicles ==> vehicles[k].licenseNumber != license) ==>
                    c == Cascade(vehicles, drivers, false))
              && ((exists k :: k in vehicles && vehicles[k].licenseNumber == license) ==>
                    && c.deleted
                    && c.drivers == drivers - {d}
                    && VehicleWithLicense(vehicles, license, bound).Some?
                    && var k := VehicleWithLicense(vehicles, license, bound).value;
                       && (forall j :: j in vehicles && vehicles[j].licenseNumber == license ==> k <= j)
                       && c.vehicles == vehicles - {k})
    ensures !c.deleted ==> c.vehicles == vehicles && c.drivers == drivers
    ensures c.vehicles.Keys <= vehicles.Keys && c.drivers.Keys <= drivers.Keys
    ensures forall k :: k in c.vehicles ==> c.vehicles[k] == vehicles[k]
    ensures forall k :: k in c.drivers ==> c.drivers[k] == drivers[k]
  {
    match DriverOfUser(drivers, user, bound)
    case None => Cascade(vehicles, drivers, false)
    case Some(d) =>
      match VehicleWithLicense(vehicles, drivers[d].licenseNumber, bound)
      case None => Cascade(vehicles, drivers, false)
      case Some(v) =>
        var vs := Store.Remove(vehicles, v);
        var ds := Store.Remove(drivers, d);
        Cascade(vs.table, ds.table, ds.removed)
  }

  /** A user has at most one driver record. */
  ghost predicate OneDriverPerUser(drivers: map<Id, DriverModel.Driver>, user: Id)
  {
    forall a, b :: a in drivers && b in drivers && drivers[a].user == user && drivers[b].user == user ==> a == b
  }

  /** A successful cascade removes the user's only driver, so repeating it
      finds no driver and deletes nothing more. */
  lemma CascadeNotRepeated(vehicles: map<Id, Vehicle>, drivers: map<Id, DriverModel.Driver>,
                           user: Id, bound: Id)
    requires forall k :: k in vehicles ==> k < bound
    requires forall k :: k in drivers ==> k < bound
    requires OneDriverPerUser(drivers, user)
    requires DeleteVehicleByUserId(vehicles, drivers, user, bound).deleted
    ensures var c := DeleteVehicleByUserId(vehicles, drivers, user, bound);
            && (forall k :: k in c.drivers ==> c.drivers[k].user != user)
            && DeleteVehicleByUserId(c.vehicles, c.drivers, user, bound) == Cascade(c.vehicles, c.drivers, false)
  {
  }

  /** The cascade can spare the vehicle the driver references and delete another
      one: a driver whose vehicle was re-licensed loses the vehicle that now
      carries the driver's licence number instead. */
  lemma DeletesByLicenseNotByReference()
    ensures var drivers := map[0 := DriverModel.Driver(7, "A", 1, 5.0, 0, true, 0, 0)];
            var vehicles := map[1 := Vehicle("B", Cab, None, None, None, None, None, None, 0, 0),
                                2 := Vehicle("A", Auto, None, None, None, None, None, None, 0, 0)];
            var c := DeleteVehicleByUserId(vehicles, drivers, 7, 3);
            c.deleted && 1 in c.vehicles && 2 !in c.vehicles && c.drivers == map[]
  {
    var drivers := map[0 := DriverModel.Driver(7, "A", 1, 5.0, 0, true, 0, 0)];
    var vehicles := map[1 := Vehicle("B", Cab, None, None, None, None, None, None, 0, 0),
                        2 := Vehicle("A", Auto, None, None, None, None, None, None, 0, 0)];
    assert DriverOfUser(drivers, 7, 3) == Some(0);
    assert vehicles[1].licenseNumber != "A";
    assert VehicleWithLicense(vehicles, "A", 3) == Some(2);
  }
}
